=== FILE: README.md ===
# Prefill-ablation harness, modelled in Dafny

This project models the core of a research harness. The harness studies what
happens when a causal language model attends bidirectionally while it reads its
prompt (the "prefill"), and causally while it generates.

- **The prefill-ablation patch** (`AttentionAblation`) is the heart of the model.
  - `apply` walks the model's submodules. It picks every attention module that
    has a boolean `is_causal` and no sentinel. It wraps that module's forward
    handler, sets the sentinel and records the original handler.
  - The wrapped handler classifies each call by the shape of its hidden states.
    On a prefill call it lowers `is_causal` and calls the original, and it
    restores the flag in a `finally`.
  - `remove` puts the recorded handlers back and deletes the sentinels.
  - The model is the sequence of submodules in `model.modules()` order. A
    module's identity is its position in that sequence. Handlers are abstract
    ids, and the behaviour of the model's own handlers is a function parameter.
- **Supervised fine-tuning** (`FinetuneSft`):
  - Alpaca prompt formatting.
  - Label masking and truncation.
  - The collator's label padding.
  - The early stop when the loss does not improve.
- **Multiple-choice evaluation** (`EvalMcq`):
  - Whitespace normalisation.
  - Benchmark rows turned into examples.
  - The log-probability guard and start position.
  - Arg-max, accuracy and chance level.
  - `--tasks` parsing and macro accuracy.
- **LLM-as-a-judge scoring** (`Judge`):
  - Markdown-fence unwrapping.
  - The retry and back-off loop.
  - Prompt selection.
  - Per-task and overall score summaries.
- **Model loading** (`ModelUtils`):
  - dtype aliases.
  - The two-loader fallback.
  - The checkpoint metadata.
  - Dispatch between raw state-dict checkpoints and plain ones.
- **Rental plan estimate** (`VastPlan`):
  - The parallel-efficiency table.
  - The speedup, hour and cost formulas, over reals.
  - Two-decimal rendering with a dash for missing values.
  - The table rows.
- **Free-form evaluation** (`EvalFreeform`):
  - Chat messages.
  - One answer per item, in dataset order.
  - The four model configurations.
  - The patch lifecycle around generation.

Shared pieces live in their own modules:
- `Wrappers`: `Option` and `Result`.
- `Text`: the Python `str` operations the harness uses (`strip`, `split`,
  `lower`, `find`, `rfind`, `" ".join(s.split())`).
- `Numbers`: sums and means of reals.

Several things outside the model become parameters:
- tokenizers, model loaders and `generate`;
- HTTP replies and JSON parsers;
- the metadata file;
- the per-token log-probabilities.

Python exceptions are modelled as `Failure` values carrying the message text the
source formats. The one exception is torch's error for `argmax()` of an empty
tensor: the model puts a fixed placeholder text there (`EvalMcq.EmptyArgmax`).

## Model

| member | source | states |
|---|---|---|
| AttentionAblation.ClassifierBoundaries | src/prefill_ablation/attention_ablation.py:34-38 | No hidden states and rank-1 states are never prefill. A query length of 0 or 1 is a decode call. Rank 2 or 3 states are prefill exactly when the second-to-last dimension exceeds 1. |
| AttentionAblation.Apply | src/prefill_ablation/attention_ablation.py:68-88 | Exactly the modules whose lower-cased class name contains "attention", whose `is_causal` is a bool and which lack a truthy sentinel get a wrapped handler and the sentinel. Each gets exactly one record, in model order, holding its original handler. Every other module is unchanged, and the patched count equals the number of eligible modules. |
| AttentionAblation.Invoke | src/prefill_ablation/attention_ablation.py:41-55 | Whether the original returns or raises, `is_causal` ends at its pre-call value. The original's outcome reaches the caller unchanged. A non-prefill call, or one with a non-bool flag, writes nothing. On a prefill call the original sees `False`. |
| AttentionAblation.CallModule | src/prefill_ablation/attention_ablation.py:43-53 | A forward call leaves the module's state as it found it. A call that is not prefill writes nothing. |
| AttentionAblation.PrefillCallOnPatchedModule | src/prefill_ablation/attention_ablation.py:43-53 | On a freshly patched module, a prefill call runs the original once with `is_causal == False` and the same arguments. It returns the original's result. It writes False and then the saved value, and leaves the module as before the call. |
| AttentionAblation.FailureRestoresFlag | src/prefill_ablation/attention_ablation.py:49-53 | When the original raises during a prefill call, the same exception propagates and `is_causal` is restored. |
| AttentionAblation.NoWriteOutsidePrefill | src/prefill_ablation/attention_ablation.py:44-53 | A decode call, or a call on a module whose `is_causal` is missing or not a bool, never writes the flag. The original sees the module's own value. |
| AttentionAblation.Remove | src/prefill_ablation/attention_ablation.py:26-31 | Unrecorded modules are untouched. Each recorded module gets its original handler back and loses its sentinel, and keeps its class and flag. |
| AttentionAblation.RemovePatch | src/prefill_ablation/attention_ablation.py:26-31 | `remove` keeps the number of modules. |
| AttentionAblation.ApplyThenRemove | src/prefill_ablation/attention_ablation.py:26-31 | `apply` then `remove` returns every module to its pre-patch state, given that no module carried a falsy sentinel before. |
| AttentionAblation.FalsyMarkerIsDeleted | src/prefill_ablation/attention_ablation.py:30-31 | A sentinel that was present but falsy before `apply` is deleted by `remove`, so that round trip is not exact. |
| AttentionAblation.ApplyNothingEligible | src/prefill_ablation/attention_ablation.py:70-77 | On a model with no eligible module, `apply` changes nothing and makes no records. |
| AttentionAblation.ApplyTwice | src/prefill_ablation/attention_ablation.py:76-77 | A second `apply` on a patched model makes no records and wraps nothing twice. |
| AttentionAblation.RemoveTwice | src/prefill_ablation/attention_ablation.py:26-31 | A second `remove` does not fail and changes nothing more. |
| AttentionAblation.PatchedModelKeepsFlags | src/prefill_ablation/attention_ablation.py:79-83 | Patching never changes `is_causal`, and any later call on a patched module restores it. |
| FinetuneSft.FormatAlpacaRecord | src/prefill_ablation/finetune_sft.py:64-87 | The record fails exactly when the stripped instruction or the stripped output is empty. Otherwise the prompt starts with the instruction section and ends with the response header. It holds an input section exactly when the stripped input is non-empty. The response is the stripped output. |
| FinetuneSft.SliceLen | src/prefill_ablation/finetune_sft.py:96-97 | `xs[:n]` keeps `min(n, len)` elements for non-negative `n`, and never more than `len`. |
| FinetuneSft.MaskedLabels | src/prefill_ablation/finetune_sft.py:97 | The ignore index sits at every prompt position, and the response ids follow it. |
| FinetuneSft.EncodeIds | src/prefill_ablation/finetune_sft.py:96-106 | All three columns have length `min(len(prompt)+len(response), max_seq_len)`. The mask is all ones. Labels are -100 on the prompt and equal the input ids on the response. A record whose kept labels are all -100 is emptied. |
| FinetuneSft.TruncatedPromptIsDropped | src/prefill_ablation/finetune_sft.py:96-100 | Truncating at or before the end of the prompt always yields the empty record. |
| FinetuneSft.ResponseTokenKeepsRecord | src/prefill_ablation/finetune_sft.py:99-106 | A response token that survives truncation and is not -100 keeps the record non-empty. |
| FinetuneSft.EncodeRecord | src/prefill_ablation/finetune_sft.py:90-106 | The encoding fails exactly when the row cannot be formatted. Otherwise it encodes the tokens of the prompt and of the response with EOS appended. |
| FinetuneSft.EncodeRows | src/prefill_ablation/finetune_sft.py:205-214 | Mapping the split fails exactly when some row cannot be formatted. Otherwise there is one encoding per row, in order. |
| FinetuneSft.KeepNonEmpty | src/prefill_ablation/finetune_sft.py:216-217 | The filter keeps no more records than it is given, each kept record has input ids and comes from the input, and every input record with input ids is kept. |
| FinetuneSft.KeepNonEmptyCounts | src/prefill_ablation/finetune_sft.py:216-217 | A record with input ids is kept as many times as it occurs, and a record without is never kept. |
| FinetuneSft.KeepNonEmptyConcat | src/prefill_ablation/finetune_sft.py:216-217 | Filtering a concatenation concatenates the filtered parts, so kept records stay in order. |
| FinetuneSft.PrepareSplit | src/prefill_ablation/finetune_sft.py:205-217 | Preparing a split fails exactly on an unformattable row, with the format error. Otherwise every kept record is non-empty and is the encoding of some row, the encoding of every row that has input ids is kept, and there are no more records than rows. |
| FinetuneSft.PrepareSplitConcat | src/prefill_ablation/finetune_sft.py:205-217 | Preparing two parts of a split succeeds exactly when both succeed, and gives the two prepared parts in order. |
| FinetuneSft.PadLabels | src/prefill_ablation/finetune_sft.py:145-148 | A padded label row has the batch width, starts with the feature's labels and is -100 after them. |
| FinetuneSft.CollateLabels | src/prefill_ablation/finetune_sft.py:144-150 | Collation gives one row per feature with the padded width, each row the labels followed by -100. A label row longer than the width is a shape error. |
| FinetuneSft.LongestInput | src/prefill_ablation/finetune_sft.py:142-144 | The padded width is the longest input length: at least every length, attained by some row, and 0 for no rows. |
| FinetuneSft.CollateEncodedNeverFails | src/prefill_ablation/finetune_sft.py:144-148 | Features whose labels are as long as their input ids always collate. |
| FinetuneSft.OnLog | src/prefill_ablation/finetune_sft.py:166-187 | A log without a loss changes nothing. The first loss sets initial and best and does not stop. After that, best is the running minimum. A stop is requested exactly when the step reaches the threshold and initial minus best is below the required improvement. A stop is never cleared. |
| FinetuneSft.ReplayTracksLosses | src/prefill_ablation/finetune_sft.py:166-177 | After any sequence of logs, initial is the first logged loss and best is the minimum of all of them. |
| FinetuneSft.StopIsSticky | src/prefill_ablation/finetune_sft.py:179-187 | Once requested, a stop stays requested through every later log. |
| Text.NormalizeSpace | src/prefill_ablation/eval_mcq.py:35-36 | The normalised text has the same words, no surrounding whitespace and only single spaces between words. |
| Text.NormalizeSpaceIdempotent | src/prefill_ablation/eval_mcq.py:35-36 | Normalising twice is normalising once. |
| Text.WordsOfJoin | src/prefill_ablation/eval_mcq.py:36 | Splitting words joined by single spaces gives the words back. |
| Text.Strip | src/prefill_ablation/finetune_sft.py:65-67 | `strip()` leaves no whitespace at either end, is empty exactly for all-whitespace text, and never grows. |
| Text.StripPadded | src/prefill_ablation/finetune_sft.py:65-67 | `strip()` removes exactly the whitespace at the ends: text with no whitespace at its ends, padded by whitespace on either side, strips back to that text. |
| Text.StripIdempotent | src/prefill_ablation/judge.py:73-76 | Stripping twice is stripping once. |
| Text.Lower | src/prefill_ablation/utils.py:24 | Lower-casing keeps the length and maps each character. |
| Text.LowerStripCommute | src/prefill_ablation/utils.py:24 | Lower-casing and stripping commute. |
| Text.IndexOf | src/prefill_ablation/judge.py:76 | The first index of a character, or none exactly when it is absent. |
| Text.FindLast | src/prefill_ablation/judge.py:76 | The last occurrence of a pattern, or none exactly when it does not occur. |
| Text.Split | src/prefill_ablation/eval_mcq.py:213 | A split on one character has at least one piece, and no piece holds the separator. |
| Text.JoinSplit | src/prefill_ablation/eval_mcq.py:213 | Joining the pieces of a split with the separator gives the original text. |
| Text.SplitJoin | src/prefill_ablation/eval_mcq.py:213 | Splitting a joined list whose pieces hold no separator gives the list back. |
| Text.SplitAtFirst | src/prefill_ablation/eval_mcq.py:85 | A split happens at the first separator. |
| Numbers.Sum | src/prefill_ablation/eval_mcq.py:231 | A sum of values in [0,1] lies in [0, count]. |
| Numbers.SumConcat | src/prefill_ablation/judge.py:163-165 | The sum of a concatenation is the sum of the sums. |
| Numbers.MeanOf | src/prefill_ablation/eval_mcq.py:231 | A mean times its count gives the sum back. A sum in [0, n] has a mean in [0,1]. |
| EvalMcq.SpacedChoice | src/prefill_ablation/eval_mcq.py:43 | A choice is a space followed by the normalised text, which keeps the words. |
| EvalMcq.SpacedChoices | src/prefill_ablation/eval_mcq.py:66 | There is one spaced choice per text, in order. |
| EvalMcq.HellaswagExample | src/prefill_ablation/eval_mcq.py:39-45 | The prompt is the normalised "label: ctx_a ctx_b" with the same words. Choice i is the spaced, normalised ending i, and the label is copied. |
| EvalMcq.PiqaExample | src/prefill_ablation/eval_mcq.py:48-54 | The prompt is the normalised goal followed by "\nAnswer:". The choices are exactly the two spaced, normalised solutions, and the label is copied. |
| EvalMcq.FirstIndex | src/prefill_ablation/eval_mcq.py:67 | `list.index` gives the first position holding the value, or none exactly when it is absent. |
| EvalMcq.ArcExample | src/prefill_ablation/eval_mcq.py:57-68 | A row is skipped exactly when its answer key (empty if missing) is not among the labels. Otherwise the label is the key's first index, there is one spaced choice per text, and the prompt is the question with its words single-spaced, followed by the answer cue. |
| EvalMcq.WinograndeExample | src/prefill_ablation/eval_mcq.py:79-89 | A row is skipped exactly when the sentence has no "_". Otherwise the prompt is the text before the first "_", the choices are each option followed by the text after it, and the label is answer - 1. |
| EvalMcq.Targets | src/prefill_ablation/eval_mcq.py:117-122 | Scoring starts at max(len(prompt) - 1, 0). Each scored position predicts the next full-sequence token. |
| EvalMcq.TotalConcat | src/prefill_ablation/eval_mcq.py:124 | The summed log-probability of consecutive target lists is the sum of their sums. |
| EvalMcq.TotalNonPositive | src/prefill_ablation/eval_mcq.py:124 | Summing non-positive log-probabilities gives a non-positive total. |
| EvalMcq.SequenceLogprob | src/prefill_ablation/eval_mcq.py:101-127 | The score is minus infinity exactly when the full ids are not longer than the prompt ids. Otherwise it is the target total, divided by max(count, 1) when normalising. |
| EvalMcq.ContinuationIsScored | src/prefill_ablation/eval_mcq.py:121-122 | When the full ids extend the prompt ids, exactly the continuation tokens are scored. |
| EvalMcq.EmptyPromptSkipsFirstToken | src/prefill_ablation/eval_mcq.py:121-122 | With an empty prompt the first token is never scored. |
| EvalMcq.NormalizedEmptyTargets | src/prefill_ablation/eval_mcq.py:125-126 | A normalised score with no targets is 0, not a division by zero. |
| EvalMcq.ScoreNonPositive | src/prefill_ablation/eval_mcq.py:119-127 | With non-positive log-probabilities, every finite score is non-positive. |
| EvalMcq.Argmax | src/prefill_ablation/eval_mcq.py:153 | The prediction is the first position of a maximal score. An empty score list has none. |
| EvalMcq.BestOf | src/prefill_ablation/eval_mcq.py:153 | The chosen position is not below any score and is above every earlier one. |
| EvalMcq.ChoiceScores | src/prefill_ablation/eval_mcq.py:149-152 | There is one score per choice, each scored against the prompt. |
| EvalMcq.CountCorrect | src/prefill_ablation/eval_mcq.py:154 | correct <= total. |
| EvalMcq.Limited | src/prefill_ablation/eval_mcq.py:141-142 | A positive limit keeps the first `limit` examples. Otherwise all are kept. |
| EvalMcq.Accuracy | src/prefill_ablation/eval_mcq.py:164 | Accuracy lies in [0,1], is correct / total for a non-empty task, and is 0 for an empty one. |
| EvalMcq.Chance | src/prefill_ablation/eval_mcq.py:165 | Chance lies in (0,1] and is 1 without examples. Otherwise it is the reciprocal of the mean choice count. |
| EvalMcq.EvaluateTask | src/prefill_ablation/eval_mcq.py:130-171 | The task fails exactly when a kept example has no choices. Otherwise total is the kept count, correct counts the first-arg-max matches, and accuracy and chance follow their formulas. |
| EvalMcq.CountChoices | src/prefill_ablation/eval_mcq.py:146-156 | Examples that all have choices contribute at least one choice each. |
| EvalMcq.CountChoicesConcat | src/prefill_ablation/eval_mcq.py:156 | The choice count of consecutive example lists is the sum of their counts. |
| EvalMcq.ChanceIsReciprocalMean | src/prefill_ablation/eval_mcq.py:165 | For a scorable non-empty task, chance times the choice count is the example count. |
| EvalMcq.Lookup | src/prefill_ablation/eval_mcq.py:92-98 | A name maps only to the task registered under it. |
| EvalMcq.LookupName | src/prefill_ablation/eval_mcq.py:92-98 | Every task is registered under its name, and only there. |
| EvalMcq.Selected | src/prefill_ablation/eval_mcq.py:213 | Selected names are stripped, non-empty, and no more than the pieces. |
| EvalMcq.SelectedOne | src/prefill_ablation/eval_mcq.py:213 | One piece gives its stripped text, or nothing when it is all whitespace. |
| EvalMcq.SelectedConcat | src/prefill_ablation/eval_mcq.py:213 | Selecting from consecutive piece lists concatenates the selections, so order and repetitions are kept. |
| EvalMcq.SelectedKeepsClean | src/prefill_ablation/eval_mcq.py:213 | Clean pieces are all kept, in order and with repetitions. |
| EvalMcq.FirstUnknown | src/prefill_ablation/eval_mcq.py:213-215 | The position of the first unregistered name, or none exactly when all names are known. |
| EvalMcq.LookupAll | src/prefill_ablation/eval_mcq.py:213-216 | The lookup fails exactly when some name is unknown, with the first unknown name's message. Otherwise there is one task per name, in order. |
| EvalMcq.ParseTasks | src/prefill_ablation/eval_mcq.py:212-216 | Splitting on commas, stripping and dropping empty pieces; the parse fails exactly on an unknown name. |
| EvalMcq.ParseTasksRoundTrip | src/prefill_ablation/eval_mcq.py:212-216 | A comma-joined task list parses back to itself, with order and duplicates kept. |
| EvalMcq.ParseNothing | src/prefill_ablation/eval_mcq.py:213 | An empty list selects no task. |
| EvalMcq.LookupNames | src/prefill_ablation/eval_mcq.py:214-216 | Looking up the names of tasks gives the tasks back. |
| EvalMcq.MacroAccuracy | src/prefill_ablation/eval_mcq.py:231 | The macro accuracy is the mean of the task accuracies, 0 without tasks, and lies in [0,1]. |
| Judge.StripFence | src/prefill_ablation/judge.py:73-77 | Content not starting with a fence is unchanged. Fenced content fails exactly when it has no newline. Otherwise the result is the stripped text that follows the first newline, cut at the last fence in that text, or all of that text when it holds no fence. |
| Judge.FenceBody | src/prefill_ablation/judge.py:76 | The body is the text before the last fence, or the whole text when no fence occurs, and is never longer than the text. |
| Judge.FenceRoundTrip | src/prefill_ablation/judge.py:75-76 | A stripped body wrapped in a fenced block with an info line unwraps to itself. |
| Judge.RunAttempt | src/prefill_ablation/judge.py:69-78 | HTTP, URL and JSON failures and missing keys are caught. Errors while reading or decoding the body, and an empty choice list, escape. Content goes through the fence unwrapping and then the JSON parse. |
| Judge.Retry | src/prefill_ablation/judge.py:68-85 | The first attempt that is not a caught failure decides the outcome. After a caught failure before the last attempt the loop waits 2^(k+1) s. After the last one it gives up with score 0. |
| Judge.CallJudge | src/prefill_ablation/judge.py:56-85 | The loop makes between 1 and max_retries attempts, each wait is 2^(i+1), and it never falls through without a result. |
| Judge.FirstSuccessWins | src/prefill_ablation/judge.py:68-77 | After n caught failures, a success on attempt n is returned after n+1 attempts. |
| Judge.AllCaughtGivesUp | src/prefill_ablation/judge.py:79-85 | When every attempt is caught, all are made. The result is score 0 with reason "judge error: " plus the last error. |
| Judge.DefaultBackOff | src/prefill_ablation/judge.py:79-82 | With the default three attempts all failing, the waits are 2 s and 4 s. |
| Judge.UnbrokenFenceEscapes | src/prefill_ablation/judge.py:76-78 | A fenced reply without a newline raises IndexError out of the loop on the first attempt. |
| Judge.Get | src/prefill_ablation/judge.py:89-107 | `item[key]` is the value when present and the KeyError message otherwise. |
| Judge.JudgePrompt | src/prefill_ablation/judge.py:89-100 | The translation prompt is used exactly for "translation_en_de", filled from source, reference and response. Otherwise the code prompt is filled from instruction, reference and response. A missing field is a KeyError. |
| Judge.JudgeItem | src/prefill_ablation/judge.py:88-107 | A missing template field fails with its KeyError. Otherwise an error escaping the judge call propagates unchanged, and a null verdict fails with the `.get` AttributeError. A verdict object gives a result exactly when the item has an "id", and otherwise fails with KeyError `'id'`. The result copies id and task type. Score defaults to 0 and reason to "". |
| Judge.StatOf | src/prefill_ablation/judge.py:161-162 | n is the number of values and the mean times n is their sum. Without values the mean is 0. |
| Judge.TaskOrder | src/prefill_ablation/judge.py:150-155 | Each task type appears once, every score's type appears, each listed type occurs among the scores, and the types are ordered by their first position in the scores. |
| Judge.FirstPos | src/prefill_ablation/judge.py:152-154 | The first position holding a task type: every earlier score has another type, and the position is the length when the type is absent. |
| Judge.Valid | src/prefill_ablation/judge.py:160 | Every valid score is positive, and there is one per item of the task with a positive score. |
| Judge.ValidMembers | src/prefill_ablation/judge.py:152-160 | A value is a valid score of a task exactly when some item of that task has it as a positive score. |
| Judge.Positive | src/prefill_ablation/judge.py:158-163 | Every score it keeps is positive, and there is one per item with a positive score, whatever its task. |
| Judge.Pooled | src/prefill_ablation/judge.py:158-163 | The extended `all_task_scores` holds only positive scores. |
| Judge.PooledMembers | src/prefill_ablation/judge.py:158-163 | A score is in `all_task_scores` exactly when it is a valid score of one of the tasks. |
| Judge.Summarize | src/prefill_ablation/judge.py:148-167 | The tasks are each score's type once, in order of first appearance. Task i's entry counts the items of that task with a positive score and its mean times n is their sum. "overall" counts every item with a positive score, as many as the task counts add up to, with their mean. |
| Judge.TaskStats | src/prefill_ablation/judge.py:158-162 | One entry per task, counting the items of that task with a positive score, with their mean. |
| Judge.Overall | src/prefill_ablation/judge.py:163-166 | The overall entry counts every positive score, as many as the per-task counts add up to, with their mean. |
| Judge.PooledCount | src/prefill_ablation/judge.py:163-166 | The overall n is the sum of the per-task n's. |
| Judge.PooledAdd | src/prefill_ablation/judge.py:151-163 | Adding an item adds its score to the pool exactly when it is positive and its task is listed. |
| Judge.PooledIsPositive | src/prefill_ablation/judge.py:159-165 | The pool holds as many scores, with the same sum, as the positive scores of the config. |
| Judge.PoolNewTask | src/prefill_ablation/judge.py:153-163 | A task seen for the first time contributes just the new item's score. |
| Judge.PooledStep | src/prefill_ablation/judge.py:151-163 | One more scored item keeps the pool and the positive scores equal in number and in sum. |
| ModelUtils.DtypeOf | src/prefill_ablation/utils.py:13-20 | A key maps to a dtype exactly when it is one of that dtype's aliases. |
| ModelUtils.ParseDtype | src/prefill_ablation/utils.py:23-27 | Parsing succeeds exactly when the lower-cased, stripped key is an alias. Otherwise it fails with "Unsupported dtype: " and the input. |
| ModelUtils.AliasesParse | src/prefill_ablation/utils.py:13-27 | A name parses to a dtype exactly when its key is one of that dtype's aliases. |
| ModelUtils.AliasesDisjoint | src/prefill_ablation/utils.py:13-20 | No name is an alias of two dtypes. |
| ModelUtils.ParseIgnoresCaseAndSpace | src/prefill_ablation/utils.py:24 | A name parses exactly like its lower-cased, stripped key. |
| ModelUtils.LoadModelOnly | src/prefill_ablation/utils.py:38-78 | The causal loader is tried first. The image-text loader is tried only when the first fails. When both fail, both errors are joined by a vertical bar in attempt order. |
| ModelUtils.JoinPath | src/prefill_ablation/utils.py:82 | `Path(dir) / name` for a single component keeps the anchor of `dir`, has its components followed by `name`, and is in normal form: no empty or "." component and no trailing slash. |
| ModelUtils.JoinNormal | src/prefill_ablation/utils.py:82 | An anchor followed by slash-joined components is a path in normal form. |
| ModelUtils.NormalIsCanonical | src/prefill_ablation/utils.py:82 | A path in normal form is exactly its anchor followed by its components joined with single slashes, so anchor and components fix the printed path. |
| ModelUtils.JoinParses | src/prefill_ablation/utils.py:82 | An anchor followed by slash-joined components parses back into that anchor and those components. |
| ModelUtils.JoinPathOfNormal | src/prefill_ablation/utils.py:82 | Joining onto a path already in normal relative form inserts a single slash. |
| ModelUtils.JoinPathNormalises | src/prefill_ablation/utils.py:82 | A trailing slash and a leading "./" are dropped, and joining onto the empty path gives the name alone. |
| ModelUtils.LoadCheckpointMeta | src/prefill_ablation/utils.py:81-88 | A missing file gives no metadata. A parsable one gives its content. Otherwise it is a RuntimeError naming the metadata path as `Path(path) / "checkpoint_meta.json"` renders it, followed by the parse error. |
| ModelUtils.WithPad | src/prefill_ablation/utils.py:106-107 | The pad token is set to EOS only when absent. |
| ModelUtils.LoadModelAndTokenizer | src/prefill_ablation/utils.py:91-144 | The dtype is validated before anything is read. A loaded model carries the parsed dtype and the padded tokenizer. It is raw exactly when the metadata says `raw_state_dict`. |
| ModelUtils.LoadWithDtype | src/prefill_ablation/utils.py:100-144 | The metadata is read first. A success has the dtype, the padded tokenizer and the format the metadata says. |
| ModelUtils.LoadChosen | src/prefill_ablation/utils.py:109-142 | The raw branch is taken exactly for a raw state-dict checkpoint. |
| ModelUtils.LoadRaw | src/prefill_ablation/utils.py:109-114 | An empty stripped base model id fails before any model is loaded. |
| ModelUtils.LoadBase | src/prefill_ablation/utils.py:116-134 | The base model loads through the fallback, and its failure is passed on unchanged. The load succeeds exactly when that works and the weights file exists, and the weights are then loaded into it. A missing weights file is a RuntimeError naming `Path(path) / "pytorch_model.bin"` as it renders. |
| ModelUtils.LoadPlain | src/prefill_ablation/utils.py:135-142 | Any other checkpoint loads the given path through the fallback. |
| ModelUtils.DispatchOnFormat | src/prefill_ablation/utils.py:109-142 | Once dtype, metadata and tokenizer are read, a raw checkpoint takes the raw branch and every other checkpoint takes the plain one. |
| ModelUtils.NullBaseModelIdIsNone | src/prefill_ablation/utils.py:110 | A null base model id renders as "None" and is not treated as missing. |
| ModelUtils.EmptyMetaIsPlain | src/prefill_ablation/utils.py:109 | An empty metadata object is falsy, so the path loads directly. |
| VastPlan.ParallelEfficiency | scripts/local/estimate_vast_plan.py:69-80 | Efficiency lies in (0,1] and is 1 exactly for at most one GPU. |
| VastPlan.EfficiencyNonIncreasing | scripts/local/estimate_vast_plan.py:69-80 | More GPUs never give a higher efficiency. |
| VastPlan.Speedup | scripts/local/estimate_vast_plan.py:83-84 | A valid setup has a positive speedup. A one-GPU setup's speedup is its factor. It is never above factor times GPU count. |
| VastPlan.PresetsHavePositiveSpeedup | scripts/local/estimate_vast_plan.py:28-35 | Every preset has at least one GPU, a positive factor and a positive speedup. |
| VastPlan.EightH100SxmSpeedup | scripts/local/estimate_vast_plan.py:33 | The 8x H100 SXM preset is 24.96 times one RTX 3090. |
| VastPlan.RunHours | scripts/local/estimate_vast_plan.py:142-143 | Run hours are at least the startup hours. |
| VastPlan.RunHoursMonotone | scripts/local/estimate_vast_plan.py:142-143 | A slower step never shortens the run. |
| VastPlan.Plan | scripts/local/estimate_vast_plan.py:141-153 | The pair's parallel hours are the larger of the two runs. The cost exists exactly when a price is known, and is the price times the sum of both runs. |
| VastPlan.PairCostCoversParallelHours | scripts/local/estimate_vast_plan.py:150-153 | The pair cost is at least the price times the parallel hours. |
| VastPlan.NatToStringRoundTrip | scripts/local/estimate_vast_plan.py:161 | A rendered number reads back as itself. |
| VastPlan.IntToString | scripts/local/estimate_vast_plan.py:161 | `str(id)` starts with '-' exactly for a negative id, and its digits read back as the magnitude. It is never a lone dash and has no leading zero, so it is the canonical decimal form. |
| VastPlan.RoundHalfEven | scripts/local/estimate_vast_plan.py:118 | Rounding moves a value by at most half. |
| VastPlan.Fmt | scripts/local/estimate_vast_plan.py:115-118 | A missing value renders as "-", and only a missing value does. |
| VastPlan.Fixed2Accurate | scripts/local/estimate_vast_plan.py:118 | A two-decimal rendering reads back within half a hundredth of the value. |
| VastPlan.RowCells | scripts/local/estimate_vast_plan.py:155-164 | A row has eight cells, starting with the setup name. The offer id cell is `str(id)` when an id is present. The offer id, price and cost cells are "-" exactly when the value is missing. |
| VastPlan.FmtAccurate | scripts/local/estimate_vast_plan.py:115-118 | A present value is printed so that it reads back within half a hundredth of itself. |
| VastPlan.RowCellsReadBack | scripts/local/estimate_vast_plan.py:155-164 | Cells 1 to 4 read back as speedup, causal hours, bidirectional hours and pair-parallel hours, in that order. Cells 6 and 7 read back as the price and the pair cost when present. |
| VastPlan.PlanTable | scripts/local/estimate_vast_plan.py:140-165 | There is one row per preset, in order, each computed with that preset's offer. |
| VastPlan.NoOffersNoCost | scripts/local/estimate_vast_plan.py:146-153 | Without live offers no row has a price or a cost. |
| EvalFreeform.BuildMessages | src/prefill_ablation/eval_freeform.py:41-51 | There are always two messages, system then user. "translation_en_de" pairs the translation prompt with the source. Every other type pairs the code prompt with the instruction. A missing field is a KeyError. |
| EvalFreeform.NewTokens | src/prefill_ablation/eval_freeform.py:82 | The new tokens are exactly the output past the input length, or none. |
| EvalFreeform.EchoOf | src/prefill_ablation/eval_freeform.py:92-97 | A result echoes source and reference when the item has a source, and instruction and reference otherwise. |
| EvalFreeform.GenerateOne | src/prefill_ablation/eval_freeform.py:64-99 | An item is answered exactly when its fields are present. tokens_generated is the number of new tokens. The response is their stripped decoding. |
| EvalFreeform.OnlyNewTokensAreDecoded | src/prefill_ablation/eval_freeform.py:81-89 | When the model continues its input, only the continuation is counted and decoded. |
| EvalFreeform.CodeItemWithSourceEchoesSource | src/prefill_ablation/eval_freeform.py:48-51 | A code item that also has a source is prompted with its instruction but echoes its source. |
| EvalFreeform.Flatten | src/prefill_ablation/eval_freeform.py:63-64 | The (task, item) pairs number exactly the dataset total. |
| EvalFreeform.TotalItems | src/prefill_ablation/eval_freeform.py:163 | The total is at least the item count of every task, and is 0 exactly when every task is empty. |
| EvalFreeform.FlattenOrder | src/prefill_ablation/eval_freeform.py:63-64 | Item j of task i comes after every item of the earlier tasks. |
| EvalFreeform.FlattenCovers | src/prefill_ablation/eval_freeform.py:63-64 | Every pair is some item of some task. |
| EvalFreeform.FirstFailure | src/prefill_ablation/eval_freeform.py:63-99 | The position of the first pair that cannot be answered, or none exactly when all can. |
| EvalFreeform.GenerateAll | src/prefill_ablation/eval_freeform.py:63-99 | One answer per pair, in order, or the error of the first pair that fails. |
| EvalFreeform.GenerateResponses | src/prefill_ablation/eval_freeform.py:54-101 | Generation succeeds exactly when every item is complete, and gives one result per item. |
| EvalFreeform.ResponsesInDatasetOrder | src/prefill_ablation/eval_freeform.py:62-101 | Results follow dataset-task order, then item order. |
| EvalFreeform.ConfigFor | src/prefill_ablation/eval_freeform.py:169-179 | A name has a configuration exactly when it is one of the four. |
| EvalFreeform.ConfigNames | src/prefill_ablation/eval_freeform.py:169-174 | A configuration is ablated exactly when its name ends in "-ablated". "vanilla" names use the base model and "finetuned" names the checkpoint. |
| EvalFreeform.SelectRuns | src/prefill_ablation/eval_freeform.py:176-185 | There is at most one run per name, and every run is a given name with its own configuration. |
| EvalFreeform.SelectRunsConcat | src/prefill_ablation/eval_freeform.py:176-185 | Selecting from consecutive name lists concatenates the runs, so they follow the order given. |
| EvalFreeform.SelectRunsOne | src/prefill_ablation/eval_freeform.py:176-185 | A known name gives one run with its configuration, and an unknown name is skipped. |
| EvalFreeform.SelectRunsKeepsKnown | src/prefill_ablation/eval_freeform.py:176-185 | Every known name given gets a run, so only unknown names are skipped. |
| EvalFreeform.DefaultRuns | src/prefill_ablation/eval_freeform.py:157-158 | By default the four configurations run: base, then checkpoint, each causal then ablated. |
| EvalFreeform.Steps | src/prefill_ablation/eval_freeform.py:119-139 | The patch is applied exactly when ablated, before generation. It is removed only when generation completed, after generation and before results are written. |
| EvalFreeform.RunConfig | src/prefill_ablation/eval_freeform.py:104-146 | Generation sees the patched model exactly when ablated. A completed run unpatches before writing. Raising generation ends the run with the patch still on. |
| EvalFreeform.CompletedRunRestoresModel | src/prefill_ablation/eval_freeform.py:124-134 | A completed run leaves the model as it was loaded. |
| EvalFreeform.AblationWithoutAttentionIsCausal | src/prefill_ablation/eval_freeform.py:124-131 | On a model with nothing to patch, the ablated configuration generates what the causal one does. |

## Left out

- File, network and subprocess I/O are not modelled. This covers the HTTP call, JSON decoding of replies and metadata, `find_cheapest_offer`'s `vastai` query, dataset downloading and shuffling, argparse, printing, output files and `shutil.copy2`. Their results are inputs.
- Torch and transformers internals are not modelled: `from_pretrained`, `generate`, the forward pass, `log_softmax`, `Trainer`, gradient checkpointing, `tokenizer.pad` and `torch.load`. Tokenizers, loaders and per-token log-probabilities are function parameters.
- `time.sleep` and wall-clock time are not modelled. The back-off is a list of waits, and `time_seconds` is not modelled.
- `set_seed` and random state are not modelled.
- IEEE floats are not modelled. Losses, accuracies, scores, hours and costs are exact reals, and NaN is not represented.
- Concurrent calls into one patched module are not modelled, because the shared `is_causal` would race. Calls are sequential.
- Python object identity and method binding are not modelled. Handlers are abstract ids.
- Base handlers writing `is_causal` themselves are not modelled.
- The template texts of the judge prompts are abstract: a prompt is its template kind plus the fields filled in.
- `Text.Lower` lower-cases ASCII letters only. Full Unicode case mapping is not modelled.
- `int(row["label"])` and Winogrande's `int(row["answer"])` conversions are not modelled. Labels and answers arrive as integers (`WinograndeRow.answer` is an `int`).
- `VastPlan.Fixed2Accurate`: Python's formatting rounds the binary float. The model rounds the exact real, half to even, so the bound is stated against the real value.
- The judge summary's `round(mean, 2)` is not modelled. Means are exact.
- In the judge summary, a task literally named "overall" would collide with the pooled entry. The model keeps the two apart.
- Judge.JudgeItem: the reply JSON is a verdict with an optional score and reason. A reply that parses to something other than an object, where `result.get` raises AttributeError, is not represented.
- Judge.JudgeItem: a `"score": null` is taken as a missing score, so it becomes 0. In the source it stays None, and the summary's `s > 0` then raises TypeError.
- Judge.RunAttempt: the message content is always text. A null content, whose `.strip()` raises AttributeError out of the retry loop, is not represented.
- FinetuneSft.FormatAlpacaRecord: row fields are text or absent. A null field, which `str(...)` renders as "None", is not represented.
- `torch.cuda.empty_cache` and `model.eval()` are not modelled, because they change no state the model tracks.

=== FILE: attention_ablation.dfy ===
/** The prefill-ablation patch: `apply` wraps the call handler of every attention
    module that has a boolean `is_causal`, the wrapped handler lowers `is_causal`
    for the duration of a prefill call, and `remove` puts the original handlers back.

    A model is the sequence of its submodules in `model.modules()` order; a module's
    identity is its position in that sequence. Handlers are abstract: the model's
    own handlers are named by an id and their behaviour is a parameter. */
module AttentionAblation {
  import opened Wrappers
  import Text

  /** What `getattr(module, "is_causal", None)` finds: nothing, a genuine bool,
      or some other value (None, an int, a tensor, ...). */
  datatype CausalAttr = Absent | Bool(b: bool) | Other

  /** The `_prefill_bidirectional_patch` attribute: missing, or present with a
      value whose truthiness is recorded. */
  datatype Marker = Unmarked | Marked(truthy: bool)

  /** A module's `forward`: one of the model's own handlers, or the guard that
      `apply` installs around the handler it replaced. */
  datatype Handler = Native(id: nat) | Wrapped(original: Handler)

  datatype Module = Module(className: string, isCausal: CausalAttr, forward: Handler, marker: Marker)

  /** `_PatchRecord`: which module was patched and the handler it had before. */
  datatype PatchRecord = PatchRecord(target: nat, originalForward: Handler)

  /** `PrefillBidirectionalPatch`: the records created by one `apply`. */
  datatype Patch = Patch(records: seq<PatchRecord>) {
    function PatchedModuleCount(): nat {
      |records|
    }
  }

  /** The state of the model after `apply`, and the handle it returned. */
  datatype Applied = Applied(modules: seq<Module>, patch: Patch)

  /** Shape of the `hidden_states` argument, or None. */
  type Hidden = Option<seq<nat>>

  /** The remaining positional and keyword arguments, passed through untouched. */
  type Args = seq<int>

  /** What a call handler produces: a value, or a raised exception. */
  datatype CallResult = Returned(value: int) | Raised(error: string)

  /** Behaviour of the model's own handlers: given the handler id, the value of
      `is_causal` while it runs, the hidden-state shape and the other arguments. */
  type NativeBehaviour = (nat, CausalAttr, Hidden, Args) -> CallResult

  // ---------------------------------------------------------------------------
  // Classification

  /** `_is_prefill_call`: a prompt pass has more than one query position. */
  predicate IsPrefillCall(hidden: Hidden) {
    hidden.Some? && |hidden.value| >= 2 && hidden.value[|hidden.value| - 2] > 1
  }

  /** Boundary cases of the classifier: a single-token decode step, an empty
      sequence, a missing tensor and a rank-1 tensor are never prefill; a prompt
      of q > 1 positions is. */
  lemma ClassifierBoundaries(batch: nat, q: nat, width: nat, n: nat)
    ensures !IsPrefillCall(None)
    ensures !IsPrefillCall(Some([n]))
    ensures !IsPrefillCall(Some([batch, 1, width])) && !IsPrefillCall(Some([batch, 0, width]))
    ensures IsPrefillCall(Some([batch, q, width])) <==> q > 1
    ensures IsPrefillCall(Some([q, width])) <==> q > 1
  {
  }

  /** The truthiness test `getattr(module, "_prefill_bidirectional_patch", False)`. */
  predicate MarkedTruthy(m: Module) {
    m.marker.Marked? && m.marker.truthy
  }

  /** The three checks of `apply`, in the order the loop makes them. */
  predicate Eligible(m: Module) {
    Text.Contains(Text.Lower(m.className), "attention")
    && m.isCausal.Bool?
    && !MarkedTruthy(m)
  }

  /** What `apply` does to a selected module. */
  function Patched(m: Module): Module {
    m.(forward := Wrapped(m.forward), marker := Marked(true))
  }

  // ---------------------------------------------------------------------------
  // apply

  /** Module `i` has a record in `recs`. */
  predicate Recorded(recs: seq<PatchRecord>, i: nat) {
    exists k :: 0 <= k < |recs| && recs[k].target == i
  }

  /** Record positions grow strictly: each module is recorded at most once. */
  predicate Increasing(recs: seq<PatchRecord>) {
    forall k, l :: 0 <= k < l < |recs| ==> recs[k].target < recs[l].target
  }

  /** Every record names a module of the model. */
  predicate InRange(recs: seq<PatchRecord>, n: nat) {
    forall k :: 0 <= k < |recs| ==> recs[k].target < n
  }

  function CountEligible(ms: seq<Module>): nat {
    if ms == [] then 0
    else CountEligible(ms[..|ms| - 1]) + (if Eligible(ms[|ms| - 1]) then 1 else 0)
  }

  lemma RecordedAppend(recs: seq<PatchRecord>, r: PatchRecord, i: nat)
    ensures Recorded(recs + [r], i) <==> Recorded(recs, i) || r.target == i
  {
    if Recorded(recs, i) {
      var k :| 0 <= k < |recs| && recs[k].target == i;
      assert (recs + [r])[k].target == i;
    }
    if r.target == i {
      assert (recs + [r])[|recs|].target == i;
    }
  }

  /** What `apply` promises of the model `after` it and the records it made:
      exactly the eligible modules are patched (new handler wrapping the old one,
      sentinel set) and recorded once each, in model order, with their original
      handler; every other module is unchanged. */
  predicate Applies(ms: seq<Module>, r: Applied) {
    && |r.modules| == |ms|
    && (forall i :: 0 <= i < |ms| && !Eligible(ms[i]) ==> r.modules[i] == ms[i])
    && (forall i :: 0 <= i < |ms| && Eligible(ms[i]) ==>
          && r.modules[i].forward == Wrapped(ms[i].forward)
          && r.modules[i].marker == Marked(true)
          && r.modules[i].className == ms[i].className
          && r.modules[i].isCausal == ms[i].isCausal)
    && InRange(r.patch.records, |ms|) && Increasing(r.patch.records)
    && (forall k :: 0 <= k < |r.patch.records| ==>
          var i := r.patch.records[k].target;
          Eligible(ms[i]) && r.patch.records[k].originalForward == ms[i].forward)
    && (forall i :: 0 <= i < |ms| ==> (Recorded(r.patch.records, i) <==> Eligible(ms[i])))
    && r.patch.PatchedModuleCount() == CountEligible(ms)
  }

  /** One more eligible module at the end is patched and recorded last. */
  lemma ApplyEligibleLast(ms: seq<Module>, prev: Applied)
    requires |ms| >= 1 && Eligible(ms[|ms| - 1]) && Applies(ms[..|ms| - 1], prev)
    ensures var n := |ms| - 1;
      Applies(ms, Applied(prev.modules + [Patched(ms[n])], Patch(prev.patch.records + [PatchRecord(n, ms[n].forward)])))
  {
    var n := |ms| - 1;
    var rec := PatchRecord(n, ms[n].forward);
    assert ms[..n] + [ms[n]] == ms;
    forall i | 0 <= i <= n ensures Recorded(prev.patch.records + [rec], i) <==> Eligible(ms[i]) {
      RecordedAppend(prev.patch.records, rec, i);
    }
  }

  /** One more module at the end that is not eligible is left alone. */
  lemma ApplyOtherLast(ms: seq<Module>, prev: Applied)
    requires |ms| >= 1 && !Eligible(ms[|ms| - 1]) && Applies(ms[..|ms| - 1], prev)
    ensures Applies(ms, Applied(prev.modules + [ms[|ms| - 1]], prev.patch))
  {
    var n := |ms| - 1;
    assert ms[..n] + [ms[n]] == ms;
    forall i | 0 <= i <= n ensures Recorded(prev.patch.records, i) <==> Eligible(ms[i]) {
      if i == n {
        assert !Recorded(prev.patch.records, n);
      }
    }
  }

  /** `apply_prefill_bidirectional_patch`, patching the modules in model order. */
  function Apply(ms: seq<Module>): (r: Applied)
    ensures Applies(ms, r)
    decreases |ms|
  {
    if ms == [] then Applied([], Patch([]))
    else
      var n := |ms| - 1;
      var m := ms[n];
      var prev := Apply(ms[..n]);
      if Eligible(m) then
        ApplyEligibleLast(ms, prev);
        Applied(prev.modules + [Patched(m)], Patch(prev.patch.records + [PatchRecord(n, m.forward)]))
      else
        ApplyOtherLast(ms, prev);
        Applied(prev.modules + [m], prev.patch)
  }

  // ---------------------------------------------------------------------------
  // The wrapped handler

  /** One forward call: the result, `is_causal` when the call returns (or raises),
      every value written to `is_causal` during the call in order, and the value
      the model's own handler saw. */
  datatype Invocation = Invocation(result: CallResult, flagAfter: CausalAttr, writes: seq<bool>, seen: CausalAttr)

  /** The model's own handler at the bottom of a chain of wrappers. */
  function NativeOf(h: Handler): nat {
    match h
    case Native(id) => id
    case Wrapped(original) => NativeOf(original)
  }

  /** Run handler `h` on a module whose `is_causal` is `flag`.
      A wrapped handler (`wrapped_forward`) classifies the call, lowers a boolean
      `is_causal` to False for a prefill call, runs the original with the same
      arguments and, in its `finally`, writes the saved value back: whether the
      original returns or raises, `is_causal` ends where it started, the outcome
      passes through unchanged, and a call that is not prefill, or meets a
      non-boolean `is_causal`, writes nothing. */
  function Invoke(h: Handler, flag: CausalAttr, hidden: Hidden, args: Args, native: NativeBehaviour): (inv: Invocation)
    ensures inv.flagAfter == flag
    ensures inv.result == native(NativeOf(h), inv.seen, hidden, args)
    ensures !(IsPrefillCall(hidden) && flag.Bool?) ==> inv.writes == [] && inv.seen == flag
    ensures IsPrefillCall(hidden) && flag.Bool? && h.Wrapped? ==> inv.seen == Bool(false)
    ensures forall k :: 0 <= k < |inv.writes| ==> inv.writes[k] == false || Bool(inv.writes[k]) == flag
    decreases h
  {
    match h
    case Native(id) => Invocation(native(id, flag, hidden, args), flag, [], flag)
    case Wrapped(original) =>
      var lower := IsPrefillCall(hidden) && flag.Bool?;
      var inner := Invoke(original, if lower then Bool(false) else flag, hidden, args, native);
      if lower then Invocation(inner.result, flag, [false] + inner.writes + [flag.b], inner.seen)
      else inner
  }

  /** A forward call on a module, through whatever handler it currently has. */
  datatype Called = Called(after: Module, result: CallResult, writes: seq<bool>)

  function CallModule(m: Module, hidden: Hidden, args: Args, native: NativeBehaviour): (c: Called)
    ensures c.after == m
    ensures !IsPrefillCall(hidden) ==> c.writes == []
  {
    var inv := Invoke(m.forward, m.isCausal, hidden, args, native);
    Called(m.(isCausal := inv.flagAfter), inv.result, inv.writes)
  }

  /** A prefill call into a freshly patched module: the original handler runs once
      with `is_causal == False` and the same arguments, its result (value or
      exception) is what the caller gets, `is_causal` is written False and then its
      saved value, and the module ends exactly as it was before the call. */
  lemma PrefillCallOnPatchedModule(m: Module, id: nat, hidden: Hidden, args: Args, native: NativeBehaviour)
    requires m.forward == Native(id) && Eligible(m)
    requires IsPrefillCall(hidden)
    ensures var c := CallModule(Patched(m), hidden, args, native);
      && c.result == native(id, Bool(false), hidden, args)
      && c.writes == [false, m.isCausal.b]
      && c.after == Patched(m)
  {
    var inner := Invoke(Native(id), Bool(false), hidden, args, native);
    assert inner.writes == [];
    assert Invoke(Wrapped(Native(id)), m.isCausal, hidden, args, native).writes == [false] + inner.writes + [m.isCausal.b];
  }

  /** The failure path: when the original handler raises, the same exception
      reaches the caller and `is_causal` is back at its value before the call. */
  lemma FailureRestoresFlag(m: Module, hidden: Hidden, args: Args, native: NativeBehaviour, e: string)
    requires m.forward.Wrapped?
    requires m.isCausal.Bool? && IsPrefillCall(hidden)
    requires native(NativeOf(m.forward), Bool(false), hidden, args) == Raised(e)
    ensures CallModule(m, hidden, args, native).result == Raised(e)
    ensures CallModule(m, hidden, args, native).after.isCausal == m.isCausal
  {
  }

  /** A decode-shaped call, or a call on a module whose `is_causal` is missing or
      not a bool, never writes `is_causal` and hands the original handler the
      module's own value. */
  lemma NoWriteOutsidePrefill(m: Module, hidden: Hidden, args: Args, native: NativeBehaviour)
    requires !IsPrefillCall(hidden) || !m.isCausal.Bool?
    ensures CallModule(m, hidden, args, native).writes == []
    ensures CallModule(m, hidden, args, native).result == native(NativeOf(m.forward), m.isCausal, hidden, args)
  {
  }

  // ---------------------------------------------------------------------------
  // remove

  /** What `remove` does to one recorded module: the original handler goes back
      and the sentinel is deleted when present (a no-op when absent). */
  function Unpatched(m: Module, original: Handler): Module {
    m.(forward := original, marker := Unmarked)
  }

  /** `PrefillBidirectionalPatch.remove`: restore each record in order. */
  function Remove(ms: seq<Module>, recs: seq<PatchRecord>): (r: seq<Module>)
    requires InRange(recs, |ms|)
    ensures |r| == |ms|
    ensures forall i :: 0 <= i < |ms| && !Recorded(recs, i) ==> r[i] == ms[i]
    ensures forall i :: 0 <= i < |ms| && Recorded(recs, i) ==>
      r[i].marker == Unmarked && r[i].className == ms[i].className && r[i].isCausal == ms[i].isCausal
    ensures Increasing(recs) ==> forall k :: 0 <= k < |recs| ==>
      r[recs[k].target] == Unpatched(ms[recs[k].target], recs[k].originalForward)
    decreases |recs|
  {
    if recs == [] then ms
    else
      var i := recs[0].target;
      var ms' := ms[i := Unpatched(ms[i], recs[0].originalForward)];
      forall j | 0 <= j < |ms| ensures Recorded(recs, j) <==> (j == i || Recorded(recs[1..], j)) {
        RecordedTail(recs, j);
      }
      IncreasingTail(recs);
      Remove(ms', recs[1..])
  }

  lemma RecordedTail(recs: seq<PatchRecord>, j: nat)
    requires recs != []
    ensures Recorded(recs, j) <==> (recs[0].target == j || Recorded(recs[1..], j))
  {
    if Recorded(recs[1..], j) {
      var k :| 0 <= k < |recs[1..]| && recs[1..][k].target == j;
      assert recs[k + 1].target == j;
    }
    if Recorded(recs, j) && recs[0].target != j {
      var k :| 0 <= k < |recs| && recs[k].target == j;
      assert recs[1..][k - 1].target == j;
    }
  }

  lemma IncreasingTail(recs: seq<PatchRecord>)
    requires recs != []
    ensures Increasing(recs) ==> Increasing(recs[1..]) && !Recorded(recs[1..], recs[0].target)
  {
    if Increasing(recs) {
      assert forall k :: 0 <= k < |recs[1..]| ==> recs[1..][k].target > recs[0].target;
    }
  }

  /** The handle's `remove`. */
  function RemovePatch(ms: seq<Module>, patch: Patch): (r: seq<Module>)
    requires InRange(patch.records, |ms|)
    ensures |r| == |ms|
  {
    Remove(ms, patch.records)
  }

  // ---------------------------------------------------------------------------
  // Lifecycle properties

  /** No module carries a falsy sentinel before patching (the sentinel is only
      ever written by `apply`, with True). */
  predicate NoFalsyMarker(ms: seq<Module>) {
    forall i :: 0 <= i < |ms| ==> ms[i].marker != Marked(false)
  }

  /** `apply` then `remove` puts every module back as it was: same handler, same
      `is_causal`, and no sentinel where there was none. */
  lemma ApplyThenRemove(ms: seq<Module>)
    requires NoFalsyMarker(ms)
    ensures var a := Apply(ms); RemovePatch(a.modules, a.patch) == ms
  {
    var a := Apply(ms);
    var r := RemovePatch(a.modules, a.patch);
    forall i | 0 <= i < |ms| ensures r[i] == ms[i] {
      if Eligible(ms[i]) {
        assert Recorded(a.patch.records, i);
        var k :| 0 <= k < |a.patch.records| && a.patch.records[k].target == i;
        assert r[i] == Unpatched(a.modules[i], a.patch.records[k].originalForward);
      }
    }
  }

  /** A sentinel that was present but falsy before `apply` is gone after `remove`:
      the one way the round trip above can fail. */
  lemma FalsyMarkerIsDeleted(m: Module)
    requires m.marker == Marked(false) && Eligible(m)
    ensures var a := Apply([m]); RemovePatch(a.modules, a.patch)[0].marker == Unmarked
  {
    var a := Apply([m]);
    assert Recorded(a.patch.records, 0);
  }

  /** On a model with nothing eligible, `apply` changes nothing and records
      nothing. */
  lemma {:induction false} ApplyNothingEligible(ms: seq<Module>)
    requires forall i :: 0 <= i < |ms| ==> !Eligible(ms[i])
    ensures Apply(ms) == Applied(ms, Patch([]))
    decreases |ms|
  {
    if ms != [] {
      var n := |ms| - 1;
      ApplyNothingEligible(ms[..n]);
      assert ms[..n] + [ms[n]] == ms;
    }
  }

  /** A second `apply` on a patched model finds nothing to do: no records, and no
      module is wrapped twice. */
  lemma ApplyTwice(ms: seq<Module>)
    ensures var a := Apply(ms);
      && Apply(a.modules).patch.records == []
      && Apply(a.modules).modules == a.modules
  {
    var a := Apply(ms);
    assert forall i :: 0 <= i < |a.modules| ==> !Eligible(a.modules[i]);
    ApplyNothingEligible(a.modules);
  }

  /** Calling `remove` a second time does not fail and changes nothing more. */
  lemma RemoveTwice(ms: seq<Module>, patch: Patch)
    requires InRange(patch.records, |ms|) && Increasing(patch.records)
    ensures var once := RemovePatch(ms, patch); RemovePatch(once, patch) == once
  {
    var once := RemovePatch(ms, patch);
    var twice := RemovePatch(once, patch);
    forall i | 0 <= i < |ms| ensures twice[i] == once[i] {
      if Recorded(patch.records, i) {
        var k :| 0 <= k < |patch.records| && patch.records[k].target == i;
        assert twice[i] == Unpatched(once[i], patch.records[k].originalForward);
      }
    }
  }

  /** While patched but not called, nothing but handlers and sentinels changed:
      every module keeps its `is_causal`, and any call restores it. */
  lemma PatchedModelKeepsFlags(ms: seq<Module>, i: nat, hidden: Hidden, args: Args, native: NativeBehaviour)
    requires 0 <= i < |ms|
    ensures Apply(ms).modules[i].isCausal == ms[i].isCausal
    ensures CallModule(Apply(ms).modules[i], hidden, args, native).after.isCausal == ms[i].isCausal
  {
  }
}

=== FILE: eval_freeform.dfy ===
/** The free-form evaluation: chat messages per item, one generated answer per
    item in dataset order, the four model configurations, and the patch
    lifecycle around generation. Tokenizer and model are given as functions;
    generation is greedy, so a function of its input. */
module EvalFreeform {
  import opened Wrappers
  import opened Text
  import Judge
  import AttentionAblation

  type Item = Judge.Item

  /** The dataset: task type to its items, in the file's key order. */
  type Dataset = seq<(string, seq<Item>)>

  const TranslationSystem: string :=
    "You are a professional translator. Translate the following English text to German. Output only the German translation, nothing else."
  const CodeSystem: string :=
    "You are an expert Python programmer. Answer the following question concisely and accurately."

  datatype Role = System | User
  datatype Message = Message(role: Role, content: string)

  // ---------------------------------------------------------------------------
  // Messages

  /** `_build_messages`: the system prompt for the task type, then the item's
      source (translation) or instruction (everything else) as the user turn;
      the KeyError if that field is missing. */
  function BuildMessages(taskType: string, item: Item): (r: Result<seq<Message>, string>)
    ensures r.Success? ==> |r.value| == 2 && r.value[0].role == System && r.value[1].role == User
    ensures taskType == Judge.TranslationTask ==>
      (r.Success? <==> "source" in item)
      && (r.Success? ==> r.value == [Message(System, TranslationSystem), Message(User, item["source"])])
      && (r.Failure? ==> r.error == "'source'")
    ensures taskType != Judge.TranslationTask ==>
      (r.Success? <==> "instruction" in item)
      && (r.Success? ==> r.value == [Message(System, CodeSystem), Message(User, item["instruction"])])
      && (r.Failure? ==> r.error == "'instruction'")
  {
    if taskType == Judge.TranslationTask then
      var source :- Judge.Get(item, "source");
      Success([Message(System, TranslationSystem), Message(User, source)])
    else
      var instruction :- Judge.Get(item, "instruction");
      Success([Message(System, CodeSystem), Message(User, instruction)])
  }

  // ---------------------------------------------------------------------------
  // One generated answer

  /** The tokenizer's chat template, the model's greedy `generate` (the whole
      output row, prompt included) and the tokenizer's `decode`. */
  datatype Generator = Generator(
    chat: seq<Message> -> seq<int>,
    generate: seq<int> -> seq<int>,
    decode: seq<int> -> string)

  /** The prompt field a result echoes. */
  datatype Echo = Source(source: string) | Instruction(instruction: string)

  datatype Generated = Generated(
    id: string, taskType: string, response: string, tokensGenerated: nat,
    echo: Echo, reference: string)

  /** `output_ids[0, n:]`: the output past the first `n` tokens, empty when the
      output is no longer than that. */
  function NewTokens(output: seq<int>, n: nat): (t: seq<int>)
    ensures |t| == if |output| >= n then |output| - n else 0
    ensures |output| >= n ==> output == output[..n] + t
  {
    if |output| >= n then output[n..] else []
  }

  /** The echoed fields: source and reference when the item has a source,
      instruction and reference otherwise. */
  function EchoOf(item: Item): (r: Result<(Echo, string), string>)
    ensures r.Success? <==> if "source" in item then "reference" in item else "instruction" in item && "reference" in item
    ensures r.Success? ==> (r.value.0.Source? <==> "source" in item)
    ensures r.Success? && "source" in item ==> r.value == (Source(item["source"]), item["reference"])
    ensures r.Success? && "source" !in item ==> r.value == (Instruction(item["instruction"]), item["reference"])
  {
    if "source" in item then
      var reference :- Judge.Get(item, "reference");
      Success((Source(item["source"]), reference))
    else
      var instruction :- Judge.Get(item, "instruction");
      var reference :- Judge.Get(item, "reference");
      Success((Instruction(instruction), reference))
  }

  /** The fields an item needs for generation to succeed: its prompt field,
      its id, and the fields its result echoes. */
  predicate Complete(taskType: string, item: Item) {
    && (if taskType == Judge.TranslationTask then "source" in item else "instruction" in item)
    && "id" in item
    && "reference" in item
    && ("source" in item || "instruction" in item)
  }

  /** The answer for one item: the response is the stripped decoding of the new
      tokens only, and their count is recorded. */
  function GenerateOne(g: Generator, taskType: string, item: Item): (r: Result<Generated, string>)
    ensures r.Success? <==> Complete(taskType, item)
    ensures r.Success? ==>
      var input := g.chat(BuildMessages(taskType, item).value);
      var output := g.generate(input);
      && r.value.id == item["id"]
      && r.value.taskType == taskType
      && r.value.tokensGenerated == (if |output| >= |input| then |output| - |input| else 0)
      && r.value.response == Strip(g.decode(NewTokens(output, |input|)))
      && Stripped(r.value.response)
      && (r.value.echo, r.value.reference) == EchoOf(item).value
  {
    var messages :- BuildMessages(taskType, item);
    var input := g.chat(messages);
    var newTokens := NewTokens(g.generate(input), |input|);
    var response := Strip(g.decode(newTokens));
    var id :- Judge.Get(item, "id");
    var echo :- EchoOf(item);
    Success(Generated(id, taskType, response, |newTokens|, echo.0, echo.1))
  }

  /** When the model continues its prompt, the answer counts and decodes exactly
      the continuation. */
  lemma OnlyNewTokensAreDecoded(g: Generator, taskType: string, item: Item, continuation: seq<int>)
    requires Complete(taskType, item)
    requires var input := g.chat(BuildMessages(taskType, item).value);
      g.generate(input) == input + continuation
    ensures GenerateOne(g, taskType, item).value.tokensGenerated == |continuation|
    ensures GenerateOne(g, taskType, item).value.response == Strip(g.decode(continuation))
  {
    var input := g.chat(BuildMessages(taskType, item).value);
    assert (input + continuation)[|input|..] == continuation;
  }

  /** A code item that also has a source field echoes the source, although its
      prompt was the instruction. */
  lemma CodeItemWithSourceEchoesSource(g: Generator, taskType: string, item: Item)
    requires taskType != Judge.TranslationTask
    requires "instruction" in item && "source" in item && "reference" in item && "id" in item
    ensures GenerateOne(g, taskType, item).Success?
    ensures BuildMessages(taskType, item).value[1].content == item["instruction"]
    ensures GenerateOne(g, taskType, item).value.echo == Source(item["source"])
  {
  }

  // ---------------------------------------------------------------------------
  // The whole dataset

  /** The (task type, item) pairs in dataset-task order, then item order. */
  function Flatten(d: Dataset): (pairs: seq<(string, Item)>)
    ensures |pairs| == TotalItems(d)
  {
    if d == [] then []
    else seq(|d[0].1|, j requires 0 <= j < |d[0].1| => (d[0].0, d[0].1[j])) + Flatten(d[1..])
  }

  /** `sum(len(v) for v in dataset.values())`. */
  function TotalItems(d: Dataset): (n: nat)
    ensures forall i :: 0 <= i < |d| ==> |d[i].1| <= n
    ensures n == 0 <==> forall i :: 0 <= i < |d| ==> d[i].1 == []
  {
    if d == [] then 0
    else
      assert forall i :: 1 <= i < |d| ==> d[i] == d[1..][i - 1];
      |d[0].1| + TotalItems(d[1..])
  }

  /** Item `j` of task `i` sits after every item of the earlier tasks. */
  lemma {:induction false} FlattenOrder(d: Dataset, i: nat, j: nat)
    requires i < |d| && j < |d[i].1|
    ensures TotalItems(d[..i]) + j < |Flatten(d)|
    ensures Flatten(d)[TotalItems(d[..i]) + j] == (d[i].0, d[i].1[j])
    decreases i
  {
    if i > 0 {
      FlattenOrder(d[1..], i - 1, j);
      assert d[1..][..i - 1] == d[..i][1..];
      assert d[1..][i - 1] == d[i];
    }
  }

  /** The position of the first pair whose generation fails, if any. */
  function FirstFailure(pairs: seq<(string, Item)>): (k: Option<nat>)
    ensures k.None? <==> forall i :: 0 <= i < |pairs| ==> Complete(pairs[i].0, pairs[i].1)
    ensures k.Some? ==> (k.value < |pairs| && !Complete(pairs[k.value].0, pairs[k.value].1)
      && forall i :: 0 <= i < k.value ==> Complete(pairs[i].0, pairs[i].1))
    decreases |pairs|
  {
    if pairs == [] then None
    else if !Complete(pairs[0].0, pairs[0].1) then Some(0)
    else
      var rest := FirstFailure(pairs[1..]);
      assert forall i :: 1 <= i < |pairs| ==> pairs[i] == pairs[1..][i - 1];
      match rest
      case None => None
      case Some(k) => Some(k + 1)
  }

  /** Every flattened pair is some item of some task. */
  lemma {:induction false} FlattenCovers(d: Dataset, k: nat)
    requires k < |Flatten(d)|
    ensures exists i, j :: 0 <= i < |d| && 0 <= j < |d[i].1| && Flatten(d)[k] == (d[i].0, d[i].1[j])
    decreases |d|
  {
    if k >= |d[0].1| {
      FlattenCovers(d[1..], k - |d[0].1|);
      var i, j :| 0 <= i < |d[1..]| && 0 <= j < |d[1..][i].1| && Flatten(d[1..])[k - |d[0].1|] == (d[1..][i].0, d[1..][i].1[j]);
      assert d[1..][i] == d[i + 1];
    } else {
      assert Flatten(d)[k] == (d[0].0, d[0].1[k]);
    }
  }

  /** One answer per pair, in order, or the error of the first pair that fails. */
  function GenerateAll(g: Generator, pairs: seq<(string, Item)>): (r: Result<seq<Generated>, string>)
    ensures r.Success? <==> forall k :: 0 <= k < |pairs| ==> Complete(pairs[k].0, pairs[k].1)
    ensures r.Success? ==> (|r.value| == |pairs|
      && forall k :: 0 <= k < |pairs| ==> Success(r.value[k]) == GenerateOne(g, pairs[k].0, pairs[k].1))
    ensures r.Failure? ==>
      exists k :: 0 <= k < |pairs| && GenerateOne(g, pairs[k].0, pairs[k].1) == Failure(r.error)
                  && forall k' :: 0 <= k' < k ==> Complete(pairs[k'].0, pairs[k'].1)
  {
    match FirstFailure(pairs)
    case Some(k) => Failure(GenerateOne(g, pairs[k].0, pairs[k].1).error)
    case None => Success(seq(|pairs|, k requires 0 <= k < |pairs| => GenerateOne(g, pairs[k].0, pairs[k].1).value))
  }

  /** `_generate_responses`: one answer per item of every task, in order. */
  function GenerateResponses(g: Generator, d: Dataset): (r: Result<seq<Generated>, string>)
    ensures r.Success? <==> forall i, j :: 0 <= i < |d| && 0 <= j < |d[i].1| ==> Complete(d[i].0, d[i].1[j])
    ensures r.Success? ==> |r.value| == TotalItems(d)
  {
    var pairs := Flatten(d);
    forall k | 0 <= k < |pairs| ensures exists i, j :: 0 <= i < |d| && 0 <= j < |d[i].1| && pairs[k] == (d[i].0, d[i].1[j]) {
      FlattenCovers(d, k);
    }
    forall i, j | 0 <= i < |d| && 0 <= j < |d[i].1| ensures TotalItems(d[..i]) + j < |pairs| && pairs[TotalItems(d[..i]) + j] == (d[i].0, d[i].1[j]) {
      FlattenOrder(d, i, j);
    }
    GenerateAll(g, pairs)
  }

  /** The answer to item `j` of task `i` sits after the answers to every item of
      the earlier tasks. */
  lemma ResponsesInDatasetOrder(g: Generator, d: Dataset, i: nat, j: nat)
    requires i < |d| && j < |d[i].1|
    requires GenerateResponses(g, d).Success?
    ensures var r := GenerateResponses(g, d).value;
      TotalItems(d[..i]) + j < |r| && Success(r[TotalItems(d[..i]) + j]) == GenerateOne(g, d[i].0, d[i].1[j])
  {
    FlattenOrder(d, i, j);
  }

  // ---------------------------------------------------------------------------
  // Configurations

  datatype Config = Config(modelPath: string, ablated: bool)

  const AblatedSuffix: string := "-ablated"
  const DefaultConfigs: seq<string> := ["vanilla", "vanilla-ablated", "finetuned", "finetuned-ablated"]

  /** The `config_map` entry for a name, or None for an unknown name. */
  function ConfigFor(name: string, baseModel: string, checkpoint: string): (c: Option<Config>)
    ensures c.Some? <==> name in DefaultConfigs
  {
    if name == "vanilla" then Some(Config(baseModel, false))
    else if name == "vanilla-ablated" then Some(Config(baseModel, true))
    else if name == "finetuned" then Some(Config(checkpoint, false))
    else if name == "finetuned-ablated" then Some(Config(checkpoint, true))
    else None
  }

  /** The names say what a configuration is: it is ablated exactly when its name
      ends in "-ablated", the "vanilla" ones load the base model and the
      "finetuned" ones the checkpoint. */
  lemma ConfigNames(name: string, baseModel: string, checkpoint: string)
    requires name in DefaultConfigs
    ensures var c := ConfigFor(name, baseModel, checkpoint).value;
      && (c.ablated <==> HasSuffix(name, AblatedSuffix))
      && (HasPrefix(name, "vanilla") ==> c.modelPath == baseModel)
      && (HasPrefix(name, "finetuned") ==> c.modelPath == checkpoint)
  {
    if name == "vanilla" {
      assert name[0] == 'v';
    } else if name == "vanilla-ablated" {
      assert name[0] == 'v' && name[|name| - 8..] == AblatedSuffix;
    } else if name == "finetuned" {
      assert name[0] == 'f' && name[1] == 'i';
    } else {
      assert name[0] == 'f' && name[|name| - 8..] == AblatedSuffix;
    }
  }

  /** The runs `main` performs: the known names in the order given, each with
      its configuration; unknown names are skipped. */
  function SelectRuns(names: seq<string>, baseModel: string, checkpoint: string): (runs: seq<(string, Config)>)
    ensures |runs| <= |names|
    ensures forall k :: 0 <= k < |runs| ==> ConfigFor(runs[k].0, baseModel, checkpoint) == Some(runs[k].1)
    ensures forall k :: 0 <= k < |runs| ==> runs[k].0 in names
  {
    if names == [] then []
    else
      var rest := SelectRuns(names[1..], baseModel, checkpoint);
      match ConfigFor(names[0], baseModel, checkpoint)
      case None => rest
      case Some(c) =>
        var runs := [(names[0], c)] + rest;
        assert forall k :: 1 <= k < |runs| ==> runs[k] == rest[k - 1];
        runs
  }

  /** The runs of consecutive name lists follow one another: runs keep the order
      of their names. */
  lemma {:induction false} SelectRunsConcat(a: seq<string>, b: seq<string>, baseModel: string, checkpoint: string)
    ensures SelectRuns(a + b, baseModel, checkpoint) == SelectRuns(a, baseModel, checkpoint) + SelectRuns(b, baseModel, checkpoint)
    decreases |a|
  {
    if a == [] {
      assert a + b == b;
    } else {
      assert (a + b)[0] == a[0];
      assert (a + b)[1..] == a[1..] + b;
      SelectRunsConcat(a[1..], b, baseModel, checkpoint);
    }
  }

  /** A single name gives its run when it is known and nothing otherwise. */
  lemma SelectRunsOne(name: string, baseModel: string, checkpoint: string)
    ensures SelectRuns([name], baseModel, checkpoint) ==
      if name in DefaultConfigs then [(name, ConfigFor(name, baseModel, checkpoint).value)] else []
  {
    assert [name][1..] == [];
  }

  /** Every known name given gets a run; only unknown names are skipped. */
  lemma {:induction false} SelectRunsKeepsKnown(names: seq<string>, baseModel: string, checkpoint: string, i: nat)
    requires i < |names| && names[i] in DefaultConfigs
    ensures exists k :: 0 <= k < |SelectRuns(names, baseModel, checkpoint)| && SelectRuns(names, baseModel, checkpoint)[k].0 == names[i]
    decreases i
  {
    var runs := SelectRuns(names, baseModel, checkpoint);
    var rest := SelectRuns(names[1..], baseModel, checkpoint);
    var head := ConfigFor(names[0], baseModel, checkpoint);
    assert head.Some? ==> runs == [(names[0], head.value)] + rest;
    assert head.None? ==> runs == rest;
    if i == 0 {
      assert runs[0].0 == names[0];
    } else {
      assert names[1..][i - 1] == names[i];
      SelectRunsKeepsKnown(names[1..], baseModel, checkpoint, i - 1);
      var k :| 0 <= k < |rest| && rest[k].0 == names[i];
      assert head.Some? ==> runs[k + 1] == rest[k];
    }
  }

  /** By default all four configurations run: base model then checkpoint, each
      causal then ablated. */
  lemma DefaultRuns(baseModel: string, checkpoint: string)
    ensures SelectRuns(DefaultConfigs, baseModel, checkpoint) == [
      ("vanilla", Config(baseModel, false)), ("vanilla-ablated", Config(baseModel, true)),
      ("finetuned", Config(checkpoint, false)), ("finetuned-ablated", Config(checkpoint, true))]
  {
    var d := DefaultConfigs;
    assert d[1..][1..][1..][1..] == [];
    assert SelectRuns(d[1..][1..][1..], baseModel, checkpoint) == [("finetuned-ablated", Config(checkpoint, true))];
    assert SelectRuns(d[1..][1..], baseModel, checkpoint)
      == [("finetuned", Config(checkpoint, false)), ("finetuned-ablated", Config(checkpoint, true))];
    assert SelectRuns(d[1..], baseModel, checkpoint)
      == [("vanilla-ablated", Config(baseModel, true)), ("finetuned", Config(checkpoint, false)), ("finetuned-ablated", Config(checkpoint, true))];
  }

  // ---------------------------------------------------------------------------
  // One configuration's run

  datatype Step = Load(path: string) | ApplyPatch | Generate | RemovePatch | Write(file: string)

  /** The steps of one configuration's run: load, patch when ablated, generate;
      then, only when generation completed, unpatch when ablated and write
      `<name>.json`. */
  function Steps(name: string, config: Config, completed: bool): (steps: seq<Step>)
    ensures |steps| >= 2 && steps[0] == Load(config.modelPath)
    ensures ApplyPatch in steps <==> config.ablated
    ensures RemovePatch in steps <==> config.ablated && completed
    ensures Write(name + ".json") in steps <==> completed
    ensures forall i, j :: 0 <= i < |steps| && 0 <= j < |steps| && steps[i] == ApplyPatch && steps[j] == Generate ==> i < j
    ensures forall i, j :: 0 <= i < |steps| && 0 <= j < |steps| && steps[i] == RemovePatch && steps[j].Write? ==> i < j
    ensures forall i, j :: 0 <= i < |steps| && 0 <= j < |steps| && steps[i] == Generate && steps[j] == RemovePatch ==> i < j
  {
    var start := [Load(config.modelPath)] + (if config.ablated then [ApplyPatch] else []) + [Generate];
    var finish := if completed then (if config.ablated then [RemovePatch] else []) + [Write(name + ".json")] else [];
    start + finish
  }

  /** What one configuration did: the modules generation ran on, the modules
      when the run ended, the records the patch took, the results and the
      steps in order. */
  datatype ConfigRun = ConfigRun(
    duringGeneration: seq<AttentionAblation.Module>,
    atEnd: seq<AttentionAblation.Module>,
    patchedCount: nat,
    results: Result<seq<Generated>, string>,
    steps: seq<Step>)

  /** `_run_config`: generation sees the patched modules exactly when the
      configuration is ablated; a completed run unpatches before writing, and
      generation raising ends the run with the patch still on. */
  function RunConfig(name: string, config: Config, loaded: seq<AttentionAblation.Module>,
                     generatorFor: seq<AttentionAblation.Module> -> Generator, d: Dataset): (run: ConfigRun)
    ensures config.ablated ==>
      (run.duringGeneration == AttentionAblation.Apply(loaded).modules
       && run.patchedCount == AttentionAblation.CountEligible(loaded))
    ensures !config.ablated ==> run.duringGeneration == loaded && run.patchedCount == 0
    ensures run.results == GenerateResponses(generatorFor(run.duringGeneration), d)
    ensures run.steps == Steps(name, config, run.results.Success?)
    ensures run.results.Success? && config.ablated ==>
      run.atEnd == (var a := AttentionAblation.Apply(loaded); AttentionAblation.RemovePatch(a.modules, a.patch))
    ensures run.results.Success? && !config.ablated ==> run.atEnd == loaded
    ensures run.results.Failure? ==> run.atEnd == run.duringGeneration
  {
    var a := AttentionAblation.Apply(loaded);
    var during := if config.ablated then a.modules else loaded;
    var count := if config.ablated then a.patch.PatchedModuleCount() else 0;
    var results := GenerateResponses(generatorFor(during), d);
    var after :=
      if results.Failure? then during
      else if config.ablated then AttentionAblation.RemovePatch(a.modules, a.patch)
      else loaded;
    ConfigRun(during, after, count, results, Steps(name, config, results.Success?))
  }

  /** A completed run leaves the loaded model exactly as it was loaded before
      anything is written. */
  lemma CompletedRunRestoresModel(name: string, config: Config, loaded: seq<AttentionAblation.Module>,
                                  generatorFor: seq<AttentionAblation.Module> -> Generator, d: Dataset)
    requires AttentionAblation.NoFalsyMarker(loaded)
    requires RunConfig(name, config, loaded, generatorFor, d).results.Success?
    ensures RunConfig(name, config, loaded, generatorFor, d).atEnd == loaded
  {
    AttentionAblation.ApplyThenRemove(loaded);
  }

  /** On a model with no attention module to patch, the ablated configuration
      generates exactly what the causal one does. */
  lemma AblationWithoutAttentionIsCausal(name: string, config: Config, loaded: seq<AttentionAblation.Module>,
                                         generatorFor: seq<AttentionAblation.Module> -> Generator, d: Dataset)
    requires forall i :: 0 <= i < |loaded| ==> !AttentionAblation.Eligible(loaded[i])
    ensures RunConfig(name, config, loaded, generatorFor, d).results
      == RunConfig(name, Config(config.modelPath, false), loaded, generatorFor, d).results
  {
    AttentionAblation.ApplyNothingEligible(loaded);
  }
}

=== FILE: eval_mcq.dfy ===
/** The zero-shot multiple-choice evaluator: benchmark rows become examples, each
    choice is scored by the log-probability of its tokens after the prompt, the
    best-scoring choice is the prediction, and per-task accuracy and chance level
    are aggregated. Dataset loading, tokenisation and the model's log-softmax are
    inputs. */
module EvalMcq {
  import opened Wrappers
  import opened Text
  import opened Numbers

  /** One multiple-choice item: the prompt, the continuations, the index of the right
      choice (`label`). */
  datatype Example = Example(prompt: string, choices: seq<string>, gold: int)

  /** `" " + _normalize_space(text)`: the form every HellaSwag, PIQA and ARC choice
      takes. */
  function SpacedChoice(text: string): (c: string)
    ensures |c| >= 1 && c[0] == ' '
    ensures Words(c[1..]) == Words(text) && SingleSpaced(c[1..]) && Stripped(c[1..])
  {
    var n := NormalizeSpace(text);
    assert ([' '] + n)[1..] == n;
    [' '] + n
  }

  function SpacedChoices(texts: seq<string>): (cs: seq<string>)
    ensures |cs| == |texts|
    ensures forall i :: 0 <= i < |texts| ==> cs[i] == SpacedChoice(texts[i])
  {
    seq(|texts|, i requires 0 <= i < |texts| => SpacedChoice(texts[i]))
  }

  const AnswerCue: string := "\nAnswer:"

  // ---------------------------------------------------------------------------
  // Per-row transforms of the loaders

  datatype HellaswagRow = HellaswagRow(activityLabel: string, ctxA: string, ctxB: string, endings: seq<string>, gold: int)

  /** One row of `load_hellaswag`: the whitespace-normalised
      "activity: context-a context-b" as prompt and one spaced choice per ending. */
  function HellaswagExample(row: HellaswagRow): (ex: Example)
    ensures Words(ex.prompt) == Words(row.activityLabel + ": " + row.ctxA + " " + row.ctxB)
    ensures Stripped(ex.prompt) && SingleSpaced(ex.prompt)
    ensures |ex.choices| == |row.endings|
    ensures forall i :: 0 <= i < |row.endings| ==> ex.choices[i] == SpacedChoice(row.endings[i])
    ensures ex.gold == row.gold
  {
    Example(NormalizeSpace(row.activityLabel + ": " + row.ctxA + " " + row.ctxB), SpacedChoices(row.endings), row.gold)
  }

  datatype PiqaRow = PiqaRow(goal: string, sol1: string, sol2: string, gold: int)

  /** One row of `load_piqa`: the normalised goal followed by the answer cue, and
      exactly two spaced choices. */
  function PiqaExample(row: PiqaRow): (ex: Example)
    ensures HasSuffix(ex.prompt, AnswerCue)
    ensures var goal := ex.prompt[..|ex.prompt| - |AnswerCue|];
      Words(goal) == Words(row.goal) && Stripped(goal) && SingleSpaced(goal)
    ensures ex.choices == [SpacedChoice(row.sol1), SpacedChoice(row.sol2)]
    ensures ex.gold == row.gold
  {
    var goal := NormalizeSpace(row.goal);
    assert (goal + AnswerCue)[..|goal|] == goal;
    Example(goal + AnswerCue, [SpacedChoice(row.sol1), SpacedChoice(row.sol2)], row.gold)
  }

  /** An ARC row; `answerKey` may be missing. */
  datatype ArcRow = ArcRow(question: string, labels: seq<string>, texts: seq<string>, answerKey: Option<string>)

  /** `labels.index(answer)`: the first position holding `x`, if any. */
  function FirstIndex(xs: seq<string>, x: string): (r: Option<nat>)
    ensures r.None? <==> x !in xs
    ensures r.Some? ==> r.value < |xs| && xs[r.value] == x && x !in xs[..r.value]
  {
    if xs == [] then None
    else if xs[0] == x then Some(0)
    else match FirstIndex(xs[1..], x)
      case None => None
      case Some(i) =>
        assert xs[..i + 1] == [xs[0]] + xs[1..][..i];
        Some(i + 1)
  }

  /** One row of `_load_arc`: rows whose answer key (empty when missing) is not
      among the choice labels are skipped; otherwise the label is the first
      position of the key and every text becomes a spaced choice. */
  function ArcExample(row: ArcRow): (r: Option<Example>)
    ensures r.None? <==> row.answerKey.GetOr("") !in row.labels
    ensures r.Some? ==>
      && 0 <= r.value.gold < |row.labels|
      && row.labels[r.value.gold] == row.answerKey.GetOr("")
      && (forall j :: 0 <= j < r.value.gold ==> row.labels[j] != row.answerKey.GetOr(""))
      && |r.value.choices| == |row.texts|
      && (forall i :: 0 <= i < |row.texts| ==> r.value.choices[i] == SpacedChoice(row.texts[i]))
      && HasSuffix(r.value.prompt, AnswerCue)
      && var q := r.value.prompt[..|r.value.prompt| - |AnswerCue|];
         Words(q) == Words(row.question) && Stripped(q) && SingleSpaced(q)
  {
    var answer := row.answerKey.GetOr("");
    match FirstIndex(row.labels, answer)
    case None => None
    case Some(idx) =>
      var question := NormalizeSpace(row.question);
      assert (question + AnswerCue)[..|question|] == question;
      assert forall j :: 0 <= j < idx ==> row.labels[j] == row.labels[..idx][j];
      Some(Example(question + AnswerCue, SpacedChoices(row.texts), idx))
  }

  datatype WinograndeRow = WinograndeRow(sentence: string, option1: string, option2: string, answer: int)

  /** One row of `load_winogrande`: sentences without a blank are skipped;
      otherwise the prompt is the text before the first blank, each option is
      followed by the text after it, and the 1-based answer becomes 0-based. */
  function WinograndeExample(row: WinograndeRow): (r: Option<Example>)
    ensures r.None? <==> '_' !in row.sentence
    ensures r.Some? ==>
      var prompt := r.value.prompt;
      && '_' !in prompt
      && |prompt| < |row.sentence|
      && row.sentence == prompt + "_" + row.sentence[|prompt| + 1..]
      && r.value.choices == [row.option1 + row.sentence[|prompt| + 1..], row.option2 + row.sentence[|prompt| + 1..]]
      && r.value.gold == row.answer - 1
  {
    match IndexOf(row.sentence, '_')
    case None => None
    case Some(i) =>
      var prefix := row.sentence[..i];
      var suffix := row.sentence[i + 1..];
      assert row.sentence == prefix + "_" + suffix;
      Some(Example(prefix, [row.option1 + suffix, row.option2 + suffix], row.answer - 1))
  }

  // ---------------------------------------------------------------------------
  // Scoring one continuation

  /** A choice's score: a finite log-probability, or minus infinity. */
  datatype Score = NegInf | Finite(v: real)

  predicate Below(a: Score, b: Score) {
    match (a, b)
    case (NegInf, Finite(_)) => true
    case (Finite(x), Finite(y)) => x < y
    case _ => false
  }

  /** The first position whose logits are scored: the one predicting the first
      token after the prompt, or 0 for an empty prompt. */
  function ScoreStart(promptLen: nat): nat {
    if promptLen >= 1 then promptLen - 1 else 0
  }

  /** The scored (position, target token) pairs: from the start position to the
      last position that has a next token. */
  function Targets(promptIds: seq<int>, fullIds: seq<int>): (ts: seq<(nat, int)>)
    requires |fullIds| > |promptIds|
    ensures |ts| == |fullIds| - 1 - ScoreStart(|promptIds|)
    ensures forall k :: 0 <= k < |ts| ==>
      ts[k].0 == ScoreStart(|promptIds|) + k && ts[k].1 == fullIds[ts[k].0 + 1]
  {
    var start := ScoreStart(|promptIds|);
    seq(|fullIds| - 1 - start, k requires 0 <= k < |fullIds| - 1 - start => (start + k, fullIds[start + k + 1]))
  }

  /** The summed log-probability of a list of targets. */
  function Total(ts: seq<(nat, int)>, logprob: (nat, int) -> real): real {
    if ts == [] then 0.0 else Total(ts[..|ts| - 1], logprob) + logprob(ts[|ts| - 1].0, ts[|ts| - 1].1)
  }

  /** The total of consecutive target lists is the sum of their totals. */
  lemma {:induction false} TotalConcat(a: seq<(nat, int)>, b: seq<(nat, int)>, logprob: (nat, int) -> real)
    ensures Total(a + b, logprob) == Total(a, logprob) + Total(b, logprob)
    decreases |b|
  {
    if b == [] {
      assert a + b == a;
    } else {
      var init := b[..|b| - 1];
      assert (a + b)[..|a + b| - 1] == a + init;
      TotalConcat(a, init, logprob);
    }
  }

  /** `sequence_logprob`, given the token ids of the prompt and of prompt plus
      continuation and the model's log-probability of each token at each
      position. A continuation that adds no tokens scores minus infinity; the
      normalised score divides by the target count, guarded against zero. */
  function SequenceLogprob(promptIds: seq<int>, fullIds: seq<int>, logprob: (nat, int) -> real, normalize: bool): (s: Score)
    ensures s.NegInf? <==> |fullIds| <= |promptIds|
    ensures s.Finite? && !normalize ==> s.v == Total(Targets(promptIds, fullIds), logprob)
    ensures s.Finite? && normalize ==>
      var ts := Targets(promptIds, fullIds);
      s.v * (if |ts| == 0 then 1.0 else |ts| as real) == Total(ts, logprob)
  {
    if |fullIds| <= |promptIds| then NegInf
    else
      var ts := Targets(promptIds, fullIds);
      var total := Total(ts, logprob);
      if normalize then Finite(total / (if |ts| == 0 then 1 else |ts|) as real) else Finite(total)
  }

  /** When the tokenizer extends the prompt's tokens, the targets are exactly the
      continuation's tokens, each once, and no prompt token is scored. */
  lemma ContinuationIsScored(promptIds: seq<int>, fullIds: seq<int>)
    requires |fullIds| > |promptIds| >= 1
    requires fullIds[..|promptIds|] == promptIds
    ensures var ts := Targets(promptIds, fullIds);
      |ts| == |fullIds| - |promptIds|
      && forall k :: 0 <= k < |ts| ==> ts[k].1 == fullIds[|promptIds|..][k]
  {
  }

  /** With an empty prompt the first token has no prediction and is never scored. */
  lemma EmptyPromptSkipsFirstToken(fullIds: seq<int>)
    requires |fullIds| >= 1
    ensures var ts := Targets([], fullIds);
      |ts| == |fullIds| - 1 && forall k :: 0 <= k < |ts| ==> ts[k].1 == fullIds[1..][k]
  {
  }

  /** A single-token continuation of an empty prompt has no targets, and the
      normalised score is then 0 rather than a division by zero. */
  lemma NormalizedEmptyTargets(token: int, logprob: (nat, int) -> real)
    ensures SequenceLogprob([], [token], logprob, true) == Finite(0.0)
  {
    assert Targets([], [token]) == [];
  }

  /** Log-probabilities are never positive, so neither is any finite score. */
  lemma {:induction false} TotalNonPositive(ts: seq<(nat, int)>, logprob: (nat, int) -> real)
    requires forall k :: 0 <= k < |ts| ==> logprob(ts[k].0, ts[k].1) <= 0.0
    ensures Total(ts, logprob) <= 0.0
    decreases |ts|
  {
    if ts != [] {
      var init := ts[..|ts| - 1];
      assert forall k :: 0 <= k < |init| ==> init[k] == ts[k];
      TotalNonPositive(init, logprob);
    }
  }

  lemma ScoreNonPositive(promptIds: seq<int>, fullIds: seq<int>, logprob: (nat, int) -> real, normalize: bool)
    requires forall p: nat, t: int :: logprob(p, t) <= 0.0
    ensures var s := SequenceLogprob(promptIds, fullIds, logprob, normalize); s.Finite? ==> s.v <= 0.0
  {
    if |fullIds| > |promptIds| {
      TotalNonPositive(Targets(promptIds, fullIds), logprob);
    }
  }

  // ---------------------------------------------------------------------------
  // Prediction and aggregation

  /** `torch.tensor(scores).argmax()` over the first `n` scores: the first position
      of the maximum. */
  function BestOf(scores: seq<Score>, n: nat): (b: nat)
    requires 1 <= n <= |scores|
    ensures b < n
    ensures forall j :: 0 <= j < n ==> !Below(scores[b], scores[j])
    ensures forall j :: 0 <= j < b ==> Below(scores[j], scores[b])
  {
    if n == 1 then 0
    else
      var b := BestOf(scores, n - 1);
      if Below(scores[b], scores[n - 1]) then n - 1 else b
  }

  /** The predicted choice: the first maximal score. An empty score list has no
      arg-max (torch raises). */
  function Argmax(scores: seq<Score>): (r: Option<nat>)
    ensures r.None? <==> scores == []
    ensures r.Some? ==>
      && r.value < |scores|
      && (forall j :: 0 <= j < |scores| ==> !Below(scores[r.value], scores[j]))
      && (forall j :: 0 <= j < r.value ==> Below(scores[j], scores[r.value]))
  {
    if scores == [] then None else Some(BestOf(scores, |scores|))
  }

  /** Scores of every choice of an example, by a choice scorer. */
  function ChoiceScores(ex: Example, score: (string, string) -> Score): (ss: seq<Score>)
    ensures |ss| == |ex.choices|
    ensures forall j :: 0 <= j < |ex.choices| ==> ss[j] == score(ex.prompt, ex.choices[j])
  {
    seq(|ex.choices|, j requires 0 <= j < |ex.choices| => score(ex.prompt, ex.choices[j]))
  }

  /** The example's prediction matches its label. */
  predicate Correct(ex: Example, score: (string, string) -> Score)
    requires ex.choices != []
  {
    Argmax(ChoiceScores(ex, score)).value == ex.gold
  }

  predicate Scorable(exs: seq<Example>) {
    forall i :: 0 <= i < |exs| ==> exs[i].choices != []
  }

  /** The number of correctly predicted examples. */
  function CountCorrect(exs: seq<Example>, score: (string, string) -> Score): (n: nat)
    requires Scorable(exs)
    ensures n <= |exs|
  {
    if exs == [] then 0
    else CountCorrect(exs[..|exs| - 1], score) + (if Correct(exs[|exs| - 1], score) then 1 else 0)
  }

  /** The number of choices over all examples: at least one per example when
      every example has a choice. */
  function CountChoices(exs: seq<Example>): (n: nat)
    ensures Scorable(exs) ==> n >= |exs|
  {
    if exs == [] then 0
    else
      var init := exs[..|exs| - 1];
      assert forall i :: 0 <= i < |init| ==> init[i] == exs[i];
      CountChoices(init) + |exs[|exs| - 1].choices|
  }

  /** `examples[:limit]` when the limit is positive, all examples otherwise. */
  function Limited(exs: seq<Example>, limit: int): (r: seq<Example>)
    ensures limit > 0 ==> |r| == if limit < |exs| then limit else |exs|
    ensures limit <= 0 ==> r == exs
    ensures forall i :: 0 <= i < |r| ==> r[i] == exs[i]
  {
    if limit > 0 && limit < |exs| then exs[..limit] else exs
  }

  datatype Metrics = Metrics(total: nat, correct: nat, accuracy: real, chance: real)

  /** The error of an arg-max over an example without choices. */
  const EmptyArgmax: string := "argmax of an empty score list"

  /** `correct / max(total, 1)` */
  function Accuracy(correct: nat, total: nat): (a: real)
    requires correct <= total
    ensures 0.0 <= a <= 1.0
    ensures total > 0 ==> a * total as real == correct as real
    ensures total == 0 ==> a == 0.0
  {
    correct as real / (if total == 0 then 1 else total) as real
  }

  /** `1 / max(mean choice count, 1)`: the accuracy of guessing uniformly. */
  function Chance(choices: nat, total: nat): (c: real)
    ensures 0.0 < c <= 1.0
    ensures total == 0 ==> c == 1.0
    ensures total > 0 && choices >= total ==> c * choices as real == total as real
  {
    var mean := choices as real / (if total == 0 then 1 else total) as real;
    if total == 0 then 1.0 else 1.0 / (if mean >= 1.0 then mean else 1.0)
  }

  /** `evaluate_task`: score every choice of the first `limit` examples, predict
      the first best choice, and report the count, accuracy and chance level. An
      example without choices fails the whole task. */
  method EvaluateTask(exs: seq<Example>, limit: int, score: (string, string) -> Score) returns (r: Result<Metrics, string>)
    ensures r.Failure? <==> !Scorable(Limited(exs, limit))
    ensures r.Success? ==>
      var kept := Limited(exs, limit);
      && r.value.total == |kept|
      && r.value.correct == CountCorrect(kept, score)
      && r.value.correct <= r.value.total
      && r.value.accuracy == Accuracy(r.value.correct, r.value.total)
      && r.value.chance == Chance(CountChoices(kept), r.value.total)
  {
    var kept := Limited(exs, limit);
    var correct := 0;
    var total := 0;
    var choices := 0;
    var i := 0;
    while i < |kept|
      invariant 0 <= i <= |kept|
      invariant Scorable(kept[..i])
      invariant total == i
      invariant correct == CountCorrect(kept[..i], score)
      invariant choices == CountChoices(kept[..i])
    {
      var ex := kept[i];
      CountStep(kept, i, score);
      var pred := Argmax(ChoiceScores(ex, score));
      if pred.None? {
        assert !Scorable(kept);
        return Failure(EmptyArgmax);
      }
      if pred.value == ex.gold {
        correct := correct + 1;
      }
      total := total + 1;
      choices := choices + |ex.choices|;
      i := i + 1;
    }
    assert kept[..i] == kept;
    r := Success(Metrics(total, correct, Accuracy(correct, total), Chance(choices, total)));
  }

  /** The counts over the first `i + 1` examples extend those over the first `i`. */
  lemma CountStep(exs: seq<Example>, i: nat, score: (string, string) -> Score)
    requires i < |exs| && Scorable(exs[..i])
    ensures CountChoices(exs[..i + 1]) == CountChoices(exs[..i]) + |exs[i].choices|
    ensures exs[i].choices != [] ==> Scorable(exs[..i + 1])
    ensures exs[i].choices != [] ==>
      CountCorrect(exs[..i + 1], score) == CountCorrect(exs[..i], score) + if Correct(exs[i], score) then 1 else 0
  {
    var next := exs[..i + 1];
    assert next[..i] == exs[..i];
    assert next[i] == exs[i];
  }

  /** The choice count of consecutive example lists is the sum of their counts:
      every example's choices are counted once. */
  lemma {:induction false} CountChoicesConcat(a: seq<Example>, b: seq<Example>)
    ensures CountChoices(a + b) == CountChoices(a) + CountChoices(b)
    decreases |b|
  {
    if b == [] {
      assert a + b == a;
    } else {
      var init := b[..|b| - 1];
      assert (a + b)[..|a + b| - 1] == a + init;
      assert (a + b)[|a + b| - 1] == b[|b| - 1];
      CountChoicesConcat(a, init);
    }
  }

  /** For a task whose examples all have choices, the mean choice count is at
      least 1, so the chance level is exactly its reciprocal. */
  lemma ChanceIsReciprocalMean(exs: seq<Example>)
    requires Scorable(exs) && exs != []
    ensures Chance(CountChoices(exs), |exs|) * CountChoices(exs) as real == |exs| as real
  {
    assert CountChoices(exs) >= |exs|;
  }

  // ---------------------------------------------------------------------------
  // Task selection and the macro average

  datatype Task = Hellaswag | Piqa | ArcEasy | ArcChallenge | Winogrande

  function Name(t: Task): string {
    match t
    case Hellaswag => "hellaswag"
    case Piqa => "piqa"
    case ArcEasy => "arc_easy"
    case ArcChallenge => "arc_challenge"
    case Winogrande => "winogrande"
  }

  /** `TASKS[name]`, if registered. */
  function Lookup(name: string): (r: Option<Task>)
    ensures r.Some? ==> Name(r.value) == name
  {
    if name == "hellaswag" then Some(Hellaswag)
    else if name == "piqa" then Some(Piqa)
    else if name == "arc_easy" then Some(ArcEasy)
    else if name == "arc_challenge" then Some(ArcChallenge)
    else if name == "winogrande" then Some(Winogrande)
    else None
  }

  /** Every task is registered under its name, and only there. */
  lemma LookupName(t: Task, name: string)
    ensures Lookup(name) == Some(t) <==> Name(t) == name
  {
  }

  const Available: string := "['arc_challenge', 'arc_easy', 'hellaswag', 'piqa', 'winogrande']"

  /** One piece of the list: its stripped text, or nothing when that is empty. */
  function Cleaned(piece: string): (r: seq<string>)
    ensures |r| <= 1
    ensures forall x :: x in r ==> x != [] && Stripped(x)
  {
    var name := Strip(piece);
    if name == [] then [] else [name]
  }

  /** `[x.strip() for x in pieces if x.strip()]` */
  function Selected(pieces: seq<string>): (names: seq<string>)
    ensures |names| <= |pieces|
    ensures forall x :: x in names ==> x != [] && Stripped(x)
  {
    if pieces == [] then [] else Cleaned(pieces[0]) + Selected(pieces[1..])
  }

  /** One piece yields its stripped text, or nothing when it is blank. */
  lemma SelectedOne(p: string)
    ensures Selected([p]) == if AllSpace(p) then [] else [Strip(p)]
  {
    assert [p][1..] == [];
  }

  /** Selecting from consecutive lists of pieces concatenates the selections:
      the names keep the order of their pieces. */
  lemma {:induction false} SelectedConcat(a: seq<string>, b: seq<string>)
    ensures Selected(a + b) == Selected(a) + Selected(b)
    decreases |a|
  {
    if a == [] {
      assert a + b == b;
    } else {
      assert (a + b)[0] == a[0];
      assert (a + b)[1..] == a[1..] + b;
      SelectedConcat(a[1..], b);
    }
  }

  /** Pieces that are already stripped and non-empty are all kept, in order and
      with repetitions. */
  lemma {:induction false} SelectedKeepsClean(pieces: seq<string>)
    requires forall k :: 0 <= k < |pieces| ==> pieces[k] != [] && Stripped(pieces[k])
    ensures Selected(pieces) == pieces
    decreases |pieces|
  {
    if pieces != [] {
      StripStripped(pieces[0]);
      assert Cleaned(pieces[0]) == [pieces[0]];
      SelectedKeepsClean(pieces[1..]);
      assert Selected(pieces) == [pieces[0]] + Selected(pieces[1..]);
      assert pieces == [pieces[0]] + pieces[1..];
    }
  }

  /** The position of the first name that is not a registered task, if any. */
  function FirstUnknown(names: seq<string>): (k: Option<nat>)
    ensures k.None? <==> forall i :: 0 <= i < |names| ==> Lookup(names[i]).Some?
    ensures k.Some? ==> (k.value < |names| && Lookup(names[k.value]).None?
      && forall i :: 0 <= i < k.value ==> Lookup(names[i]).Some?)
    decreases |names|
  {
    if names == [] then None
    else if Lookup(names[0]).None? then Some(0)
    else
      var rest := FirstUnknown(names[1..]);
      assert forall i :: 1 <= i < |names| ==> names[i] == names[1..][i - 1];
      match rest
      case None => None
      case Some(k) => Some(k + 1)
  }

  function UnknownTask(name: string): string {
    "Unknown task: " + name + ". Available: " + Available
  }

  /** The tasks named by the list, in order; the first unknown name raises. */
  function LookupAll(names: seq<string>): (r: Result<seq<Task>, string>)
    ensures r.Failure? <==> exists k :: 0 <= k < |names| && Lookup(names[k]).None?
    ensures r.Failure? ==> exists k :: (0 <= k < |names| && Lookup(names[k]).None?
      && (forall i :: 0 <= i < k ==> Lookup(names[i]).Some?) && r.error == UnknownTask(names[k]))
    ensures r.Success? ==> |r.value| == |names| && forall k :: 0 <= k < |names| ==> Name(r.value[k]) == names[k]
  {
    match FirstUnknown(names)
    case Some(k) => Failure(UnknownTask(names[k]))
    case None => Success(seq(|names|, k requires 0 <= k < |names| => Lookup(names[k]).value))
  }

  /** The `--tasks` argument: split on commas, strip, drop empty entries, then
      look every name up. */
  function ParseTasks(arg: string): (r: Result<seq<Task>, string>)
    ensures var names := Selected(Split(arg, ','));
      && (r.Failure? <==> exists k :: 0 <= k < |names| && Lookup(names[k]).None?)
      && (r.Success? ==> |r.value| == |names| && forall k :: 0 <= k < |names| ==> Name(r.value[k]) == names[k])
  {
    LookupAll(Selected(Split(arg, ',')))
  }

  function Names(ts: seq<Task>): (ns: seq<string>)
    ensures |ns| == |ts| && forall k :: 0 <= k < |ts| ==> ns[k] == Name(ts[k])
  {
    seq(|ts|, k requires 0 <= k < |ts| => Name(ts[k]))
  }

  /** Writing a task list comma-separated and parsing it gives it back, in order
      and with repetitions. */
  lemma ParseTasksRoundTrip(ts: seq<Task>)
    ensures ParseTasks(Join([','], Names(ts))) == Success(ts)
  {
    var ns := Names(ts);
    var text := Join([','], ns);
    if ts == [] {
      assert text == [];
      ParseNothing();
    } else {
      SplitNames(ts);
      SelectedKeepsClean(ns);
      LookupNames(ts);
    }
  }

  /** An empty task list selects no task. */
  lemma ParseNothing()
    ensures ParseTasks([]) == Success([])
  {
    assert IndexOf([], ',') == None;
    assert Split([], ',') == [[]];
    assert Strip([]) == [];
    assert Selected([[]]) == [];
  }

  lemma SplitNames(ts: seq<Task>)
    requires ts != []
    ensures Split(Join([','], Names(ts)), ',') == Names(ts)
    ensures forall k :: 0 <= k < |ts| ==> Names(ts)[k] != [] && Stripped(Names(ts)[k])
  {
    var ns := Names(ts);
    forall k | 0 <= k < |ns| ensures ',' !in ns[k] && ns[k] != [] && Stripped(ns[k]) {
      NameIsClean(ts[k]);
    }
    SplitJoin(ns, ',');
  }

  /** Task names are non-empty, have no surrounding whitespace and no comma. */
  lemma NameIsClean(t: Task)
    ensures ',' !in Name(t) && Name(t) != [] && Stripped(Name(t))
  {
  }

  /** Looking up the names of tasks gives the tasks back. */
  lemma LookupNames(ts: seq<Task>)
    ensures LookupAll(Names(ts)) == Success(ts)
  {
    var ns := Names(ts);
    forall k | 0 <= k < |ts| ensures Lookup(ns[k]) == Some(ts[k]) {
      LookupName(ts[k], ns[k]);
    }
    assert FirstUnknown(ns) == None;
    assert LookupAll(ns).value == ts;
  }

  /** The macro accuracy: the mean of the per-task accuracies, 0 without tasks. */
  function MacroAccuracy(accuracies: seq<real>): (m: real)
    ensures accuracies == [] ==> m == 0.0
    ensures accuracies != [] ==> m * |accuracies| as real == Sum(accuracies)
    ensures (forall i :: 0 <= i < |accuracies| ==> 0.0 <= accuracies[i] <= 1.0) ==> 0.0 <= m <= 1.0
  {
    var n := (if accuracies == [] then 1 else |accuracies|) as real;
    MeanOf(Sum(accuracies), n);
    Sum(accuracies) / n
  }
}

=== FILE: finetune_sft.dfy ===
/** Data shaping and the early-stop rule of the supervised fine-tuning script:
    Alpaca prompt formatting, label masking and truncation, label padding in the
    collator, and the "kill if no learning" callback. Tokenizer output is an
    input: a function from text to token ids. */
module FinetuneSft {
  import opened Wrappers
  import opened Text

  /** A dataset row: field name to text. */
  type Row = map<string, string>

  /** `str(row.get(key, ""))` */
  function Field(row: Row, key: string): string {
    if key in row then row[key] else ""
  }

  const InstructionHeader: string := "### Instruction:\n"
  const InputHeader: string := "### Input:\n"
  const ResponseHeader: string := "### Response:\n"
  const SectionEnd: string := "\n\n"

  /** The loss is not computed at label positions holding this value. */
  const IgnoreIndex: int := -100

  /** The message `_format_alpaca_record` raises with. */
  const FormatError: string := "Missing instruction/output"

  function Min(a: int, b: int): int {
    if a <= b then a else b
  }

  function Max(a: int, b: int): int {
    if a >= b then a else b
  }

  // ---------------------------------------------------------------------------
  // Prompt formatting

  datatype Formatted = Formatted(prompt: string, response: string)

  /** The optional context section of the prompt. */
  function InputSection(context: string): string {
    if context == [] then [] else InputHeader + context + SectionEnd
  }

  lemma Layout(a: string, b: string, c: string)
    ensures |a + b + c| == |a| + |b| + |c|
    ensures (a + b + c)[..|a|] == a
    ensures (a + b + c)[|a|..|a| + |b|] == b
    ensures (a + b + c)[|a| + |b|..] == c
  {
    assert (a + b + c)[|a|..|a| + |b|] == b;
  }

  /** `_format_alpaca_record`: fails when the stripped instruction or the stripped
      output is empty. Otherwise the prompt opens with the instruction section,
      closes with the response header, and holds an input section in between
      exactly when the stripped input is non-empty; the response is the stripped
      output. */
  function FormatAlpacaRecord(row: Row): (r: Result<Formatted, string>)
    ensures r.Failure? <==> Unformattable(row)
    ensures r.Failure? ==> r.error == FormatError
    ensures r.Success? ==>
      var instruction := Strip(Field(row, "instruction"));
      var context := Strip(Field(row, "input"));
      var head := InstructionHeader + instruction + SectionEnd;
      && HasPrefix(r.value.prompt, head)
      && HasSuffix(r.value.prompt, ResponseHeader)
      && |head| + |ResponseHeader| <= |r.value.prompt|
      && var middle := r.value.prompt[|head|..|r.value.prompt| - |ResponseHeader|];
         (context == [] ==> middle == []) && (context != [] ==> middle == InputHeader + context + SectionEnd)
    ensures r.Success? ==>
      && r.value.response == Strip(Field(row, "output"))
      && r.value.response != []
      && Stripped(r.value.response)
  {
    var instruction := Strip(Field(row, "instruction"));
    var context := Strip(Field(row, "input"));
    var output := Strip(Field(row, "output"));
    assert Unformattable(row) <==> instruction == [] || output == [];
    if instruction == [] || output == [] then Failure(FormatError)
    else
      var head := InstructionHeader + instruction + SectionEnd;
      var prompt := head + InputSection(context) + ResponseHeader;
      Layout(head, InputSection(context), ResponseHeader);
      Success(Formatted(prompt, output))
  }

  // ---------------------------------------------------------------------------
  // Encoding: label masking and truncation

  datatype Encoded = Encoded(inputIds: seq<int>, labels: seq<int>, attentionMask: seq<int>)

  /** Length of Python's `xs[:n]` for a sequence of length `len`; a negative `n`
      counts from the end. */
  function SliceLen(len: nat, n: int): (k: nat)
    ensures k <= len
    ensures n >= 0 ==> k == Min(n, len)
  {
    if n >= 0 then Min(n, len) else Max(len + n, 0)
  }

  /** Every label in `labels` is the ignore index. */
  predicate AllIgnored(labels: seq<int>) {
    forall i :: 0 <= i < |labels| ==> labels[i] == IgnoreIndex
  }

  /** The label sequence before truncation: the prompt masked, the response kept. */
  function MaskedLabels(promptIds: seq<int>, responseIds: seq<int>): (l: seq<int>)
    ensures |l| == |promptIds| + |responseIds|
    ensures forall i :: 0 <= i < |promptIds| ==> l[i] == IgnoreIndex
    ensures forall i :: |promptIds| <= i < |l| ==> l[i] == responseIds[i - |promptIds|]
  {
    seq(|promptIds|, _ => IgnoreIndex) + responseIds
  }

  /** The three columns of `_encode_record`, given the token ids of the prompt and
      of the response (EOS included). All three have the truncated length, the
      attention mask is all ones, labels are masked on the prompt and copy the
      input ids on the response; when every kept label is masked (truncation at or
      before the end of the prompt) the record is emptied instead. */
  function EncodeIds(promptIds: seq<int>, responseIds: seq<int>, maxSeqLen: int): (e: Encoded)
    ensures var keep := SliceLen(|promptIds| + |responseIds|, maxSeqLen);
      if AllIgnored(MaskedLabels(promptIds, responseIds)[..keep]) then
        e == Encoded([], [], [])
      else
        && |e.inputIds| == keep && |e.labels| == keep && |e.attentionMask| == keep
        && e.inputIds == (promptIds + responseIds)[..keep]
        && (forall i :: 0 <= i < keep ==> e.attentionMask[i] == 1)
        && (forall i :: 0 <= i < keep && i < |promptIds| ==> e.labels[i] == IgnoreIndex)
        && (forall i :: |promptIds| <= i < keep ==> e.labels[i] == e.inputIds[i])
    ensures maxSeqLen >= 0 && e.inputIds != [] ==>
      |e.inputIds| == Min(|promptIds| + |responseIds|, maxSeqLen)
  {
    var keep := SliceLen(|promptIds| + |responseIds|, maxSeqLen);
    var inputIds := (promptIds + responseIds)[..keep];
    var labels := MaskedLabels(promptIds, responseIds)[..keep];
    if AllIgnored(labels) then Encoded([], [], [])
    else Encoded(inputIds, labels, seq(|inputIds|, _ => 1))
  }

  /** Truncation at or before the end of the prompt always empties the record. */
  lemma TruncatedPromptIsDropped(promptIds: seq<int>, responseIds: seq<int>, maxSeqLen: int)
    requires 0 <= maxSeqLen <= |promptIds|
    ensures EncodeIds(promptIds, responseIds, maxSeqLen) == Encoded([], [], [])
  {
    var l := MaskedLabels(promptIds, responseIds)[..maxSeqLen];
    assert AllIgnored(l);
  }

  /** A response token that survives truncation and is not itself the ignore
      index keeps the record. */
  lemma ResponseTokenKeepsRecord(promptIds: seq<int>, responseIds: seq<int>, maxSeqLen: int, j: nat)
    requires j < |responseIds| && responseIds[j] != IgnoreIndex
    requires |promptIds| + j < SliceLen(|promptIds| + |responseIds|, maxSeqLen)
    ensures EncodeIds(promptIds, responseIds, maxSeqLen).inputIds != []
  {
    var keep := SliceLen(|promptIds| + |responseIds|, maxSeqLen);
    var l := MaskedLabels(promptIds, responseIds)[..keep];
    assert l[|promptIds| + j] == responseIds[j];
  }

  /** `_encode_record`: format the row, tokenize prompt and response + EOS without
      special tokens, then mask and truncate. A row that cannot be formatted
      raises. */
  function EncodeRecord(row: Row, tokenize: string -> seq<int>, eosToken: string, maxSeqLen: int): (r: Result<Encoded, string>)
    ensures r.Failure? <==> Unformattable(row)
    ensures r.Failure? ==> r.error == FormatError
    ensures r.Success? ==>
      var f := FormatAlpacaRecord(row).value;
      r.value == EncodeIds(tokenize(f.prompt), tokenize(f.response + eosToken), maxSeqLen)
  {
    var f :- FormatAlpacaRecord(row);
    Success(EncodeIds(tokenize(f.prompt), tokenize(f.response + eosToken), maxSeqLen))
  }

  /** The row lacks a usable instruction or output. */
  predicate Unformattable(row: Row) {
    AllSpace(Field(row, "instruction")) || AllSpace(Field(row, "output"))
  }

  /** Some row of the split cannot be formatted. */
  predicate AnyUnformattable(rows: seq<Row>) {
    exists i :: 0 <= i < |rows| && Unformattable(rows[i])
  }

  /** `dataset.map(_encode_record)`: encode every row, raising at the first row
      that cannot be formatted. */
  function EncodeRows(rows: seq<Row>, tokenize: string -> seq<int>, eosToken: string, maxSeqLen: int): (r: Result<seq<Encoded>, string>)
    ensures r.Failure? <==> AnyUnformattable(rows)
    ensures r.Failure? ==> r.error == FormatError
    ensures r.Success? ==> |r.value| == |rows|
    ensures r.Success? ==> forall i :: 0 <= i < |rows| ==>
      EncodeRecord(rows[i], tokenize, eosToken, maxSeqLen) == Success(r.value[i])
  {
    if AnyUnformattable(rows) then Failure(FormatError)
    else Success(seq(|rows|, i requires 0 <= i < |rows| => EncodeRecord(rows[i], tokenize, eosToken, maxSeqLen).value))
  }

  /** `dataset.filter(len(input_ids) > 0)`: the encoded rows that kept any tokens,
      in order. */
  function KeepNonEmpty(encoded: seq<Encoded>): (r: seq<Encoded>)
    ensures |r| <= |encoded|
    ensures forall k :: 0 <= k < |r| ==> r[k].inputIds != [] && r[k] in encoded
    ensures forall i :: 0 <= i < |encoded| && encoded[i].inputIds != [] ==> encoded[i] in r
  {
    FilteredMembers(encoded);
    Filtered(encoded)
  }

  /** What the filter keeps of one record. */
  function KeptOf(e: Encoded): seq<Encoded> {
    if e.inputIds == [] then [] else [e]
  }

  /** The filter, record by record from the front. */
  function Filtered(encoded: seq<Encoded>): seq<Encoded>
    decreases |encoded|
  {
    if encoded == [] then [] else KeptOf(encoded[0]) + Filtered(encoded[1..])
  }

  lemma {:induction false} FilteredLength(encoded: seq<Encoded>)
    ensures |Filtered(encoded)| <= |encoded|
    decreases |encoded|
  {
    if encoded != [] {
      FilteredLength(encoded[1..]);
    }
  }

  lemma {:induction false} FilteredCounts(encoded: seq<Encoded>, e: Encoded)
    ensures multiset(Filtered(encoded))[e] == if e.inputIds != [] then multiset(encoded)[e] else 0
    decreases |encoded|
  {
    if encoded != [] {
      var rest := encoded[1..];
      assert encoded == [encoded[0]] + rest;
      FilteredCounts(rest, e);
      MultisetSplit(KeptOf(encoded[0]), Filtered(rest), e);
      MultisetSplit([encoded[0]], rest, e);
    }
  }

  lemma MultisetSplit(a: seq<Encoded>, b: seq<Encoded>, e: Encoded)
    ensures multiset(a + b)[e] == multiset(a)[e] + multiset(b)[e]
  {
  }

  lemma FilteredMembers(encoded: seq<Encoded>)
    ensures |Filtered(encoded)| <= |encoded|
    ensures forall e :: e in Filtered(encoded) <==> e in encoded && e.inputIds != []
  {
    FilteredLength(encoded);
    forall e | true
      ensures e in Filtered(encoded) <==> e in encoded && e.inputIds != []
    {
      FilteredCounts(encoded, e);
      assert e in Filtered(encoded) <==> multiset(Filtered(encoded))[e] > 0;
      assert e in encoded <==> multiset(encoded)[e] > 0;
    }
  }

  /** The filter keeps every non-empty record as often as it occurs and drops
      every empty one. */
  lemma KeepNonEmptyCounts(encoded: seq<Encoded>, e: Encoded)
    ensures multiset(KeepNonEmpty(encoded))[e] == if e.inputIds != [] then multiset(encoded)[e] else 0
  {
    FilteredCounts(encoded, e);
  }

  lemma {:induction false} FilteredConcat(a: seq<Encoded>, b: seq<Encoded>)
    ensures Filtered(a + b) == Filtered(a) + Filtered(b)
    decreases |a|
  {
    if a == [] {
      assert a + b == b;
    } else {
      FilteredConcat(a[1..], b);
      assert (a + b)[0] == a[0];
      assert (a + b)[1..] == a[1..] + b;
    }
  }

  /** The filter keeps the order of the rows: filtering a concatenation
      concatenates the filtered parts. */
  lemma KeepNonEmptyConcat(a: seq<Encoded>, b: seq<Encoded>)
    ensures KeepNonEmpty(a + b) == KeepNonEmpty(a) + KeepNonEmpty(b)
  {
    FilteredConcat(a, b);
  }

  /** A split as training sees it: every row encoded, empty encodings dropped.
      Every kept record is the encoding of some row, and the encoding of every
      row that keeps a token is kept. */
  function PrepareSplit(rows: seq<Row>, tokenize: string -> seq<int>, eosToken: string, maxSeqLen: int): (r: Result<seq<Encoded>, string>)
    ensures r.Failure? <==> AnyUnformattable(rows)
    ensures r.Failure? ==> r.error == FormatError
    ensures r.Success? ==> |r.value| <= |rows|
    ensures r.Success? ==> forall k :: 0 <= k < |r.value| ==> r.value[k].inputIds != []
    ensures r.Success? ==> forall k :: 0 <= k < |r.value| ==>
      exists i :: 0 <= i < |rows| && EncodeRecord(rows[i], tokenize, eosToken, maxSeqLen) == Success(r.value[k])
    ensures r.Success? ==> forall i :: 0 <= i < |rows| ==>
      var e := EncodeRecord(rows[i], tokenize, eosToken, maxSeqLen);
      e.Success? && e.value.inputIds != [] ==> e.value in r.value
  {
    var encoded :- EncodeRows(rows, tokenize, eosToken, maxSeqLen);
    KeptRecordsOfRows(rows, tokenize, eosToken, maxSeqLen, encoded);
    Success(KeepNonEmpty(encoded))
  }

  /** The kept records of an encoded split are encodings of its rows, and no
      non-empty encoding is lost. */
  lemma KeptRecordsOfRows(rows: seq<Row>, tokenize: string -> seq<int>, eosToken: string, maxSeqLen: int, encoded: seq<Encoded>)
    requires |encoded| == |rows|
    requires forall i :: 0 <= i < |rows| ==> EncodeRecord(rows[i], tokenize, eosToken, maxSeqLen) == Success(encoded[i])
    ensures var kept := KeepNonEmpty(encoded);
      && (forall k :: 0 <= k < |kept| ==>
            exists i :: 0 <= i < |rows| && EncodeRecord(rows[i], tokenize, eosToken, maxSeqLen) == Success(kept[k]))
      && (forall i :: 0 <= i < |rows| ==>
            var e := EncodeRecord(rows[i], tokenize, eosToken, maxSeqLen);
            e.Success? && e.value.inputIds != [] ==> e.value in kept)
  {
    var kept := KeepNonEmpty(encoded);
    forall k | 0 <= k < |kept|
      ensures exists i :: 0 <= i < |rows| && EncodeRecord(rows[i], tokenize, eosToken, maxSeqLen) == Success(kept[k])
    {
      assert kept[k] in encoded;
      var i :| 0 <= i < |encoded| && encoded[i] == kept[k];
      assert EncodeRecord(rows[i], tokenize, eosToken, maxSeqLen) == Success(kept[k]);
    }
  }

  /** Preparing two parts of a split one after the other gives the prepared
      whole: the kept records stay in row order. */
  lemma PrepareSplitConcat(a: seq<Row>, b: seq<Row>, tokenize: string -> seq<int>, eosToken: string, maxSeqLen: int)
    ensures PrepareSplit(a + b, tokenize, eosToken, maxSeqLen).Success? <==>
      PrepareSplit(a, tokenize, eosToken, maxSeqLen).Success? && PrepareSplit(b, tokenize, eosToken, maxSeqLen).Success?
    ensures PrepareSplit(a + b, tokenize, eosToken, maxSeqLen).Success? ==>
      PrepareSplit(a + b, tokenize, eosToken, maxSeqLen).value ==
        PrepareSplit(a, tokenize, eosToken, maxSeqLen).value + PrepareSplit(b, tokenize, eosToken, maxSeqLen).value
  {
    AnyUnformattableConcat(a, b);
    if !AnyUnformattable(a + b) {
      EncodeRowsConcat(a, b, tokenize, eosToken, maxSeqLen);
      KeepNonEmptyConcat(EncodeRows(a, tokenize, eosToken, maxSeqLen).value, EncodeRows(b, tokenize, eosToken, maxSeqLen).value);
    }
  }

  lemma AnyUnformattableConcat(a: seq<Row>, b: seq<Row>)
    ensures AnyUnformattable(a + b) <==> AnyUnformattable(a) || AnyUnformattable(b)
  {
    var ab := a + b;
    if AnyUnformattable(a) {
      var i :| 0 <= i < |a| && Unformattable(a[i]);
      assert ab[i] == a[i];
    }
    if AnyUnformattable(b) {
      var i :| 0 <= i < |b| && Unformattable(b[i]);
      assert ab[|a| + i] == b[i];
    }
    if AnyUnformattable(ab) {
      var i :| 0 <= i < |ab| && Unformattable(ab[i]);
      if i < |a| {
        assert ab[i] == a[i];
      } else {
        assert ab[i] == b[i - |a|];
      }
    }
  }

  lemma EncodeRowsConcat(a: seq<Row>, b: seq<Row>, tokenize: string -> seq<int>, eosToken: string, maxSeqLen: int)
    requires !AnyUnformattable(a) && !AnyUnformattable(b) && !AnyUnformattable(a + b)
    ensures EncodeRows(a + b, tokenize, eosToken, maxSeqLen).value ==
      EncodeRows(a, tokenize, eosToken, maxSeqLen).value + EncodeRows(b, tokenize, eosToken, maxSeqLen).value
  {
    var ab := a + b;
    var ea := EncodeRows(a, tokenize, eosToken, maxSeqLen).value;
    var eb := EncodeRows(b, tokenize, eosToken, maxSeqLen).value;
    var eab := EncodeRows(ab, tokenize, eosToken, maxSeqLen).value;
    forall i | 0 <= i < |eab| ensures eab[i] == (ea + eb)[i] {
      if i < |a| {
        assert ab[i] == a[i];
      } else {
        assert ab[i] == b[i - |a|];
      }
    }
  }

  lemma AnyUnformattableCons(rows: seq<Row>)
    requires rows != []
    ensures AnyUnformattable(rows) <==> Unformattable(rows[0]) || AnyUnformattable(rows[1..])
  {
    if AnyUnformattable(rows[1..]) {
      var i :| 0 <= i < |rows[1..]| && Unformattable(rows[1..][i]);
      assert rows[i + 1] == rows[1..][i];
    }
    if AnyUnformattable(rows) && !Unformattable(rows[0]) {
      var i :| 0 <= i < |rows| && Unformattable(rows[i]);
      assert rows[1..][i - 1] == rows[i];
    }
  }

  // ---------------------------------------------------------------------------
  // Collator: label padding

  /** One collated label row: the feature's labels, then the ignore index up to
      the padded width. */
  function PadLabels(labels: seq<int>, width: nat): (row: seq<int>)
    requires |labels| <= width
    ensures |row| == width && row[..|labels|] == labels
    ensures forall j :: |labels| <= j < width ==> row[j] == IgnoreIndex
  {
    labels + seq(width - |labels|, _ => IgnoreIndex)
  }

  /** The `labels` tensor of `SupervisedDataCollator`: a `len(features) x width`
      tensor of the ignore index with each feature's labels copied to the front of
      its row; a label row longer than the padded width is a shape error. */
  function CollateLabels(labels: seq<seq<int>>, width: nat): (r: Option<seq<seq<int>>>)
    ensures r.None? <==> exists i :: 0 <= i < |labels| && |labels[i]| > width
    ensures r.Some? ==> |r.value| == |labels|
    ensures r.Some? ==> forall i :: 0 <= i < |labels| ==>
      && |r.value[i]| == width
      && r.value[i][..|labels[i]|] == labels[i]
      && (forall j :: |labels[i]| <= j < width ==> r.value[i][j] == IgnoreIndex)
  {
    if exists i :: 0 <= i < |labels| && |labels[i]| > width then None
    else Some(seq(|labels|, i requires 0 <= i < |labels| => PadLabels(labels[i], width)))
  }

  /** The longest input-id row of a batch: the width `tokenizer.pad` pads to. */
  function LongestInput(features: seq<Encoded>): (w: nat)
    ensures forall i :: 0 <= i < |features| ==> |features[i].inputIds| <= w
    ensures features == [] ==> w == 0
    ensures features != [] ==> exists i :: 0 <= i < |features| && |features[i].inputIds| == w
  {
    if features == [] then 0
    else
      var rest := LongestInput(features[1..]);
      assert forall i :: 1 <= i < |features| ==> features[i] == features[1..][i - 1];
      if |features[0].inputIds| >= rest then |features[0].inputIds|
      else
        var j :| 0 <= j < |features[1..]| && |features[1..][j].inputIds| == rest;
        assert features[j + 1] == features[1..][j];
        rest
  }

  /** Features produced by the encoder have as many labels as input ids, so
      padding to the longest input never fails. */
  lemma CollateEncodedNeverFails(features: seq<Encoded>)
    requires forall i :: 0 <= i < |features| ==> |features[i].labels| == |features[i].inputIds|
    ensures CollateLabels(seq(|features|, i requires 0 <= i < |features| => features[i].labels), LongestInput(features)).Some?
  {
  }

  // ---------------------------------------------------------------------------
  // Early stop when the loss does not improve

  datatype KillState = KillState(initialLoss: Option<real>, bestLoss: Option<real>)

  datatype KillConfig = KillConfig(killAfterSteps: int, minLossImprovement: real)

  /** The callback's state together with `control.should_training_stop`. */
  datatype Tracker = Tracker(state: KillState, stop: bool)

  /** States the callback can reach: both losses set together, best at most initial. */
  predicate Consistent(s: KillState) {
    (s.initialLoss.Some? <==> s.bestLoss.Some?)
    && (s.initialLoss.Some? ==> s.bestLoss.value <= s.initialLoss.value)
  }

  function MinReal(a: real, b: real): real {
    if a <= b then a else b
  }

  /** `KillIfNoLearningCallback.on_log`. A log without a loss changes nothing; the
      first loss sets both initial and best and never stops; after that best is the
      running minimum, and a stop is requested once the step reaches the threshold
      while the gain initial - best is below the required improvement. The stop
      flag is never cleared. */
  function OnLog(cfg: KillConfig, t: Tracker, globalStep: int, loss: Option<real>): (r: Tracker)
    requires Consistent(t.state)
    ensures Consistent(r.state)
    ensures t.stop ==> r.stop
    ensures loss.None? ==> r == t
    ensures loss.Some? && t.state.initialLoss.None? ==>
      r == Tracker(KillState(Some(loss.value), Some(loss.value)), t.stop)
    ensures loss.Some? && t.state.initialLoss.Some? ==>
      && r.state.initialLoss == t.state.initialLoss
      && r.state.bestLoss.value <= t.state.bestLoss.value
      && r.state.bestLoss.value <= loss.value
      && (r.state.bestLoss.value == t.state.bestLoss.value || r.state.bestLoss.value == loss.value)
      && (r.stop <==> (t.stop || (globalStep >= cfg.killAfterSteps
            && r.state.initialLoss.value - r.state.bestLoss.value < cfg.minLossImprovement)))
  {
    match loss
    case None => t
    case Some(l) =>
      if t.state.initialLoss.None? then Tracker(KillState(Some(l), Some(l)), t.stop)
      else
        var best := MinReal(t.state.bestLoss.value, l);
        var s := KillState(t.state.initialLoss, Some(best));
        var gained := t.state.initialLoss.value - best;
        Tracker(s, t.stop || (globalStep >= cfg.killAfterSteps && gained < cfg.minLossImprovement))
  }

  /** One `on_log` call: the trainer's global step and the logged loss, if any. */
  datatype LogEvent = LogEvent(globalStep: int, loss: Option<real>)

  /** The callback after a sequence of log calls, from a fresh state. */
  function Replay(cfg: KillConfig, events: seq<LogEvent>): (r: Tracker)
    ensures Consistent(r.state)
    decreases |events|
  {
    if events == [] then Tracker(KillState(None, None), false)
    else
      var e := events[|events| - 1];
      OnLog(cfg, Replay(cfg, events[..|events| - 1]), e.globalStep, e.loss)
  }

  /** The losses present in a sequence of logs, in order. */
  function Losses(events: seq<LogEvent>): seq<real>
    decreases |events|
  {
    if events == [] then []
    else
      var e := events[|events| - 1];
      Losses(events[..|events| - 1]) + (if e.loss.Some? then [e.loss.value] else [])
  }

  function Minimum(xs: seq<real>): real
    requires xs != []
    decreases |xs|
  {
    if |xs| == 1 then xs[0] else MinReal(Minimum(xs[..|xs| - 1]), xs[|xs| - 1])
  }

  /** After any sequence of logs the initial loss is the first logged loss and the
      best loss is the minimum of all logged losses; before any loss both are unset
      and no stop has been requested. */
  lemma {:induction false} ReplayTracksLosses(cfg: KillConfig, events: seq<LogEvent>)
    ensures var r := Replay(cfg, events); var ls := Losses(events);
      && (ls == [] ==> r.state == KillState(None, None) && !r.stop)
      && (ls != [] ==> r.state.initialLoss == Some(ls[0]) && r.state.bestLoss == Some(Minimum(ls)))
    decreases |events|
  {
    if events != [] {
      var prefix := events[..|events| - 1];
      var e := events[|events| - 1];
      ReplayTracksLosses(cfg, prefix);
      var ls := Losses(prefix);
      assert Replay(cfg, events) == OnLog(cfg, Replay(cfg, prefix), e.globalStep, e.loss);
      assert Losses(events) == ls + (if e.loss.Some? then [e.loss.value] else []);
      if e.loss.None? {
        assert Losses(events) == ls;
      } else if ls != [] {
        var ls' := ls + [e.loss.value];
        assert ls'[..|ls'| - 1] == ls;
        assert Minimum(ls') == MinReal(Minimum(ls), e.loss.value);
      } else {
        assert Losses(events) == [e.loss.value];
      }
    }
  }

  /** Once requested, a stop stays requested through every later log. */
  lemma {:induction false} StopIsSticky(cfg: KillConfig, events: seq<LogEvent>, n: nat)
    requires n <= |events|
    ensures Replay(cfg, events[..n]).stop ==> Replay(cfg, events).stop
    decreases |events| - n
  {
    if n < |events| {
      var prefix := events[..|events| - 1];
      assert events[..n] == prefix[..n];
      StopIsSticky(cfg, prefix, n);
    } else {
      assert events[..n] == events;
    }
  }
}

=== FILE: judge.dfy ===
/** The LLM-as-a-judge scorer: the reply handling and retry schedule of the
    judge call, the choice of judging prompt per item, and the per-task score
    summary. The HTTP exchange and JSON decoding are inputs: a function from
    prompt and attempt number to the reply, and a parser from text to a verdict. */
module Judge {
  import opened Wrappers
  import opened Text
  import opened Numbers

  const Fence: string := "```"

  /** The markdown unwrapping of the (already stripped) reply content. Content not
      opening with a fence is kept as is; fenced content without a line break
      raises IndexError; otherwise the text after the first line break and before
      the last fence, stripped. */
  function StripFence(content: string): (r: Result<string, string>)
    ensures !HasPrefix(content, Fence) ==> r == Success(content)
    ensures HasPrefix(content, Fence) ==> (r.Failure? <==> '\n' !in content)
    ensures HasPrefix(content, Fence) && r.Success? ==> Stripped(r.value)
    ensures HasPrefix(content, Fence) && r.Success? ==>
      var after := content[IndexOf(content, '\n').value + 1..];
      && |r.value| <= |after|
      && (!Contains(after, Fence) ==> r.value == Strip(after))
      && (forall j :: LastAt(after, Fence, j) ==> r.value == Strip(after[..j]))
  {
    if !HasPrefix(content, Fence) then Success(content)
    else match IndexOf(content, '\n')
      case None => Failure(IndexError)
      case Some(i) =>
        var after := content[i + 1..];
        Success(Strip(FenceBody(after)))
  }

  /** The text after the opening line up to its last fence, or all of it when no
      fence closes it. */
  function FenceBody(after: string): (b: string)
    ensures |b| <= |after|
    ensures !Contains(after, Fence) ==> b == after
    ensures forall j :: LastAt(after, Fence, j) ==> b == after[..j]
  {
    match FindLast(after, Fence)
    case None => after
    case Some(j) => (LastAtUnique(after, Fence, j); after[..j])
  }

  const IndexError: string := "list index out of range"

  lemma LastAtUnique(s: string, p: string, i: int)
    requires LastAt(s, p, i)
    ensures forall j :: LastAt(s, p, j) ==> j == i
  {
  }

  /** The first line break of a fenced block ends its info string. */
  lemma FirstLineBreak(tag: string, rest: string)
    requires '\n' !in tag
    ensures IndexOf(Fence + tag + "\n" + rest, '\n') == Some(|Fence| + |tag|)
  {
    var content := Fence + tag + "\n" + rest;
    var i := |Fence| + |tag|;
    assert content[i] == '\n';
    assert content[..i] == Fence + tag;
    assert '\n' !in Fence;
  }

  /** The last fence of a block is its closing fence. */
  lemma ClosingFence(body: string)
    ensures FindLast(body + "\n" + Fence, Fence) == Some(|body| + 1)
  {
    var after := body + "\n" + Fence;
    assert after[|after| - |Fence|..] == Fence;
    assert HasSuffix(after, Fence);
  }

  /** A reply wrapped as a fenced block with an info string on the first line is
      unwrapped to its (stripped) body. */
  lemma FenceRoundTrip(tag: string, body: string)
    requires '\n' !in tag
    requires Stripped(body)
    ensures StripFence(Fence + tag + "\n" + body + "\n" + Fence) == Success(body)
  {
    var content := Fence + tag + "\n" + (body + "\n" + Fence);
    assert content == Fence + tag + "\n" + body + "\n" + Fence;
    assert content[..|Fence|] == Fence;
    FirstLineBreak(tag, body + "\n" + Fence);
    var i := |Fence| + |tag|;
    var after := content[i + 1..];
    assert after == body + "\n" + Fence;
    ClosingFence(body);
    assert after[..|body| + 1] == body + "\n";
    StripTrailingSpace(body, "\n");
  }

  // ---------------------------------------------------------------------------
  // One attempt of the judge call

  /** The parsed judge answer: `score` and `reason`, each possibly missing. */
  datatype Verdict = Verdict(score: Option<real>, reason: Option<string>)

  /** What the HTTP exchange of one attempt produced. */
  datatype Reply =
    | RequestFailed(message: string)  // HTTPError, URLError, or a UTF-8 body that is not JSON
    | RequestEscaped(message: string) // any other error while reading or decoding the body,
                                      // such as a timeout or reset in `read()` or a body
                                      // that is not UTF-8
    | MissingKey(key: string)         // the reply JSON lacks a key on the content path
    | NoChoices                       // the reply's choice list is empty
    | Content(text: string)           // the message content

  /** The outcome of one attempt: a parsed verdict, an error the retry loop
      catches, or one it does not catch. */
  datatype Attempt = Done(verdict: Verdict) | Caught(message: string) | Escaped(message: string)

  /** `json.loads` of the unwrapped content: a verdict or a decode error. */
  type Parser = string -> Result<Verdict, string>

  /** The body of the `try` in `_call_openrouter` for one reply. */
  function RunAttempt(reply: Reply, parse: Parser): (a: Attempt)
    ensures reply.RequestFailed? ==> a == Caught(reply.message)
    ensures reply.RequestEscaped? ==> a == Escaped(reply.message)
    ensures reply.MissingKey? ==> a == Caught("'" + reply.key + "'")
    ensures reply.NoChoices? ==> a.Escaped?
    ensures reply.Content? ==>
      var content := Strip(reply.text);
      (StripFence(content).Failure? ==> a == Escaped(StripFence(content).error))
      && (StripFence(content).Success? ==>
            var body := StripFence(content).value;
            && (parse(body).Success? ==> a == Done(parse(body).value))
            && (parse(body).Failure? ==> a == Caught(parse(body).error)))
  {
    match reply
    case RequestFailed(m) => Caught(m)
    case RequestEscaped(m) => Escaped(m)
    case MissingKey(k) => Caught("'" + k + "'")
    case NoChoices => Escaped(IndexError)
    case Content(text) =>
      match StripFence(Strip(text))
      case Failure(e) => Escaped(e)
      case Success(body) =>
        match parse(body)
        case Success(v) => Done(v)
        case Failure(e) => Caught(e)
  }

  // ---------------------------------------------------------------------------
  // The retry loop

  function Pow2(n: nat): (p: nat)
    ensures p >= 1
  {
    if n == 0 then 1 else 2 * Pow2(n - 1)
  }

  /** What `_call_openrouter` returns, or the error that escapes it, with the
      back-off waits it slept and the number of attempts it made. `Success(None)`
      is the implicit `None` when the loop runs zero times. */
  datatype CallOutcome = CallOutcome(value: Result<Option<Verdict>, string>, waits: seq<nat>, attempts: nat)

  const GiveUpPrefix: string := "judge error: "

  /** The verdict returned after the last attempt fails with a caught error. */
  function GiveUp(message: string): Verdict {
    Verdict(Some(0.0), Some(GiveUpPrefix + message))
  }

  /** Attempt `j` fails with an error the loop catches. */
  predicate CaughtAt(outcome: nat -> Attempt, j: nat) {
    outcome(j).Caught?
  }

  /** The retry loop from attempt `k` on, given the outcome of every attempt. */
  function Retry(outcome: nat -> Attempt, maxRetries: int, k: nat): (c: CallOutcome)
    requires k == 0 || k < maxRetries
    ensures k >= maxRetries ==> c == CallOutcome(Success(None), [], 0)
    ensures k < maxRetries ==>
      && 1 <= c.attempts <= maxRetries - k
      && |c.waits| == c.attempts - 1
      && (forall i :: 0 <= i < |c.waits| ==> c.waits[i] == Pow2(k + i + 1))
      && (forall j :: k <= j < k + c.attempts - 1 ==> CaughtAt(outcome, j))
      && var last := outcome(k + c.attempts - 1);
         && (last.Done? ==> c.value == Success(Some(last.verdict)))
         && (last.Escaped? ==> c.value == Failure(last.message))
         && (last.Caught? ==> c.attempts == maxRetries - k && c.value == Success(Some(GiveUp(last.message))))
    decreases maxRetries - k
  {
    if k >= maxRetries then CallOutcome(Success(None), [], 0)
    else match outcome(k)
      case Done(v) => CallOutcome(Success(Some(v)), [], 1)
      case Escaped(e) => CallOutcome(Failure(e), [], 1)
      case Caught(e) =>
        if k < maxRetries - 1 then
          var rest := Retry(outcome, maxRetries, k + 1);
          CallOutcome(rest.value, [Pow2(k + 1)] + rest.waits, rest.attempts + 1)
        else CallOutcome(Success(Some(GiveUp(e))), [], 1)
  }

  /** The outcome of every attempt when attempt `j` receives `reply(j)`. */
  function Outcomes(reply: nat -> Reply, parse: Parser): nat -> Attempt {
    (j: nat) => RunAttempt(reply(j), parse)
  }

  /** `_call_openrouter(prompt, api_key, max_retries)`, with the replies of its
      successive attempts given by `reply`. */
  function CallJudge(reply: nat -> Reply, parse: Parser, maxRetries: int): (c: CallOutcome)
    ensures maxRetries <= 0 ==> c == CallOutcome(Success(None), [], 0)
    ensures maxRetries > 0 ==> 1 <= c.attempts <= maxRetries && c.value != Success(None)
    ensures forall i :: 0 <= i < |c.waits| ==> c.waits[i] == Pow2(i + 1)
  {
    Retry(Outcomes(reply, parse), maxRetries, 0)
  }

  /** The first attempt that does not fail with a caught error decides the
      result; no later attempt is made. */
  lemma FirstSuccessWins(outcome: nat -> Attempt, maxRetries: int, n: nat)
    requires n < maxRetries
    requires forall j :: 0 <= j < n ==> CaughtAt(outcome, j)
    requires outcome(n).Done?
    ensures Retry(outcome, maxRetries, 0).attempts == n + 1
    ensures Retry(outcome, maxRetries, 0).value == Success(Some(outcome(n).verdict))
  {
    var c := Retry(outcome, maxRetries, 0);
    var last := c.attempts - 1;
    assert last < n ==> CaughtAt(outcome, last);
    assert n < last ==> CaughtAt(outcome, n);
  }

  /** When every attempt fails with a caught error, the loop makes all
      `maxRetries` attempts, waits 2, 4, ... seconds between them and gives up
      with score 0 and the last error. */
  lemma AllCaughtGivesUp(outcome: nat -> Attempt, maxRetries: int)
    requires maxRetries > 0
    requires forall j :: 0 <= j < maxRetries ==> CaughtAt(outcome, j)
    ensures var c := Retry(outcome, maxRetries, 0);
      && c.attempts == maxRetries
      && |c.waits| == maxRetries - 1
      && (forall i :: 0 <= i < maxRetries - 1 ==> c.waits[i] == Pow2(i + 1))
      && CaughtAt(outcome, maxRetries - 1)
      && c.value == Success(Some(GiveUp(outcome(maxRetries - 1).message)))
  {
    var c := Retry(outcome, maxRetries, 0);
    assert CaughtAt(outcome, c.attempts - 1);
  }

  /** With the default of three attempts, all failing, the waits are 2 s and 4 s. */
  lemma DefaultBackOff(outcome: nat -> Attempt)
    requires forall j :: 0 <= j < 3 ==> CaughtAt(outcome, j)
    ensures Retry(outcome, 3, 0).waits == [2, 4]
  {
    AllCaughtGivesUp(outcome, 3);
    assert Pow2(1) == 2 && Pow2(2) == 4;
  }

  /** A fenced reply without a line break ends the loop at once with IndexError,
      however many attempts remain. */
  lemma UnbrokenFenceEscapes(reply: nat -> Reply, parse: Parser, maxRetries: int)
    requires maxRetries > 0
    requires reply(0).Content? && HasPrefix(Strip(reply(0).text), Fence) && '\n' !in Strip(reply(0).text)
    ensures CallJudge(reply, parse, maxRetries) == CallOutcome(Failure(IndexError), [], 1)
  {
    UnbrokenFenceAttempt(reply(0), parse);
    assert Outcomes(reply, parse)(0) == Escaped(IndexError);
  }

  lemma UnbrokenFenceAttempt(reply: Reply, parse: Parser)
    requires reply.Content? && HasPrefix(Strip(reply.text), Fence) && '\n' !in Strip(reply.text)
    ensures RunAttempt(reply, parse) == Escaped(IndexError)
  {
    assert StripFence(Strip(reply.text)) == Failure(IndexError);
  }

  // ---------------------------------------------------------------------------
  // Judging one item

  /** The filled judging prompt: the translation template with source, reference
      and response, or the code template with instruction, reference and
      response. */
  datatype Prompt =
    | TranslationPrompt(source: string, reference: string, response: string)
    | CodePrompt(instruction: string, reference: string, response: string)

  /** A result item of the free-form generation: field name to value. */
  type Item = map<string, string>

  const TranslationTask: string := "translation_en_de"

  /** `item[key]`, or the KeyError it raises. */
  function Get(item: Item, key: string): (r: Result<string, string>)
    ensures r.Success? <==> key in item
    ensures r.Success? ==> r.value == item[key]
    ensures r.Failure? ==> r.error == "'" + key + "'"
  {
    if key in item then Success(item[key]) else Failure("'" + key + "'")
  }

  /** The prompt `_judge_item` sends, or the KeyError of the first missing field
      (the task type, then the template fields in order). */
  function JudgePrompt(item: Item): (r: Result<Prompt, string>)
    ensures r.Success? ==> "task_type" in item
    ensures r.Success? ==> (r.value.TranslationPrompt? <==> item["task_type"] == TranslationTask)
    ensures r.Success? && r.value.TranslationPrompt? ==>
      "source" in item && "reference" in item && "response" in item
      && r.value == TranslationPrompt(item["source"], item["reference"], item["response"])
    ensures r.Success? && r.value.CodePrompt? ==>
      "instruction" in item && "reference" in item && "response" in item
      && r.value == CodePrompt(item["instruction"], item["reference"], item["response"])
    ensures r.Failure? <==> ("task_type" !in item
      || (item["task_type"] == TranslationTask && !("source" in item && "reference" in item && "response" in item))
      || (item["task_type"] != TranslationTask && !("instruction" in item && "reference" in item && "response" in item)))
  {
    var taskType :- Get(item, "task_type");
    if taskType == TranslationTask then
      var source :- Get(item, "source");
      var reference :- Get(item, "reference");
      var response :- Get(item, "response");
      Success(TranslationPrompt(source, reference, response))
    else
      var instruction :- Get(item, "instruction");
      var reference :- Get(item, "reference");
      var response :- Get(item, "response");
      Success(CodePrompt(instruction, reference, response))
  }

  /** The replies the judge gives to one prompt, by attempt. */
  function ForPrompt(reply: (Prompt, nat) -> Reply, prompt: Prompt): nat -> Reply {
    (n: nat) => reply(prompt, n)
  }

  /** One scored item. */
  datatype Scored = Scored(id: string, taskType: string, score: real, reason: string)

  const NoneGet: string := "'NoneType' object has no attribute 'get'"

  const DefaultRetries: int := 3

  /** `_judge_item`: build the prompt, call the judge with the default three
      attempts, and copy id and task type next to the verdict's score (default
      0) and reason (default empty). */
  function JudgeItem(item: Item, reply: (Prompt, nat) -> Reply, parse: Parser): (r: Result<Scored, string>)
    ensures JudgePrompt(item).Failure? ==> r == Failure(JudgePrompt(item).error)
    ensures r.Success? ==>
      && JudgePrompt(item).Success?
      && var c := CallJudge(ForPrompt(reply, JudgePrompt(item).value), parse, DefaultRetries);
         && c.value.Success? && c.value.value.Some?
         && "id" in item && r.value.id == item["id"]
         && r.value.taskType == item["task_type"]
         && r.value.score == c.value.value.value.score.GetOr(0.0)
         && r.value.reason == c.value.value.value.reason.GetOr("")
    ensures JudgePrompt(item).Success? ==>
      var c := CallJudge(ForPrompt(reply, JudgePrompt(item).value), parse, DefaultRetries);
      && (c.value.Failure? ==> r == Failure(c.value.error))
      && (c.value.Success? && c.value.value.None? ==> r == Failure(NoneGet))
      && (c.value.Success? && c.value.value.Some? ==> (r.Success? <==> "id" in item))
      && (c.value.Success? && c.value.value.Some? && "id" !in item ==> r == Failure("'id'"))
  {
    var prompt :- JudgePrompt(item);
    var c := CallJudge(ForPrompt(reply, prompt), parse, DefaultRetries);
    match c.value
    case Failure(e) => Failure(e)
    case Success(None) => Failure(NoneGet)
    case Success(Some(v)) =>
      assert "'" + "id" + "'" == "'id'";
      var id :- Get(item, "id");
      Success(Scored(id, item["task_type"], v.score.GetOr(0.0), v.reason.GetOr("")))
  }

  // ---------------------------------------------------------------------------
  // Summary

  /** A task's entry in the summary: the mean of its positive scores and their
      number. */
  datatype Stat = Stat(mean: real, n: nat)

  /** `st` is the entry of the scores `xs`: their number, and their mean (0 when
      there are none). */
  predicate Describes(st: Stat, xs: seq<real>) {
    && st.n == |xs|
    && (xs == [] ==> st.mean == 0.0)
    && st.mean * st.n as real == Sum(xs)
  }

  /** The mean of a list of scores, 0 for an empty list. */
  function StatOf(xs: seq<real>): (s: Stat)
    ensures Describes(s, xs)
  {
    Stat(if xs == [] then 0.0 else Sum(xs) / |xs| as real, |xs|)
  }

  /** The position of the first score of task `t`, or the number of scores when
      the task does not occur. */
  function FirstPos(scores: seq<Scored>, t: string): (k: nat)
    ensures k <= |scores|
    ensures k < |scores| ==> scores[k].taskType == t
    ensures forall j :: 0 <= j < k ==> scores[j].taskType != t
  {
    if scores == [] then 0
    else if scores[0].taskType == t then 0
    else 1 + FirstPos(scores[1..], t)
  }

  /** Appending a score keeps the first position of every task that already
      occurs, and puts a new task at the end. */
  lemma {:induction false} FirstPosSnoc(init: seq<Scored>, x: Scored, t: string)
    ensures FirstPos(init + [x], t) ==
      if FirstPos(init, t) < |init| then FirstPos(init, t)
      else if x.taskType == t then |init| else |init| + 1
    decreases |init|
  {
    if init != [] && init[0].taskType != t {
      assert (init + [x])[1..] == init[1..] + [x];
      FirstPosSnoc(init[1..], x, t);
    }
  }

  /** The task types of a config's scores in order of first appearance: each
      type once, every type of the scores, and only those. */
  function TaskOrder(scores: seq<Scored>): (ts: seq<string>)
    ensures Distinct(ts)
    ensures forall k :: 0 <= k < |scores| ==> scores[k].taskType in ts
    ensures forall i :: 0 <= i < |ts| ==> FirstPos(scores, ts[i]) < |scores|
    ensures forall i, j :: 0 <= i < j < |ts| ==> FirstPos(scores, ts[i]) < FirstPos(scores, ts[j])
  {
    if scores == [] then []
    else
      var init := scores[..|scores| - 1];
      var ts := TaskOrder(init);
      var x := scores[|scores| - 1];
      var t := x.taskType;
      assert scores == init + [x];
      TaskOrderStep(init, x, ts);
      Extend(ts, t)
  }

  /** A task list with `t` added at the end unless it is already listed. */
  function Extend(ts: seq<string>, t: string): seq<string> {
    if t in ts then ts else ts + [t]
  }

  /** The task list of the scores so far, extended by the type of one more score
      when it is new, is the task list of all of them. */
  lemma TaskOrderStep(init: seq<Scored>, x: Scored, ts: seq<string>)
    requires Distinct(ts)
    requires forall k :: 0 <= k < |init| ==> init[k].taskType in ts
    requires forall i :: 0 <= i < |ts| ==> FirstPos(init, ts[i]) < |init|
    requires forall i, j :: 0 <= i < j < |ts| ==> FirstPos(init, ts[i]) < FirstPos(init, ts[j])
    ensures var scores := init + [x];
      var ts' := Extend(ts, x.taskType);
      && Distinct(ts')
      && (forall k :: 0 <= k < |scores| ==> scores[k].taskType in ts')
      && (forall i :: 0 <= i < |ts'| ==> FirstPos(scores, ts'[i]) < |scores|)
      && (forall i, j :: 0 <= i < j < |ts'| ==> FirstPos(scores, ts'[i]) < FirstPos(scores, ts'[j]))
  {
    var scores := init + [x];
    var t := x.taskType;
    var ts' := Extend(ts, t);
    forall k | 0 <= k < |scores| ensures scores[k].taskType in ts' {
      if k < |init| {
        assert scores[k] == init[k];
      }
    }
    FirstPosKept(init, x, ts);
    if t !in ts {
      NewTaskDistinct(ts, t);
      NewTaskLast(init, x, ts);
    }
  }

  lemma NewTaskDistinct(ts: seq<string>, t: string)
    requires Distinct(ts) && t !in ts
    ensures Distinct(ts + [t])
  {
    var ts' := ts + [t];
    forall i, j | 0 <= i < j < |ts'| ensures ts'[i] != ts'[j] {
      assert ts'[i] == ts[i];
    }
  }

  /** A new task type comes after every listed one. */
  lemma NewTaskLast(init: seq<Scored>, x: Scored, ts: seq<string>)
    requires x.taskType !in ts
    requires forall i :: 0 <= i < |ts| ==> FirstPos(init, ts[i]) < |init|
    requires forall i, j :: 0 <= i < j < |ts| ==> FirstPos(init, ts[i]) < FirstPos(init, ts[j])
    requires forall i :: 0 <= i < |ts| ==> FirstPos(init + [x], ts[i]) == FirstPos(init, ts[i])
    requires FirstPos(init + [x], x.taskType) == |init|
    ensures var ts' := ts + [x.taskType];
      && (forall i :: 0 <= i < |ts'| ==> FirstPos(init + [x], ts'[i]) < |init + [x]|)
      && (forall i, j :: 0 <= i < j < |ts'| ==> FirstPos(init + [x], ts'[i]) < FirstPos(init + [x], ts'[j]))
  {
    var ts' := ts + [x.taskType];
    assert forall i :: 0 <= i < |ts| ==> ts'[i] == ts[i];
    assert ts'[|ts|] == x.taskType;
  }

  /** The first positions of the tasks already listed survive an appended score;
      a task not listed first occurs at the appended score. */
  lemma FirstPosKept(init: seq<Scored>, x: Scored, ts: seq<string>)
    requires forall k :: 0 <= k < |init| ==> init[k].taskType in ts
    requires forall i :: 0 <= i < |ts| ==> FirstPos(init, ts[i]) < |init|
    ensures forall i :: 0 <= i < |ts| ==> FirstPos(init + [x], ts[i]) == FirstPos(init, ts[i])
    ensures x.taskType !in ts ==> FirstPos(init + [x], x.taskType) == |init|
  {
    forall i | 0 <= i < |ts| ensures FirstPos(init + [x], ts[i]) == FirstPos(init, ts[i]) {
      FirstPosSnoc(init, x, ts[i]);
    }
    FirstPosSnoc(init, x, x.taskType);
  }

  /** The positions of the positive scores of task `t`. */
  function Hits(scores: seq<Scored>, t: string): set<nat> {
    set k: nat | k < |scores| && scores[k].taskType == t && scores[k].score > 0.0
  }

  /** The positions of the positive scores of any task. */
  function PositiveHits(scores: seq<Scored>): set<nat> {
    set k: nat | k < |scores| && scores[k].score > 0.0
  }

  /** The positive scores of one task, in order: one for each position holding a
      positive score of that task. */
  function Valid(scores: seq<Scored>, task: string): (xs: seq<real>)
    ensures forall k :: 0 <= k < |xs| ==> xs[k] > 0.0
    ensures |xs| == |Hits(scores, task)|
  {
    if scores == [] then []
    else
      var init := scores[..|scores| - 1];
      var s := scores[|scores| - 1];
      var hit := s.taskType == task && s.score > 0.0;
      assert scores == init + [s];
      HitsSnoc(init, s, task);
      Valid(init, task) + (if hit then [s.score] else [])
  }

  lemma HitsSnoc(init: seq<Scored>, s: Scored, task: string)
    ensures |Hits(init + [s], task)| == |Hits(init, task)| + (if s.taskType == task && s.score > 0.0 then 1 else 0)
  {
    var scores := init + [s];
    assert forall k :: 0 <= k < |init| ==> scores[k] == init[k];
    var extra: set<nat> := if s.taskType == task && s.score > 0.0 then {|init|} else {};
    assert Hits(scores, task) == Hits(init, task) + extra;
    assert |init| !in Hits(init, task);
  }

  /** A value is a valid score of a task exactly when some position holds it as
      a positive score of that task. */
  lemma {:induction false} ValidMembers(scores: seq<Scored>, task: string)
    ensures forall x :: x in Valid(scores, task) <==>
      exists k :: 0 <= k < |scores| && scores[k].taskType == task && scores[k].score > 0.0 && scores[k].score == x
    decreases |scores|
  {
    if scores != [] {
      var init := scores[..|scores| - 1];
      var s := scores[|scores| - 1];
      assert scores == init + [s];
      ValidMembers(init, task);
      forall x ensures x in Valid(scores, task) <==>
        exists k :: 0 <= k < |scores| && scores[k].taskType == task && scores[k].score > 0.0 && scores[k].score == x
      {
        if x in Valid(init, task) {
          var k :| 0 <= k < |init| && init[k].taskType == task && init[k].score > 0.0 && init[k].score == x;
          assert scores[k] == init[k];
        }
        if exists k :: 0 <= k < |scores| && scores[k].taskType == task && scores[k].score > 0.0 && scores[k].score == x {
          var k :| 0 <= k < |scores| && scores[k].taskType == task && scores[k].score > 0.0 && scores[k].score == x;
          if k < |init| {
            assert init[k] == scores[k];
          }
        }
      }
    }
  }

  /** The positive scores of all tasks, in order: one for each position holding
      a positive score. */
  function Positive(scores: seq<Scored>): (xs: seq<real>)
    ensures forall k :: 0 <= k < |xs| ==> xs[k] > 0.0
    ensures |xs| == |PositiveHits(scores)|
  {
    if scores == [] then []
    else
      var init := scores[..|scores| - 1];
      var s := scores[|scores| - 1];
      assert scores == init + [s];
      PositiveHitsSnoc(init, s);
      Positive(init) + (if s.score > 0.0 then [s.score] else [])
  }

  lemma PositiveHitsSnoc(init: seq<Scored>, s: Scored)
    ensures |PositiveHits(init + [s])| == |PositiveHits(init)| + (if s.score > 0.0 then 1 else 0)
  {
    var scores := init + [s];
    assert forall k :: 0 <= k < |init| ==> scores[k] == init[k];
    var extra: set<nat> := if s.score > 0.0 then {|init|} else {};
    assert PositiveHits(scores) == PositiveHits(init) + extra;
    assert |init| !in PositiveHits(init);
  }

  /** The per-task positive scores concatenated in task order: `all_task_scores`. */
  function Pooled(scores: seq<Scored>, tasks: seq<string>): (xs: seq<real>)
    ensures forall k :: 0 <= k < |xs| ==> xs[k] > 0.0
  {
    if tasks == [] then []
    else Valid(scores, tasks[0]) + Pooled(scores, tasks[1..])
  }

  /** A score is pooled exactly when it is a valid score of one of the tasks. */
  lemma {:induction false} PooledMembers(scores: seq<Scored>, tasks: seq<string>, x: real)
    ensures x in Pooled(scores, tasks) <==> exists i :: 0 <= i < |tasks| && x in Valid(scores, tasks[i])
    decreases |tasks|
  {
    if tasks != [] {
      var rest := tasks[1..];
      PooledMembers(scores, rest, x);
      assert Pooled(scores, tasks) == Valid(scores, tasks[0]) + Pooled(scores, rest);
      if x in Pooled(scores, rest) {
        var i :| 0 <= i < |rest| && x in Valid(scores, rest[i]);
        assert rest[i] == tasks[i + 1];
      }
      if exists i :: 0 <= i < |tasks| && x in Valid(scores, tasks[i]) {
        var i :| 0 <= i < |tasks| && x in Valid(scores, tasks[i]);
        if i > 0 {
          assert tasks[i] == rest[i - 1];
        }
      }
    }
  }

  datatype ConfigSummary = ConfigSummary(tasks: seq<string>, perTask: seq<Stat>, overall: Stat)

  /** The summary of one config. Its tasks are the task types of the scores, each
      once, in order of first appearance. A task's entry counts the positions
      holding a positive score of that task and averages those scores (0 when
      there are none). The overall entry counts and averages every positive
      score, and its count is the sum of the per-task counts. */
  function Summarize(scores: seq<Scored>): (s: ConfigSummary)
    ensures Distinct(s.tasks)
    ensures forall k :: 0 <= k < |scores| ==> scores[k].taskType in s.tasks
    ensures forall i :: 0 <= i < |s.tasks| ==> FirstPos(scores, s.tasks[i]) < |scores|
    ensures forall i, j :: 0 <= i < j < |s.tasks| ==> FirstPos(scores, s.tasks[i]) < FirstPos(scores, s.tasks[j])
    ensures |s.perTask| == |s.tasks|
    ensures forall i :: 0 <= i < |s.tasks| ==> Describes(s.perTask[i], Valid(scores, s.tasks[i]))
    ensures forall i :: 0 <= i < |s.tasks| ==> s.perTask[i].n == |Hits(scores, s.tasks[i])|
    ensures Describes(s.overall, Positive(scores))
    ensures s.overall.n == |PositiveHits(scores)| == CountSum(scores, s.tasks)
  {
    var tasks := TaskOrder(scores);
    ConfigSummary(tasks, TaskStats(scores, tasks), Overall(scores))
  }

  /** The per-task entries for the given tasks: the count and mean of each
      task's positive scores. */
  function TaskStats(scores: seq<Scored>, tasks: seq<string>): (st: seq<Stat>)
    ensures |st| == |tasks|
    ensures forall i :: 0 <= i < |tasks| ==> Describes(st[i], Valid(scores, tasks[i]))
    ensures forall i :: 0 <= i < |tasks| ==> st[i].n == |Hits(scores, tasks[i])|
  {
    seq(|tasks|, i requires 0 <= i < |tasks| => StatOf(Valid(scores, tasks[i])))
  }

  /** The overall entry: the count and mean of the pooled scores, which are the
      positive scores of the config. */
  function Overall(scores: seq<Scored>): (o: Stat)
    ensures Describes(o, Positive(scores))
    ensures o.n == |PositiveHits(scores)| == CountSum(scores, TaskOrder(scores))
  {
    PooledIsPositive(scores);
    PooledCount(scores, TaskOrder(scores));
    StatOf(Pooled(scores, TaskOrder(scores)))
  }

  /** The overall count is the sum of the per-task counts. */
  lemma {:induction false} PooledCount(scores: seq<Scored>, tasks: seq<string>)
    ensures |Pooled(scores, tasks)| == CountSum(scores, tasks)
    decreases |tasks|
  {
    if tasks != [] {
      PooledCount(scores, tasks[1..]);
    }
  }

  function CountSum(scores: seq<Scored>, tasks: seq<string>): nat {
    if tasks == [] then 0 else |Valid(scores, tasks[0])| + CountSum(scores, tasks[1..])
  }

  lemma {:induction false} PooledSnoc(scores: seq<Scored>, tasks: seq<string>, t: string)
    ensures Pooled(scores, tasks + [t]) == Pooled(scores, tasks) + Valid(scores, t)
    decreases |tasks|
  {
    if tasks == [] {
      assert [t][1..] == [];
    } else {
      assert (tasks + [t])[1..] == tasks[1..] + [t];
      PooledSnoc(scores, tasks[1..], t);
    }
  }

  /** A task type that never occurs has no valid scores. */
  lemma {:induction false} ValidAbsent(scores: seq<Scored>, t: string)
    requires forall k :: 0 <= k < |scores| ==> scores[k].taskType != t
    ensures Valid(scores, t) == []
    decreases |scores|
  {
    if scores != [] {
      var init := scores[..|scores| - 1];
      assert forall k :: 0 <= k < |init| ==> init[k] == scores[k];
      ValidAbsent(init, t);
    }
  }

  lemma ValidSnoc(scores: seq<Scored>, x: Scored, t: string)
    ensures Valid(scores + [x], t) == Valid(scores, t) + (if x.taskType == t && x.score > 0.0 then [x.score] else [])
  {
    assert (scores + [x])[..|scores|] == scores;
  }

  predicate Distinct(ts: seq<string>) {
    forall i, j :: 0 <= i < j < |ts| ==> ts[i] != ts[j]
  }

  lemma DistinctTail(ts: seq<string>)
    requires ts != [] && Distinct(ts)
    ensures Distinct(ts[1..]) && ts[0] !in ts[1..]
  {
    var rest := ts[1..];
    forall i, j | 0 <= i < j < |rest| ensures rest[i] != rest[j] {
      assert rest[i] == ts[i + 1] && rest[j] == ts[j + 1];
    }
    forall k | 0 <= k < |rest| ensures rest[k] != ts[0] {
      assert rest[k] == ts[k + 1];
    }
  }

  /** Adding one scored item to a config adds its score to the pool exactly when
      its task is listed and the score is positive. */
  lemma {:induction false} PooledAdd(scores: seq<Scored>, x: Scored, tasks: seq<string>)
    requires Distinct(tasks)
    ensures var added := x.taskType in tasks && x.score > 0.0;
      && |Pooled(scores + [x], tasks)| == |Pooled(scores, tasks)| + (if added then 1 else 0)
      && Sum(Pooled(scores + [x], tasks)) == Sum(Pooled(scores, tasks)) + (if added then x.score else 0.0)
    decreases |tasks|
  {
    if tasks != [] {
      var t := tasks[0];
      var rest := tasks[1..];
      DistinctTail(tasks);
      PooledAdd(scores, x, rest);
      ValidSnoc(scores, x, t);
      var gain := if x.taskType == t && x.score > 0.0 then [x.score] else [];
      var v := Valid(scores, t);
      var after := Pooled(scores + [x], rest);
      var before := Pooled(scores, rest);
      assert Pooled(scores + [x], tasks) == (v + gain) + after;
      assert Pooled(scores, tasks) == v + before;
      SumConcat(v + gain, after);
      SumConcat(v, before);
      SumConcat(v, gain);
      if gain != [] {
        SumSingle(x.score);
      } else {
        assert Sum(gain) == 0.0;
      }
      assert x.taskType in tasks <==> x.taskType == t || x.taskType in rest;
    }
  }

  /** The overall pool holds exactly the positive scores of the config: the same
      number of them with the same sum. */
  lemma {:induction false} PooledIsPositive(scores: seq<Scored>)
    ensures |Pooled(scores, TaskOrder(scores))| == |Positive(scores)|
    ensures Sum(Pooled(scores, TaskOrder(scores))) == Sum(Positive(scores))
    decreases |scores|
  {
    if scores != [] {
      var init := scores[..|scores| - 1];
      var x := scores[|scores| - 1];
      assert scores == init + [x];
      PooledIsPositive(init);
      PooledStep(init, x);
    }
  }

  /** One more scored item keeps the pool and the positive scores in step. */
  lemma PooledStep(init: seq<Scored>, x: Scored)
    requires |Pooled(init, TaskOrder(init))| == |Positive(init)|
    requires Sum(Pooled(init, TaskOrder(init))) == Sum(Positive(init))
    ensures |Pooled(init + [x], TaskOrder(init + [x]))| == |Positive(init + [x])|
    ensures Sum(Pooled(init + [x], TaskOrder(init + [x]))) == Sum(Positive(init + [x]))
  {
    PositiveGrows(init, x);
    PooledGrows(init, x);
  }

  /** What one item adds to a list of positive scores. */
  function Gain(x: Scored): seq<real> {
    if x.score > 0.0 then [x.score] else []
  }

  lemma PositiveGrows(init: seq<Scored>, x: Scored)
    ensures |Positive(init + [x])| == |Positive(init)| + |Gain(x)|
    ensures Sum(Positive(init + [x])) == Sum(Positive(init)) + Sum(Gain(x))
  {
    PositiveSnoc(init, x);
    SumConcat(Positive(init), Gain(x));
  }

  lemma PooledGrows(init: seq<Scored>, x: Scored)
    ensures |Pooled(init + [x], TaskOrder(init + [x]))| == |Pooled(init, TaskOrder(init))| + |Gain(x)|
    ensures Sum(Pooled(init + [x], TaskOrder(init + [x]))) == Sum(Pooled(init, TaskOrder(init))) + Sum(Gain(x))
  {
    var ts := TaskOrder(init);
    TaskOrderSnoc(init, x);
    if x.taskType in ts {
      PooledGrowsListed(init, x, ts);
    } else {
      PooledGrowsNew(init, x, ts);
    }
  }

  lemma PooledGrowsListed(init: seq<Scored>, x: Scored, ts: seq<string>)
    requires Distinct(ts) && x.taskType in ts
    ensures |Pooled(init + [x], ts)| == |Pooled(init, ts)| + |Gain(x)|
    ensures Sum(Pooled(init + [x], ts)) == Sum(Pooled(init, ts)) + Sum(Gain(x))
  {
    PooledAdd(init, x, ts);
    if x.score > 0.0 {
      SumSingle(x.score);
    }
  }

  lemma PooledGrowsNew(init: seq<Scored>, x: Scored, ts: seq<string>)
    requires ts == TaskOrder(init) && x.taskType !in ts
    ensures |Pooled(init + [x], ts + [x.taskType])| == |Pooled(init, ts)| + |Gain(x)|
    ensures Sum(Pooled(init + [x], ts + [x.taskType])) == Sum(Pooled(init, ts)) + Sum(Gain(x))
  {
    PooledAdd(init, x, ts);
    PoolNewTask(init, x);
    SumConcat(Pooled(init + [x], ts), Gain(x));
  }

  lemma TaskOrderSnoc(init: seq<Scored>, x: Scored)
    ensures TaskOrder(init + [x]) == Extend(TaskOrder(init), x.taskType)
  {
    assert (init + [x])[..|init|] == init;
  }

  lemma PositiveSnoc(init: seq<Scored>, x: Scored)
    ensures Positive(init + [x]) == Positive(init) + Gain(x)
  {
    assert (init + [x])[..|init|] == init;
  }

  /** A task seen for the first time contributes just the new item's score. */
  lemma PoolNewTask(init: seq<Scored>, x: Scored)
    requires x.taskType !in TaskOrder(init)
    ensures Pooled(init + [x], TaskOrder(init) + [x.taskType]) == Pooled(init + [x], TaskOrder(init)) + Gain(x)
  {
    var ts := TaskOrder(init);
    var t := x.taskType;
    assert forall k :: 0 <= k < |init| ==> init[k].taskType in ts;
    ValidAbsent(init, t);
    ValidSnoc(init, x, t);
    assert Valid(init + [x], t) == Gain(x);
    PooledSnoc(init + [x], ts, t);
  }
}

=== FILE: model_utils.dfy ===
/** Model and tokenizer loading: the dtype aliases, the two-loader fallback, the
    checkpoint metadata file and the dispatch between a plain model path and a
    raw state-dict checkpoint. Loaders, the file system and JSON decoding are
    inputs; the model itself is an opaque type parameter. */
module ModelUtils {
  import opened Wrappers
  import opened Text

  // ---------------------------------------------------------------------------
  // dtype names

  datatype Dtype = Float32 | Float16 | BFloat16

  /** The names accepted for each dtype. */
  function Aliases(d: Dtype): seq<string> {
    match d
    case Float32 => ["float32", "fp32"]
    case Float16 => ["float16", "fp16"]
    case BFloat16 => ["bfloat16", "bf16"]
  }

  /** The lookup key of a dtype name: lower-cased, then stripped. */
  function Key(s: string): string {
    Strip(Lower(s))
  }

  /** `_DTYPE_MAP.get(key)` */
  function DtypeOf(key: string): (r: Option<Dtype>)
    ensures r.Some? <==> exists d: Dtype :: key in Aliases(d)
    ensures r.Some? ==> key in Aliases(r.value)
  {
    if key in Aliases(Float32) then Some(Float32)
    else if key in Aliases(Float16) then Some(Float16)
    else if key in Aliases(BFloat16) then Some(BFloat16)
    else None
  }

  /** `parse_dtype`: the dtype whose alias is the key of `s`, or a ValueError
      naming the original text. */
  function ParseDtype(s: string): (r: Result<Dtype, string>)
    ensures r.Success? <==> exists d: Dtype :: Key(s) in Aliases(d)
    ensures r.Success? ==> Key(s) in Aliases(r.value)
    ensures r.Failure? ==> r.error == "Unsupported dtype: " + s
  {
    var key := Key(s);
    match DtypeOf(key)
    case Some(d) => Success(d)
    case None => Failure("Unsupported dtype: " + s)
  }

  /** Every alias parses to its dtype, and a name parses to `d` only if its key
      is an alias of `d`: the two aliases of a dtype are interchangeable. */
  lemma AliasesParse(d: Dtype, s: string)
    ensures ParseDtype(s) == Success(d) <==> Key(s) in Aliases(d)
  {
    var key := Key(s);
    if key in Aliases(d) {
      AliasesDisjoint(key, d, ParseDtype(s).value);
    }
  }

  /** No name is an alias of two dtypes. */
  lemma AliasesDisjoint(key: string, d1: Dtype, d2: Dtype)
    requires key in Aliases(d1) && key in Aliases(d2)
    ensures d1 == d2
  {
  }

  /** The key is already in key form. */
  lemma KeyIdempotent(s: string)
    ensures Key(Key(s)) == Key(s)
  {
    LowerStripCommute(Lower(s));
    LowerIdempotent(s);
    StripIdempotent(Lower(s));
  }

  /** Parsing ignores case and surrounding whitespace: a name parses like its
      key. */
  lemma ParseIgnoresCaseAndSpace(s: string)
    ensures ParseDtype(Key(s)).Success? <==> ParseDtype(s).Success?
    ensures ParseDtype(s).Success? ==> ParseDtype(Key(s)) == ParseDtype(s)
  {
    var k := Key(s);
    KeyIdempotent(s);
    assert DtypeOf(Key(k)) == DtypeOf(k);
  }

  // ---------------------------------------------------------------------------
  // Loading the model with a fallback

  /** The two model loaders, in the order they are tried. */
  datatype Loader = CausalLM | ImageTextToText

  /** A model load: what was tried, in order, and the model or the error. */
  datatype Attempted<M> = Attempted(value: Result<M, string>, tried: seq<Loader>)

  /** `_load_model_only`: the causal-LM loader first, the image-text loader only
      when it failed, and a RuntimeError listing both errors in attempt order
      when both fail. */
  function LoadModelOnly<M>(path: string, causal: string -> Result<M, string>, imageText: string -> Result<M, string>): (r: Attempted<M>)
    ensures |r.tried| >= 1 && r.tried[0] == CausalLM
    ensures causal(path).Success? ==> r == Attempted(Success(causal(path).value), [CausalLM])
    ensures causal(path).Failure? ==> r.tried == [CausalLM, ImageTextToText]
    ensures causal(path).Failure? && imageText(path).Success? ==> r.value == Success(imageText(path).value)
    ensures causal(path).Failure? && imageText(path).Failure? ==>
      r.value == Failure("Failed to load model " + path + ": " + causal(path).error + " | " + imageText(path).error)
  {
    match causal(path)
    case Success(m) => Attempted(Success(m), [CausalLM])
    case Failure(e1) =>
      match imageText(path)
      case Success(m) => Attempted(Success(m), [CausalLM, ImageTextToText])
      case Failure(e2) => Attempted(Failure("Failed to load model " + path + ": " + e1 + " | " + e2), [CausalLM, ImageTextToText])
  }

  // ---------------------------------------------------------------------------
  // Paths

  /** A component `pathlib` keeps: non-empty, not `.`, without a slash. */
  predicate IsPart(s: string) {
    s != [] && s != "." && '/' !in s
  }

  /** The anchor of a POSIX path as `pathlib` keeps it: exactly two leading
      slashes stay two; one, or three and more, become one. */
  function PathRoot(p: string): string {
    if |p| == 0 || p[0] != '/' then ""
    else if |p| >= 2 && p[1] == '/' && (|p| == 2 || p[2] != '/') then "//"
    else "/"
  }

  /** The pieces of a `/`-split that `pathlib` keeps: empty pieces and `.` are
      dropped. */
  function KeptParts(pieces: seq<string>): (parts: seq<string>)
    ensures |parts| <= |pieces|
    ensures forall k :: 0 <= k < |parts| ==> parts[k] != [] && parts[k] != "." && parts[k] in pieces
  {
    if pieces == [] then []
    else (if pieces[0] == [] || pieces[0] == "." then [] else [pieces[0]]) + KeptParts(pieces[1..])
  }

  /** The components of a path after its anchor, as `Path(p).parts` lists them. */
  function PathParts(p: string): (parts: seq<string>)
    ensures forall k :: 0 <= k < |parts| ==> IsPart(parts[k])
  {
    KeptParts(Split(p, '/'))
  }

  /** A path in the form `str(Path(...))` prints: after the anchor, kept
      components separated by single slashes, with no empty or `.` component
      and no trailing slash. */
  predicate Normal(p: string) {
    var root := PathRoot(p);
    |root| <= |p|
    && var pieces := Split(p[|root|..], '/');
       forall k :: 0 <= k < |pieces| ==> IsPart(pieces[k])
  }

  /** `str(Path(dir) / name)`: the anchor of `dir`, then its components and
      `name`, separated by single slashes. For a single component `name` the
      result is in normal form, with the anchor of `dir` and one component
      more. */
  function JoinPath(dir: string, name: string): (r: string)
    ensures IsPart(name) ==> PathRoot(r) == PathRoot(dir)
    ensures IsPart(name) ==> PathParts(r) == PathParts(dir) + [name]
    ensures IsPart(name) ==> Normal(r)
  {
    var parts := PathParts(dir) + [name];
    if IsPart(name) then
      JoinParses(PathRoot(dir), parts);
      JoinNormal(PathRoot(dir), parts);
      PathRoot(dir) + Join("/", parts)
    else PathRoot(dir) + Join("/", parts)
  }

  /** An anchor followed by slash-joined components is in normal form. */
  lemma JoinNormal(root: string, parts: seq<string>)
    requires root == "" || root == "/" || root == "//"
    requires parts != [] && forall k :: 0 <= k < |parts| ==> IsPart(parts[k])
    ensures Normal(root + Join("/", parts))
  {
    var p := root + Join("/", parts);
    JoinParses(root, parts);
    assert p[|root|..] == Join("/", parts);
    SplitJoin(parts, '/');
  }

  /** A path in normal form is determined by its anchor and components: it is
      exactly what joining them back gives. */
  lemma NormalIsCanonical(p: string)
    requires Normal(p)
    ensures p == PathRoot(p) + Join("/", PathParts(p))
  {
    var root := PathRoot(p);
    var rest := p[|root|..];
    var pieces := Split(rest, '/');
    assert p == root + rest;
    KeptAll(pieces);
    JoinSplit(rest, '/');
    assert PathParts(rest) == pieces;
    if root == "/" {
      SlashPrefixParses(rest);
    } else if root == "//" {
      DoubleSlashParts(rest);
    }
  }

  /** Components that are all kept survive the filter unchanged. */
  lemma {:induction false} KeptAll(parts: seq<string>)
    requires forall k :: 0 <= k < |parts| ==> IsPart(parts[k])
    ensures KeptParts(parts) == parts
    decreases |parts|
  {
    if parts != [] {
      KeptAll(parts[1..]);
      assert parts == [parts[0]] + parts[1..];
    }
  }

  /** A slash-joined list starts with its first element. */
  lemma {:induction false} JoinStartsWith(parts: seq<string>)
    requires parts != []
    ensures HasPrefix(Join("/", parts), parts[0])
  {
    if |parts| > 1 {
      var j := Join("/", parts);
      assert j == parts[0] + "/" + Join("/", parts[1..]);
      assert j[..|parts[0]|] == parts[0];
    }
  }

  /** An anchor followed by slash-joined components parses back into that anchor
      and those components. */
  lemma JoinParses(root: string, parts: seq<string>)
    requires root == "" || root == "/" || root == "//"
    requires parts != [] && forall k :: 0 <= k < |parts| ==> IsPart(parts[k])
    ensures PathRoot(root + Join("/", parts)) == root
    ensures PathParts(root + Join("/", parts)) == parts
  {
    if root == "/" {
      RootedParses(parts);
    } else if root == "//" {
      DoubleRootedParses(parts);
    } else {
      JoinParsesRelative(parts);
      assert root + Join("/", parts) == Join("/", parts);
    }
  }

  lemma RootedParses(parts: seq<string>)
    requires parts != [] && forall k :: 0 <= k < |parts| ==> IsPart(parts[k])
    ensures PathRoot("/" + Join("/", parts)) == "/"
    ensures PathParts("/" + Join("/", parts)) == parts
  {
    var s := Join("/", parts);
    JoinParsesRelative(parts);
    SlashPrefixParses(s);
    var r := "/" + s;
    assert r[0] == '/' && r[1] == s[0];
  }

  lemma DoubleRootedParses(parts: seq<string>)
    requires parts != [] && forall k :: 0 <= k < |parts| ==> IsPart(parts[k])
    ensures PathRoot("//" + Join("/", parts)) == "//"
    ensures PathParts("//" + Join("/", parts)) == parts
  {
    var s := Join("/", parts);
    JoinParsesRelative(parts);
    DoubleSlashParts(s);
    DoubleSlashRoot(s);
  }

  lemma DoubleSlashRoot(s: string)
    requires |s| > 0 && s[0] != '/'
    ensures PathRoot("//" + s) == "//"
  {
    var r := "//" + s;
    assert r[0] == '/' && r[1] == '/' && r[2] == s[0];
  }

  /** Two leading slashes add two empty pieces to the split, which are dropped. */
  lemma DoubleSlashParts(s: string)
    ensures PathParts("//" + s) == PathParts(s)
  {
    var t := "/" + s;
    SlashPrefixParses(t);
    SlashPrefixParses(s);
    assert "/" + t == "//" + s;
  }

  /** Slash-joined components have no anchor and parse back into themselves. */
  lemma JoinParsesRelative(parts: seq<string>)
    requires parts != [] && forall k :: 0 <= k < |parts| ==> IsPart(parts[k])
    ensures PathRoot(Join("/", parts)) == ""
    ensures PathParts(Join("/", parts)) == parts
    ensures Join("/", parts)[0] != '/'
  {
    var s := Join("/", parts);
    SplitJoin(parts, '/');
    KeptAll(parts);
    JoinStartsWith(parts);
    assert s[0] == parts[0][0];
    assert parts[0][0] in parts[0];
  }

  /** A leading slash adds an empty first piece to the split, which is dropped. */
  lemma SlashPrefixParses(s: string)
    ensures PathParts("/" + s) == PathParts(s)
  {
    SplitAtFirst("", '/', s);
    assert "" + ['/'] + s == "/" + s;
    var pieces := Split(s, '/');
    assert ([""] + pieces)[1..] == pieces;
  }

  /** Joining onto a directory already in normal relative form just inserts one
      slash. */
  lemma JoinPathOfNormal(parts: seq<string>, name: string)
    requires parts != [] && forall k :: 0 <= k < |parts| ==> IsPart(parts[k])
    requires IsPart(name)
    ensures JoinPath(Join("/", parts), name) == Join("/", parts) + "/" + name
  {
    var d := Join("/", parts);
    JoinParsesRelative(parts);
    assert JoinPath(d, name) == "" + Join("/", parts + [name]);
    JoinSnoc(parts, name);
  }

  lemma {:induction false} JoinSnoc(parts: seq<string>, name: string)
    requires parts != []
    ensures Join("/", parts + [name]) == Join("/", parts) + "/" + name
    decreases |parts|
  {
    if |parts| > 1 {
      assert (parts + [name])[1..] == parts[1..] + [name];
      JoinSnoc(parts[1..], name);
    }
  }

  /** `pathlib` normalises the directory before joining: a trailing slash and a
      leading `./` disappear, and the empty directory adds nothing. */
  lemma JoinPathNormalises(d: string, name: string)
    requires IsPart(d) && IsPart(name)
    ensures JoinPath(d + "/", name) == d + "/" + name
    ensures JoinPath("./" + d, name) == d + "/" + name
    ensures JoinPath("", name) == name
  {
    TrailingSlashDropped(d, name);
    LeadingDotDropped(d, name);
    assert Split("", '/') == [""];
    assert PathParts("") == [];
  }

  lemma TrailingSlashDropped(d: string, name: string)
    requires IsPart(d) && IsPart(name)
    ensures JoinPath(d + "/", name) == d + "/" + name
  {
    SplitAtFirst(d, '/', "");
    assert d + ['/'] + "" == d + "/";
    assert Split("", '/') == [""];
    assert KeptParts([""]) == [];
    assert KeptParts([d, ""]) == [d] + KeptParts([""]);
    assert PathParts(d + "/") == [d];
    assert d[0] in d;
    assert PathRoot(d + "/") == "";
    SingleComponent(d, name);
    SameAnchorSameJoin(d + "/", d, name);
  }

  lemma LeadingDotDropped(d: string, name: string)
    requires IsPart(d) && IsPart(name)
    ensures JoinPath("./" + d, name) == d + "/" + name
  {
    SplitAtFirst(".", '/', d);
    assert "." + ['/'] + d == "./" + d;
    assert Split(d, '/') == [d];
    assert KeptParts([d]) == [d];
    assert KeptParts([".", d]) == [] + KeptParts([d]);
    assert PathParts("./" + d) == [d];
    assert PathRoot("./" + d) == "";
    SingleComponent(d, name);
    SameAnchorSameJoin("./" + d, d, name);
  }

  /** A single component joins with one slash. */
  lemma SingleComponent(d: string, name: string)
    requires IsPart(d) && IsPart(name)
    ensures PathRoot(d) == "" && PathParts(d) == [d]
    ensures JoinPath(d, name) == d + "/" + name
  {
    assert Join("/", [d]) == d;
    JoinParsesRelative([d]);
    JoinPathOfNormal([d], name);
  }

  /** The join depends on the directory only through its anchor and components. */
  lemma SameAnchorSameJoin(a: string, b: string, name: string)
    requires PathRoot(a) == PathRoot(b) && PathParts(a) == PathParts(b)
    ensures JoinPath(a, name) == JoinPath(b, name)
  {
  }

  /** The metadata file and the raw weights file of a checkpoint directory. */
  const MetaFile: string := "checkpoint_meta.json"
  const WeightsFile: string := "pytorch_model.bin"

  // ---------------------------------------------------------------------------
  // Checkpoint metadata

  /** A value of the metadata JSON object. */
  datatype MetaValue = Str(s: string) | Null | Other(repr: string)

  /** `str(value)` */
  function Render(v: MetaValue): string {
    match v
    case Str(s) => s
    case Null => "None"
    case Other(repr) => repr
  }

  type Meta = map<string, MetaValue>

  /** `_load_checkpoint_meta`: no metadata when the file is missing; its parsed
      content when it parses; a RuntimeError otherwise. */
  function LoadCheckpointMeta(path: string, file: Option<string>, parse: string -> Result<Meta, string>): (r: Result<Option<Meta>, string>)
    ensures file.None? ==> r == Success(None)
    ensures file.Some? && parse(file.value).Success? ==> r == Success(Some(parse(file.value).value))
    ensures file.Some? && parse(file.value).Failure? ==>
      r == Failure("Failed to parse checkpoint metadata at " + JoinPath(path, MetaFile) + ": " + parse(file.value).error)
  {
    match file
    case None => Success(None)
    case Some(text) =>
      match parse(text)
      case Success(m) => Success(Some(m))
      case Failure(e) => Failure("Failed to parse checkpoint metadata at " + JoinPath(path, MetaFile) + ": " + e)
  }

  /** The metadata describes a raw state-dict checkpoint: it is present and
      truthy (a non-empty object, implied by the key) and its `format` is that
      string. */
  predicate IsRawStateDict(meta: Option<Meta>) {
    meta.Some? && "format" in meta.value && meta.value["format"] == Str("raw_state_dict")
  }

  /** `str(meta.get("base_model_id", "")).strip()` */
  function BaseModelId(meta: Meta): string {
    Strip(if "base_model_id" in meta then Render(meta["base_model_id"]) else "")
  }

  // ---------------------------------------------------------------------------
  // Loading model and tokenizer

  datatype Tokenizer = Tokenizer(padToken: Option<string>, eosToken: Option<string>)

  /** The outside world `load_model_and_tokenizer` reads: the metadata file of the
      path (if any) and its parser, the tokenizer and model loaders, whether the
      raw weights file exists, and loading those weights into a model. */
  datatype Env<!M> = Env(
    metaFile: Option<string>,
    parseMeta: string -> Result<Meta, string>,
    loadTokenizer: string -> Result<Tokenizer, string>,
    causal: string -> Result<M, string>,
    imageText: string -> Result<M, string>,
    weightsPresent: bool,
    loadWeights: M -> M)

  /** The observable steps of a load, in order. */
  datatype Step = ReadMeta | LoadTokenizer | LoadModel(source: string, tried: seq<Loader>) | LoadWeights

  datatype Loaded<M> = Loaded(model: M, tokenizer: Tokenizer, dtype: Dtype, raw: bool)

  datatype Run<M> = Run(value: Result<Loaded<M>, string>, steps: seq<Step>)

  /** The tokenizer as returned: a missing pad token is set to the EOS token. */
  function WithPad(t: Tokenizer): (r: Tokenizer)
    ensures t.padToken.Some? ==> r == t
    ensures t.padToken.None? ==> r == Tokenizer(t.eosToken, t.eosToken)
  {
    if t.padToken.None? then Tokenizer(t.eosToken, t.eosToken) else t
  }

  /** `load_model_and_tokenizer`: parse the dtype, read the metadata, load the
      tokenizer, then either rebuild a raw state-dict checkpoint on its base model
      or load the path directly. */
  function LoadModelAndTokenizer<M>(path: string, dtype: string, env: Env<M>): (r: Run<M>)
    ensures ParseDtype(dtype).Failure? ==> r == Run(Failure(ParseDtype(dtype).error), [])
    ensures r.value.Success? ==>
      && r.value.value.dtype == ParseDtype(dtype).value
      && env.loadTokenizer(path).Success?
      && r.value.value.tokenizer == WithPad(env.loadTokenizer(path).value)
    ensures ParseDtype(dtype).Success? ==> |r.steps| >= 1 && r.steps[0] == ReadMeta
    ensures r.value.Success? ==>
      && LoadCheckpointMeta(path, env.metaFile, env.parseMeta).Success?
      && (r.value.value.raw <==> IsRawStateDict(LoadCheckpointMeta(path, env.metaFile, env.parseMeta).value))
  {
    match ParseDtype(dtype)
    case Failure(e) => Run(Failure(e), [])
    case Success(d) => LoadWithDtype(path, d, env)
  }

  /** The load once the dtype is known: metadata, tokenizer, then the model. */
  function LoadWithDtype<M>(path: string, d: Dtype, env: Env<M>): (r: Run<M>)
    ensures |r.steps| >= 1 && r.steps[0] == ReadMeta
    ensures r.value.Success? ==>
      && r.value.value.dtype == d
      && env.loadTokenizer(path).Success?
      && r.value.value.tokenizer == WithPad(env.loadTokenizer(path).value)
      && LoadCheckpointMeta(path, env.metaFile, env.parseMeta).Success?
      && (r.value.value.raw <==> IsRawStateDict(LoadCheckpointMeta(path, env.metaFile, env.parseMeta).value))
  {
    match LoadCheckpointMeta(path, env.metaFile, env.parseMeta)
    case Failure(e) => Run(Failure(e), [ReadMeta])
    case Success(meta) =>
      match env.loadTokenizer(path)
      case Failure(e) => Run(Failure(e), [ReadMeta, LoadTokenizer])
      case Success(tok) => LoadChosen(path, meta, WithPad(tok), d, env)
  }

  /** The model load proper, once metadata and tokenizer are read: the raw
      branch for a raw state-dict checkpoint, the plain one otherwise. */
  function LoadChosen<M>(path: string, meta: Option<Meta>, tokenizer: Tokenizer, d: Dtype, env: Env<M>): (r: Run<M>)
    ensures |r.steps| >= 2 && r.steps[..2] == [ReadMeta, LoadTokenizer]
    ensures r.value.Success? ==> r.value.value == Loaded(r.value.value.model, tokenizer, d, IsRawStateDict(meta))
  {
    if IsRawStateDict(meta) then LoadRaw(path, BaseModelId(meta.value), tokenizer, d, env)
    else LoadPlain(path, tokenizer, d, env)
  }

  /** The raw state-dict branch, given the metadata's base model id as
      `BaseModelId` reads it: nothing is loaded when the id is empty, otherwise
      the base model and then the checkpoint's weights. */
  function LoadRaw<M>(path: string, base: string, tokenizer: Tokenizer, d: Dtype, env: Env<M>): (r: Run<M>)
    ensures |r.steps| >= 2 && r.steps[..2] == [ReadMeta, LoadTokenizer]
    ensures r.value.Success? ==> r.value.value == Loaded(r.value.value.model, tokenizer, d, true)
    ensures base == [] ==> r.value.Failure? && r.steps == [ReadMeta, LoadTokenizer]
    ensures base != [] ==> r == LoadBase(path, base, tokenizer, d, env)
  {
    if base == [] then
      Run(Failure("Checkpoint at " + path + " is raw_state_dict but missing base_model_id"), [ReadMeta, LoadTokenizer])
    else
      LoadBase(path, base, tokenizer, d, env)
  }

  /** The raw branch once the base model id is known: the base model through the
      loader fallback, then the checkpoint's weights file loaded into it. */
  function LoadBase<M>(path: string, base: string, tokenizer: Tokenizer, d: Dtype, env: Env<M>): (r: Run<M>)
    ensures var attempt := LoadModelOnly(base, env.causal, env.imageText);
      && |r.steps| >= 3
      && r.steps[..3] == [ReadMeta, LoadTokenizer, LoadModel(base, attempt.tried)]
      && (r.value.Success? <==> attempt.value.Success? && env.weightsPresent)
      && (r.value.Success? ==> r.value.value == Loaded(env.loadWeights(attempt.value.value), tokenizer, d, true))
      && (r.value.Success? ==> r.steps == [ReadMeta, LoadTokenizer, LoadModel(base, attempt.tried), LoadWeights])
      && (attempt.value.Failure? ==> r.value == Failure(attempt.value.error))
      && (attempt.value.Success? && !env.weightsPresent ==>
            r.value == Failure("Missing raw checkpoint weights at " + JoinPath(path, WeightsFile)))
  {
    var attempt := LoadModelOnly(base, env.causal, env.imageText);
    var steps := [ReadMeta, LoadTokenizer, LoadModel(base, attempt.tried)];
    match attempt.value
    case Failure(e) => Run(Failure(e), steps)
    case Success(model) =>
      if !env.weightsPresent then
        Run(Failure("Missing raw checkpoint weights at " + JoinPath(path, WeightsFile)), steps)
      else
        Run(Success(Loaded(env.loadWeights(model), tokenizer, d, true)), steps + [LoadWeights])
  }

  /** The plain branch: the given path through the loader fallback. */
  function LoadPlain<M>(path: string, tokenizer: Tokenizer, d: Dtype, env: Env<M>): (r: Run<M>)
    ensures r.steps == [ReadMeta, LoadTokenizer, LoadModel(path, LoadModelOnly(path, env.causal, env.imageText).tried)]
    ensures r.value.Success? <==> LoadModelOnly(path, env.causal, env.imageText).value.Success?
    ensures r.value.Success? ==>
      r.value.value == Loaded(LoadModelOnly(path, env.causal, env.imageText).value.value, tokenizer, d, false)
  {
    var attempt := LoadModelOnly(path, env.causal, env.imageText);
    var steps := [ReadMeta, LoadTokenizer, LoadModel(path, attempt.tried)];
    match attempt.value
    case Failure(e) => Run(Failure(e), steps)
    case Success(model) => Run(Success(Loaded(model, tokenizer, d, false)), steps)
  }

  /** Once dtype, metadata and tokenizer are in hand, a raw state-dict checkpoint
      takes the raw branch and every other checkpoint loads the given path. */
  lemma DispatchOnFormat<M>(path: string, dtype: string, env: Env<M>)
    requires ParseDtype(dtype).Success?
    requires LoadCheckpointMeta(path, env.metaFile, env.parseMeta).Success?
    requires env.loadTokenizer(path).Success?
    ensures var meta := LoadCheckpointMeta(path, env.metaFile, env.parseMeta).value;
      var tokenizer := WithPad(env.loadTokenizer(path).value);
      LoadModelAndTokenizer(path, dtype, env) ==
        if IsRawStateDict(meta) then LoadRaw(path, BaseModelId(meta.value), tokenizer, ParseDtype(dtype).value, env)
        else LoadPlain(path, tokenizer, ParseDtype(dtype).value, env)
  {
  }

  /** A `null` base model id renders as "None", which is non-empty: such a
      checkpoint tries to load a base model named "None" instead of failing as
      missing. */
  lemma NullBaseModelIdIsNone(meta: Meta)
    requires "base_model_id" in meta && meta["base_model_id"] == Null
    ensures BaseModelId(meta) == "None"
  {
    StripStripped("None");
  }

  /** An empty metadata object is falsy: the path is loaded directly even if it
      could be read. */
  lemma EmptyMetaIsPlain()
    ensures !IsRawStateDict(Some(map[]))
  {
  }
}

=== FILE: numbers.dfy ===
/** Sums and means of real numbers, shared by the accuracy and the judge-score
    summaries. */
module Numbers {
  /** `sum(xs)` */
  function Sum(xs: seq<real>): (s: real)
    ensures (forall i :: 0 <= i < |xs| ==> 0.0 <= xs[i] <= 1.0) ==> 0.0 <= s <= |xs| as real
  {
    if xs == [] then 0.0 else Sum(xs[..|xs| - 1]) + xs[|xs| - 1]
  }

  lemma SumSingle(a: real)
    ensures Sum([a]) == a
  {
    assert [a][..0] == [];
  }

  /** The sum of a concatenation is the sum of the sums. */
  lemma {:induction false} SumConcat(a: seq<real>, b: seq<real>)
    ensures Sum(a + b) == Sum(a) + Sum(b)
    decreases |b|
  {
    if b != [] {
      assert (a + b)[..|a + b| - 1] == a + b[..|b| - 1];
      SumConcat(a, b[..|b| - 1]);
    } else {
      assert a + b == a;
    }
  }

  /** The mean of `n` values summing to `s`, and its bounds when each value lies
      in [0, 1]. */
  lemma MeanOf(s: real, n: real)
    requires n >= 1.0
    ensures (s / n) * n == s
    ensures 0.0 <= s <= n ==> 0.0 <= s / n <= 1.0
  {
  }
}

=== FILE: text.dfy ===
/** The few Python `str` operations the harness relies on: `isspace`, `strip`,
    `split()` on whitespace, `split(sep)` on one character, `join`, `lower`,
    prefix/suffix tests and first/last occurrence search. */
module Text {
  import opened Wrappers

  /** Python's `str.isspace` for a single character, by code point. */
  predicate IsSpace(c: char) {
    var n := c as int;
    n == 32 || 9 <= n <= 13 || 28 <= n <= 31 || n == 0x85 || n == 0xa0 || n == 0x1680
    || 0x2000 <= n <= 0x200a || n == 0x2028 || n == 0x2029 || n == 0x202f
    || n == 0x205f || n == 0x3000
  }

  predicate AllSpace(s: string) {
    forall i :: 0 <= i < |s| ==> IsSpace(s[i])
  }

  /** Neither end of `s` is whitespace (the shape `strip` produces). */
  predicate Stripped(s: string) {
    s == [] || (!IsSpace(s[0]) && !IsSpace(s[|s| - 1]))
  }

  // ---------------------------------------------------------------------------
  // strip

  /** `s.lstrip()` */
  function TrimStart(s: string): (r: string)
    ensures |r| <= |s| && r == s[|s| - |r|..]
    ensures r == [] || !IsSpace(r[0])
    ensures forall i :: 0 <= i < |s| - |r| ==> IsSpace(s[i])
  {
    if s != [] && IsSpace(s[0]) then TrimStart(s[1..]) else s
  }

  /** `s.rstrip()` */
  function TrimEnd(s: string): (r: string)
    ensures |r| <= |s| && r == s[..|r|]
    ensures r == [] || !IsSpace(r[|r| - 1])
    ensures forall i :: |r| <= i < |s| ==> IsSpace(s[i])
  {
    if s != [] && IsSpace(s[|s| - 1]) then TrimEnd(s[..|s| - 1]) else s
  }

  /** `s.strip()`: the result has no whitespace at either end, and it is empty
      exactly when `s` is all whitespace. */
  function Strip(s: string): (r: string)
    ensures Stripped(r)
    ensures r == [] <==> AllSpace(s)
    ensures |r| <= |s|
  {
    TrimEnd(TrimStart(s))
  }

  /** A string that already has no whitespace at its ends is left alone by `strip`. */
  lemma StripStripped(s: string)
    requires Stripped(s)
    ensures Strip(s) == s
  {
  }

  lemma StripIdempotent(s: string)
    ensures Strip(Strip(s)) == Strip(s)
  {
    StripStripped(Strip(s));
  }

  /** Whitespace after a string that does not end in whitespace is exactly what
      `rstrip` removes. */
  lemma {:induction false} TrimEndSpace(b: string, t: string)
    requires b == [] || !IsSpace(b[|b| - 1])
    requires AllSpace(t)
    ensures TrimEnd(b + t) == b
    decreases |t|
  {
    if t == [] {
      assert b + t == b;
    } else {
      var s := b + t;
      assert s[..|s| - 1] == b + t[..|t| - 1];
      assert IsSpace(s[|s| - 1]);
      TrimEndSpace(b, t[..|t| - 1]);
    }
  }

  /** Trailing whitespace after a stripped string is removed by `strip`. */
  lemma StripTrailingSpace(b: string, t: string)
    requires Stripped(b)
    requires AllSpace(t)
    ensures Strip(b + t) == b
  {
    if b == [] {
      assert b + t == t;
    } else {
      assert (b + t)[0] == b[0];
      assert TrimStart(b + t) == b + t;
      TrimEndSpace(b, t);
    }
  }

  /** Whitespace before a string that does not start with whitespace is exactly
      what `lstrip` removes. */
  lemma {:induction false} TrimStartSpace(p: string, b: string)
    requires AllSpace(p)
    requires b == [] || !IsSpace(b[0])
    ensures TrimStart(p + b) == b
    decreases |p|
  {
    if p == [] {
      assert p + b == b;
    } else {
      var s := p + b;
      assert s[1..] == p[1..] + b;
      assert IsSpace(s[0]);
      TrimStartSpace(p[1..], b);
    }
  }

  /** `strip` removes exactly the whitespace at the two ends: whenever `s` is
      text with no whitespace at its ends, padded on either side by whitespace
      only, `strip` returns that text. Every string splits this way (the text
      being empty when the string is all whitespace), so this determines
      `strip` on every input. */
  lemma StripPadded(p: string, m: string, q: string)
    requires AllSpace(p) && AllSpace(q) && Stripped(m)
    ensures Strip(p + m + q) == m
  {
    if m == [] {
      assert p + m + q == p + q;
      assert AllSpace(p + q) by {
        forall i | 0 <= i < |p + q|
          ensures IsSpace((p + q)[i])
        {
          if i < |p| {
            assert (p + q)[i] == p[i];
          } else {
            assert (p + q)[i] == q[i - |p|];
          }
        }
      }
    } else {
      assert p + m + q == p + (m + q);
      assert (m + q)[0] == m[0];
      TrimStartSpace(p, m + q);
      TrimEndSpace(m, q);
    }
  }

  // ---------------------------------------------------------------------------
  // lower

  /** `c.lower()` for ASCII letters; every other character is kept. */
  function LowerChar(c: char): char {
    if 'A' <= c <= 'Z' then (c as int + 32) as char else c
  }

  function Lower(s: string): (r: string)
    ensures |r| == |s|
    ensures forall i :: 0 <= i < |s| ==> r[i] == LowerChar(s[i])
  {
    seq(|s|, i requires 0 <= i < |s| => LowerChar(s[i]))
  }

  lemma LowerKeepsSpace(c: char)
    ensures IsSpace(LowerChar(c)) <==> IsSpace(c)
  {
  }

  lemma LowerIdempotent(s: string)
    ensures Lower(Lower(s)) == Lower(s)
  {
  }

  /** Lower-casing never turns whitespace into text or text into whitespace, so it
      commutes with `strip`. */
  lemma {:induction false} LowerStripCommute(s: string)
    ensures Strip(Lower(s)) == Lower(Strip(s))
  {
    LowerTrimStart(s);
    var t := TrimStart(s);
    LowerTrimEnd(t);
  }

  lemma {:induction false} LowerTrimStart(s: string)
    ensures TrimStart(Lower(s)) == Lower(TrimStart(s))
    decreases |s|
  {
    if s != [] {
      var l := Lower(s);
      LowerKeepsSpace(s[0]);
      if IsSpace(s[0]) {
        assert l[1..] == Lower(s[1..]);
        assert TrimStart(l) == TrimStart(l[1..]);
        LowerTrimStart(s[1..]);
      } else {
        assert TrimStart(l) == l;
      }
    }
  }

  lemma {:induction false} LowerTrimEnd(s: string)
    ensures TrimEnd(Lower(s)) == Lower(TrimEnd(s))
    decreases |s|
  {
    if s != [] {
      var l := Lower(s);
      LowerKeepsSpace(s[|s| - 1]);
      if IsSpace(s[|s| - 1]) {
        assert l[..|s| - 1] == Lower(s[..|s| - 1]);
        assert TrimEnd(l) == TrimEnd(l[..|s| - 1]);
        LowerTrimEnd(s[..|s| - 1]);
      } else {
        assert TrimEnd(l) == l;
      }
    }
  }

  // ---------------------------------------------------------------------------
  // prefixes, suffixes, occurrences

  predicate HasPrefix(s: string, p: string) {
    |p| <= |s| && s[..|p|] == p
  }

  predicate HasSuffix(s: string, p: string) {
    |p| <= |s| && s[|s| - |p|..] == p
  }

  /** `p` occurs in `s` starting at position `i`. */
  predicate OccursAt(s: string, p: string, i: int) {
    0 <= i && i + |p| <= |s| && s[i..i + |p|] == p
  }

  /** `p in s` */
  predicate Contains(s: string, p: string) {
    exists i :: 0 <= i <= |s| && OccursAt(s, p, i)
  }

  /** `s.find(c)`: the first index of `c`, if any. */
  function IndexOf(s: string, c: char): (r: Option<nat>)
    ensures r.None? <==> c !in s
    ensures r.Some? ==> r.value < |s| && s[r.value] == c && c !in s[..r.value]
  {
    if s == [] then None
    else if s[0] == c then Some(0)
    else match IndexOf(s[1..], c)
      case None => None
      case Some(i) =>
        assert s[..i + 1] == [s[0]] + s[1..][..i];
        Some(i + 1)
  }

  /** Dropping the last character keeps every occurrence that ends before it. */
  lemma OccursInPrefix(s: string, p: string, j: int)
    requires |s| >= 1 && j + |p| < |s|
    ensures OccursAt(s[..|s| - 1], p, j) <==> OccursAt(s, p, j)
  {
    if 0 <= j {
      assert s[..|s| - 1][j..j + |p|] == s[j..j + |p|];
    }
  }

  /** `p` occurs at `i` and at no later position of `s`. */
  predicate LastAt(s: string, p: string, i: int) {
    OccursAt(s, p, i) && forall j :: i < j <= |s| ==> !OccursAt(s, p, j)
  }

  /** `s.rfind(p)`: the last position at which `p` occurs in `s`, if any. */
  function FindLast(s: string, p: string): (r: Option<nat>)
    ensures r.Some? ==> OccursAt(s, p, r.value)
    ensures r.Some? ==> forall j :: r.value < j ==> !OccursAt(s, p, j)
    ensures r.None? <==> !Contains(s, p)
    decreases |s|
  {
    if |s| < |p| then None
    else if HasSuffix(s, p) then
      assert OccursAt(s, p, |s| - |p|);
      Some(|s| - |p|)
    else
      var s' := s[..|s| - 1];
      assert !OccursAt(s, p, |s| - |p|);
      forall j ensures OccursAt(s', p, j) <==> OccursAt(s, p, j) {
        if j + |p| < |s| {
          OccursInPrefix(s, p, j);
        }
      }
      FindLast(s', p)
  }

  // ---------------------------------------------------------------------------
  // split / join

  /** `sep.join(parts)` */
  function Join(sep: string, parts: seq<string>): string {
    if |parts| == 0 then []
    else if |parts| == 1 then parts[0]
    else parts[0] + sep + Join(sep, parts[1..])
  }

  /** `s.split(sep)` for a one-character separator: never empty, and no piece
      holds the separator. */
  function Split(s: string, sep: char): (parts: seq<string>)
    ensures |parts| >= 1
    ensures forall k :: 0 <= k < |parts| ==> sep !in parts[k]
    decreases |s|
  {
    match IndexOf(s, sep)
    case None => [s]
    case Some(i) => [s[..i]] + Split(s[i + 1..], sep)
  }

  /** Joining the pieces of a split with the separator gives back the original. */
  lemma {:induction false} JoinSplit(s: string, sep: char)
    ensures Join([sep], Split(s, sep)) == s
    decreases |s|
  {
    match IndexOf(s, sep)
    case None =>
    case Some(i) =>
      var rest := Split(s[i + 1..], sep);
      JoinSplit(s[i + 1..], sep);
      assert Split(s, sep) == [s[..i]] + rest;
      assert s == s[..i] + [sep] + s[i + 1..];
  }

  /** Splitting a separator-joined list whose pieces hold no separator gives back
      the pieces. */
  lemma {:induction false} SplitJoin(parts: seq<string>, sep: char)
    requires |parts| >= 1
    requires forall k :: 0 <= k < |parts| ==> sep !in parts[k]
    ensures Split(Join([sep], parts), sep) == parts
    decreases |parts|
  {
    if |parts| > 1 {
      var tail := Join([sep], parts[1..]);
      var s := parts[0] + [sep] + tail;
      assert Join([sep], parts) == s;
      SplitAtFirst(parts[0], sep, tail);
      SplitJoin(parts[1..], sep);
      assert parts == [parts[0]] + parts[1..];
    }
  }

  lemma SplitAtFirst(a: string, sep: char, t: string)
    requires sep !in a
    ensures Split(a + [sep] + t, sep) == [a] + Split(t, sep)
  {
    var s := a + [sep] + t;
    assert s[..|a|] == a;
    assert s[|a|] == sep;
    assert IndexOf(s, sep) == Some(|a|);
    assert s[|a| + 1..] == t;
  }

  // ---------------------------------------------------------------------------
  // whitespace words

  /** A maximal run of non-whitespace, as produced by `str.split()`. */
  predicate IsWord(w: string) {
    w != [] && forall i :: 0 <= i < |w| ==> !IsSpace(w[i])
  }

  predicate AllWords(ws: seq<string>) {
    forall k :: 0 <= k < |ws| ==> IsWord(ws[k])
  }

  /** Length of the non-whitespace run at the start of `s`. */
  function WordLen(s: string): (n: nat)
    ensures n <= |s|
    ensures forall i :: 0 <= i < n ==> !IsSpace(s[i])
    ensures n == |s| || IsSpace(s[n])
  {
    if s == [] || IsSpace(s[0]) then 0 else 1 + WordLen(s[1..])
  }

  /** `s.split()` with no argument: the whitespace-separated words of `s`. */
  function Words(s: string): (ws: seq<string>)
    ensures AllWords(ws)
    decreases |s|
  {
    if s == [] then []
    else if IsSpace(s[0]) then Words(s[1..])
    else
      var n := WordLen(s);
      [s[..n]] + Words(s[n..])
  }

  lemma WordLenOfWord(w: string, rest: string)
    requires IsWord(w)
    requires rest == [] || IsSpace(rest[0])
    ensures WordLen(w + rest) == |w|
  {
    var s := w + rest;
    assert forall i :: 0 <= i < |w| ==> s[i] == w[i];
    assert |w| == |s| || s[|w|] == rest[0];
  }

  /** Splitting words joined by single spaces gives the words back. */
  lemma {:induction false} WordsOfJoin(ws: seq<string>)
    requires AllWords(ws)
    ensures Words(Join(" ", ws)) == ws
    decreases |ws|
  {
    if |ws| == 0 {
    } else if |ws| == 1 {
      var w := ws[0];
      WordLenOfWord(w, []);
      assert w + [] == w;
      assert w[|w|..] == [];
      assert w[..|w|] == w;
    } else {
      var w := ws[0];
      var j := Join(" ", ws[1..]);
      var s := Join(" ", ws);
      assert s == w + (" " + j);
      WordLenOfWord(w, " " + j);
      assert s[..|w|] == w;
      assert s[|w|..] == " " + j;
      assert (" " + j)[1..] == j;
      assert Words(" " + j) == Words(j);
      WordsOfJoin(ws[1..]);
      assert ws == [w] + ws[1..];
    }
  }

  /** Every whitespace character of `s` is a single space with text on both sides. */
  predicate SingleSpaced(s: string) {
    forall i :: 0 <= i < |s| && IsSpace(s[i]) ==>
      s[i] == ' ' && 0 < i < |s| - 1 && !IsSpace(s[i - 1]) && !IsSpace(s[i + 1])
  }

  lemma {:induction false} JoinSingleSpaced(ws: seq<string>)
    requires AllWords(ws)
    ensures SingleSpaced(Join(" ", ws))
    ensures Stripped(Join(" ", ws))
    ensures Join(" ", ws) == [] <==> ws == []
    decreases |ws|
  {
    if |ws| > 1 {
      var w := ws[0];
      var j := Join(" ", ws[1..]);
      JoinSingleSpaced(ws[1..]);
      var s := Join(" ", ws);
      assert s == w + " " + j;
      assert forall i :: 0 <= i < |w| ==> s[i] == w[i];
      forall i | 0 <= i < |s| && IsSpace(s[i])
        ensures s[i] == ' ' && 0 < i < |s| - 1 && !IsSpace(s[i - 1]) && !IsSpace(s[i + 1])
      {
        if i == |w| {
          assert s[i - 1] == w[|w| - 1];
          assert s[i + 1] == j[0];
        } else if i > |w| {
          var k := i - |w| - 1;
          assert s[i] == j[k];
          assert s[i - 1] == j[k - 1];
          assert s[i + 1] == j[k + 1];
        }
      }
      assert s[|s| - 1] == j[|j| - 1];
    }
  }

  /** `" ".join(s.split())`: collapses whitespace runs to one space and trims the
      ends, keeping the sequence of words. */
  function NormalizeSpace(s: string): (r: string)
    ensures Words(r) == Words(s)
    ensures Stripped(r)
    ensures SingleSpaced(r)
  {
    var ws := Words(s);
    WordsOfJoin(ws);
    JoinSingleSpaced(ws);
    Join(" ", ws)
  }

  lemma NormalizeSpaceIdempotent(s: string)
    ensures NormalizeSpace(NormalizeSpace(s)) == NormalizeSpace(s)
  {
  }
}

=== FILE: vast_plan.dfy ===
/** The rental-plan estimator: for each preset GPU setup, the speedup over one
    RTX 3090, the wall-clock hours of the causal and the bidirectional run, the
    hours when both run side by side, and their cost at the cheapest offer's
    hourly price, each printed with two decimals. Offer lookup is an input. */
module VastPlan {
  import opened Wrappers
  import opened Text

  datatype Setup = Setup(name: string, gpuName: string, numGpus: int, speedFactor: real, minDiskGb: int)

  /** The setups the plan is printed for, in order. */
  const Presets: seq<Setup> := [
    Setup("1x RTX_3090", "RTX_3090", 1, 1.00, 120),
    Setup("1x RTX_4090", "RTX_4090", 1, 1.60, 120),
    Setup("1x A100_SXM4", "A100_SXM4", 1, 2.00, 120),
    Setup("8x H100_PCIE", "H100_PCIE", 8, 3.20, 500),
    Setup("8x H100_SXM", "H100_SXM", 8, 4.00, 500),
    Setup("8x H100_NVL", "H100_NVL", 8, 3.80, 500)
  ]

  // ---------------------------------------------------------------------------
  // Speedup

  /** `parallel_efficiency`: the fraction of linear scaling kept with `n` GPUs. */
  function ParallelEfficiency(n: int): (e: real)
    ensures 0.0 < e <= 1.0
    ensures n <= 1 <==> e == 1.0
  {
    if n <= 1 then 1.0
    else if n <= 2 then 0.90
    else if n <= 4 then 0.85
    else if n <= 8 then 0.78
    else 0.72
  }

  /** More GPUs never scale better per GPU. */
  lemma EfficiencyNonIncreasing(a: int, b: int)
    requires a <= b
    ensures ParallelEfficiency(b) <= ParallelEfficiency(a)
  {
  }

  /** `speedup_vs_3090`: the one-GPU factor times the GPU count, discounted by
      the parallel efficiency. */
  function Speedup(s: Setup): (sp: real)
    ensures s.numGpus >= 1 && s.speedFactor > 0.0 ==> sp > 0.0
    ensures s.numGpus == 1 ==> sp == s.speedFactor
    ensures s.numGpus >= 1 && s.speedFactor > 0.0 ==> sp <= s.speedFactor * s.numGpus as real
  {
    s.speedFactor * s.numGpus as real * ParallelEfficiency(s.numGpus)
  }

  /** Every preset has at least one GPU and a positive factor, so a positive
      speedup. */
  lemma PresetsHavePositiveSpeedup()
    ensures forall i :: 0 <= i < |Presets| ==>
      Presets[i].numGpus >= 1 && Presets[i].speedFactor > 0.0 && Speedup(Presets[i]) > 0.0
  {
  }

  /** The eight-GPU H100 SXM setup is 8 x 0.78 x 4.0 = 24.96 times one RTX 3090. */
  lemma EightH100SxmSpeedup()
    ensures Speedup(Presets[4]) == 24.96
  {
  }

  // ---------------------------------------------------------------------------
  // Hours and cost

  /** Wall-clock hours of one run: the startup overhead plus the measured
      training time divided by the speedup. */
  function RunHours(startupMinutes: real, steps: int, secPerStep: real, sp: real): (h: real)
    requires sp > 0.0
    ensures steps >= 0 && secPerStep >= 0.0 ==> h >= startupMinutes / 60.0
  {
    var train := steps as real * secPerStep;
    assert steps >= 0 && secPerStep >= 0.0 ==> train >= 0.0;
    startupMinutes / 60.0 + train / (3600.0 * sp)
  }

  /** A slower step never shortens the run. */
  lemma RunHoursMonotone(startupMinutes: real, steps: int, sec1: real, sec2: real, sp: real)
    requires sp > 0.0 && steps >= 0 && sec1 <= sec2
    ensures RunHours(startupMinutes, steps, sec1, sp) <= RunHours(startupMinutes, steps, sec2, sp)
  {
    var n := steps as real;
    assert n * sec1 <= n * sec2 by {
      assert n * sec2 - n * sec1 == n * (sec2 - sec1);
    }
    var d := 3600.0 * sp;
    assert (n * sec1) / d <= (n * sec2) / d by {
      assert (n * sec2) / d - (n * sec1) / d == (n * sec2 - n * sec1) / d;
    }
  }

  datatype Offer = Offer(offerId: Option<int>, pricePerHour: Option<real>, location: Option<string>)

  datatype PlanArgs = PlanArgs(steps: int, causalSecPerStep: real, bidirSecPerStep: real, startupMinutes: real)

  /** One row of the plan before rendering. */
  datatype PlanRow = PlanRow(
    setup: Setup, speedup: real, causalHours: real, bidirHours: real,
    pairParallelHours: real, offer: Offer, pairCost: Option<real>)

  function Max(a: real, b: real): real {
    if a >= b then a else b
  }

  /** The numbers of one row: both runs' hours, the side-by-side hours (the
      longer run) and, when a price is known, the cost of renting two instances,
      each for its own run's hours. */
  function Plan(args: PlanArgs, setup: Setup, offer: Offer): (row: PlanRow)
    requires Speedup(setup) > 0.0
    ensures row.pairParallelHours >= row.causalHours && row.pairParallelHours >= row.bidirHours
    ensures row.pairParallelHours == row.causalHours || row.pairParallelHours == row.bidirHours
    ensures row.pairCost.Some? <==> offer.pricePerHour.Some?
    ensures row.pairCost.Some? ==> row.pairCost.value == offer.pricePerHour.value * (row.causalHours + row.bidirHours)
    ensures row.causalHours == RunHours(args.startupMinutes, args.steps, args.causalSecPerStep, Speedup(setup))
    ensures row.bidirHours == RunHours(args.startupMinutes, args.steps, args.bidirSecPerStep, Speedup(setup))
  {
    var sp := Speedup(setup);
    var causal := RunHours(args.startupMinutes, args.steps, args.causalSecPerStep, sp);
    var bidir := RunHours(args.startupMinutes, args.steps, args.bidirSecPerStep, sp);
    var cost := match offer.pricePerHour
      case None => None
      case Some(price) => Some(price * (causal + bidir));
    PlanRow(setup, sp, causal, bidir, Max(causal, bidir), offer, cost)
  }

  /** The pair is billed for both instances: with a non-negative price and
      non-negative hours it costs at least the price of the side-by-side hours. */
  lemma PairCostCoversParallelHours(args: PlanArgs, setup: Setup, offer: Offer)
    requires Speedup(setup) > 0.0
    requires offer.pricePerHour.Some? && offer.pricePerHour.value >= 0.0
    requires args.steps >= 0 && args.causalSecPerStep >= 0.0 && args.bidirSecPerStep >= 0.0 && args.startupMinutes >= 0.0
    ensures var row := Plan(args, setup, offer);
      row.pairCost.value >= offer.pricePerHour.value * row.pairParallelHours
  {
    var row := Plan(args, setup, offer);
    var p := offer.pricePerHour.value;
    assert row.causalHours >= 0.0 && row.bidirHours >= 0.0;
    assert p * (row.causalHours + row.bidirHours) - p * row.pairParallelHours
      == p * (row.causalHours + row.bidirHours - row.pairParallelHours);
    assert row.causalHours + row.bidirHours - row.pairParallelHours >= 0.0;
  }

  // ---------------------------------------------------------------------------
  // Rendering numbers

  function DigitChar(d: nat): (c: char)
    requires d < 10
    ensures '0' <= c <= '9' && c as int - '0' as int == d
  {
    (('0' as int) + d) as char
  }

  predicate AllDigits(s: string) {
    forall i :: 0 <= i < |s| ==> '0' <= s[i] <= '9'
  }

  /** `str(n)` for a natural number. */
  function NatToString(n: nat): (s: string)
    ensures |s| >= 1 && AllDigits(s)
    ensures |s| == 1 || s[0] != '0'
    decreases n
  {
    if n < 10 then [DigitChar(n)] else NatToString(n / 10) + [DigitChar(n % 10)]
  }

  /** The number a string of decimal digits denotes. */
  function DigitsValue(s: string): nat
    requires AllDigits(s)
    decreases |s|
  {
    if s == [] then 0
    else DigitsValue(s[..|s| - 1]) * 10 + (s[|s| - 1] as int - '0' as int)
  }

  /** Reading back a rendered natural number gives the number. */
  lemma {:induction false} NatToStringRoundTrip(n: nat)
    ensures DigitsValue(NatToString(n)) == n
    decreases n
  {
    if n >= 10 {
      var s := NatToString(n);
      assert s[..|s| - 1] == NatToString(n / 10);
      NatToStringRoundTrip(n / 10);
    }
  }

  /** `str(i)` for an integer: a minus sign exactly for a negative number,
      followed by the decimal digits of its magnitude. */
  function IntToString(i: int): (s: string)
    ensures s != "-"
    ensures (|s| > 0 && s[0] == '-') <==> i < 0
    ensures i < 0 ==> AllDigits(s[1..]) && DigitsValue(s[1..]) == -i
    ensures i >= 0 ==> AllDigits(s) && DigitsValue(s) == i
    ensures i >= 0 ==> |s| >= 1 && (|s| == 1 || s[0] != '0')
    ensures i < 0 ==> |s| >= 2 && s[1] != '0'
  {
    if i < 0 then
      NatToStringRoundTrip(-i);
      assert ("-" + NatToString(-i))[1..] == NatToString(-i);
      "-" + NatToString(-i)
    else
      NatToStringRoundTrip(i);
      NatToString(i)
  }

  /** The nearest integer to a non-negative real, ties to even. */
  function RoundHalfEven(y: real): (k: nat)
    requires y >= 0.0
    ensures -0.5 <= k as real - y <= 0.5
  {
    var f := y.Floor;
    var frac := y - f as real;
    if frac > 0.5 then f + 1
    else if frac < 0.5 then f
    else if f % 2 == 0 then f else f + 1
  }

  function Abs(x: real): real {
    if x < 0.0 then -x else x
  }

  /** Hundredths of `|x|`, rounded. */
  function Cents(x: real): nat {
    RoundHalfEven(Abs(x) * 100.0)
  }

  /** A sign, a whole part, a point and two decimals. */
  function Decimal2(neg: bool, whole: nat, hundredths: nat): string
    requires hundredths < 100
  {
    (if neg then "-" else "") + NatToString(whole) + "." + [DigitChar(hundredths / 10), DigitChar(hundredths % 10)]
  }

  /** `f"{x:.2f}"`: the hundredths of `|x|`, rounded, with the sign of `x`. */
  function Fixed2(x: real): (s: string)
    ensures s != "-"
  {
    var c := Cents(x);
    Decimal2(x < 0.0, c / 100, c % 100)
  }

  /** `fmt(x)`: a missing value is a dash, a number has two decimals. */
  function Fmt(x: Option<real>): (s: string)
    ensures x.None? <==> s == "-"
  {
    match x
    case None => "-"
    case Some(v) => Fixed2(v)
  }

  /** The value of digits, a point and exactly two digits. */
  function ParseUnsigned2(body: string): Option<real> {
    if |body| < 4 || body[|body| - 3] != '.' then None
    else
      var whole := body[..|body| - 3];
      var frac := body[|body| - 2..];
      if !AllDigits(whole) || !AllDigits(frac) then None
      else Some(DigitsValue(whole) as real + DigitsValue(frac) as real / 100.0)
  }

  /** The value a two-decimal rendering denotes: an optional minus before an
      unsigned rendering. */
  function ParseFixed2(s: string): (r: Option<real>) {
    if |s| >= 1 && s[0] == '-' then
      match ParseUnsigned2(s[1..])
      case None => None
      case Some(v) => Some(-v)
    else ParseUnsigned2(s)
  }

  /** Two decimal digits read back as their value. */
  lemma TwoDigitsValue(h: nat)
    requires h < 100
    ensures AllDigits([DigitChar(h / 10), DigitChar(h % 10)])
    ensures DigitsValue([DigitChar(h / 10), DigitChar(h % 10)]) == h
  {
    var frac := [DigitChar(h / 10), DigitChar(h % 10)];
    assert frac[..1] == [DigitChar(h / 10)];
    assert frac[..1][..0] == [];
    assert DigitsValue(frac[..1]) == h / 10;
    assert DigitsValue(frac) == DigitsValue(frac[..1]) * 10 + h % 10;
  }

  /** An unsigned rendering reads back as its value. */
  lemma ParseUnsignedDecimal2(whole: nat, hundredths: nat)
    requires hundredths < 100
    ensures ParseUnsigned2(NatToString(whole) + "." + [DigitChar(hundredths / 10), DigitChar(hundredths % 10)])
      == Some(whole as real + hundredths as real / 100.0)
  {
    NatToStringRoundTrip(whole);
    TwoDigitsValue(hundredths);
    ParseDigits(NatToString(whole), [DigitChar(hundredths / 10), DigitChar(hundredths % 10)]);
  }

  /** Digits, a point and two digits read back as the whole part plus the
      hundredths. */
  lemma ParseDigits(w: string, frac: string)
    requires |w| >= 1 && AllDigits(w)
    requires |frac| == 2 && AllDigits(frac)
    ensures ParseUnsigned2(w + "." + frac) == Some(DigitsValue(w) as real + DigitsValue(frac) as real / 100.0)
  {
    var body := w + "." + frac;
    assert body[..|body| - 3] == w;
    assert body[|body| - 2..] == frac;
  }

  /** The minus sign only negates what follows it. */
  lemma ParseSign(body: string)
    requires |body| >= 1 && body[0] != '-'
    ensures ParseFixed2(body) == ParseUnsigned2(body)
    ensures ParseFixed2("-" + body) == match ParseUnsigned2(body) case None => None case Some(v) => Some(-v)
  {
    assert ("-" + body)[1..] == body;
  }

  /** Reading back a rendering gives the signed value it spells. */
  lemma ParseDecimal2(neg: bool, whole: nat, hundredths: nat)
    requires hundredths < 100
    ensures ParseFixed2(Decimal2(neg, whole, hundredths))
      == Some(var v := whole as real + hundredths as real / 100.0; if neg then -v else v)
  {
    var w := NatToString(whole);
    var frac := [DigitChar(hundredths / 10), DigitChar(hundredths % 10)];
    ParseUnsignedDecimal2(whole, hundredths);
    ParseSigned(neg, w, frac, whole as real + hundredths as real / 100.0);
  }

  /** A signed rendering reads back as its unsigned reading, negated after a
      minus sign. */
  lemma ParseSigned(neg: bool, w: string, frac: string, v: real)
    requires |w| >= 1 && w[0] != '-'
    requires ParseUnsigned2(w + "." + frac) == Some(v)
    ensures ParseFixed2((if neg then "-" else "") + w + "." + frac) == Some(if neg then -v else v)
  {
    var body := w + "." + frac;
    assert body[0] == w[0];
    ParseSign(body);
    if neg {
      assert "-" + w + "." + frac == "-" + body;
    } else {
      assert "" + w + "." + frac == body;
    }
  }

  /** A rendered number reads back as a value within half a hundredth of it. */
  lemma Fixed2Accurate(x: real)
    ensures ParseFixed2(Fixed2(x)).Some?
    ensures -0.005 <= ParseFixed2(Fixed2(x)).value - x <= 0.005
  {
    var c := Cents(x);
    ParseDecimal2(x < 0.0, c / 100, c % 100);
    assert (c / 100) as real + (c % 100) as real / 100.0 == c as real / 100.0;
  }

  // ---------------------------------------------------------------------------
  // The printed table

  /** A printed cell that reads back as `x` to within half a hundredth. */
  predicate ReadsAs(cell: string, x: real) {
    ParseFixed2(cell).Some? && -0.005 <= ParseFixed2(cell).value - x <= 0.005
  }

  /** A present value is printed so that it reads back as itself. */
  lemma FmtAccurate(x: Option<real>)
    ensures x.Some? ==> ReadsAs(Fmt(x), x.value)
  {
    if x.Some? {
      Fixed2Accurate(x.value);
    }
  }

  /** The offer id cell: `str(id)`, or "-" when there is no offer. */
  function IdCell(id: Option<int>): (c: string)
    ensures c == "-" <==> id.None?
    ensures id.Some? ==> c == IntToString(id.value)
  {
    match id case None => "-" case Some(i) => IntToString(i)
  }

  /** The cells of one printed row: setup name, speedup, the three hour figures,
      offer id, hourly price and pair cost. */
  function RowCells(row: PlanRow): (cells: seq<string>)
    ensures |cells| == 8 && cells[0] == row.setup.name
    ensures cells[5] == "-" <==> row.offer.offerId.None?
    ensures row.offer.offerId.Some? ==> cells[5] == IntToString(row.offer.offerId.value)
    ensures cells[6] == "-" <==> row.offer.pricePerHour.None?
    ensures cells[7] == "-" <==> row.pairCost.None?
  {
    [ row.setup.name,
      Fmt(Some(row.speedup)),
      Fmt(Some(row.causalHours)),
      Fmt(Some(row.bidirHours)),
      Fmt(Some(row.pairParallelHours)),
      IdCell(row.offer.offerId),
      Fmt(row.offer.pricePerHour),
      Fmt(row.pairCost) ]
  }

  /** Each number cell of a row reads back as the figure it prints, in the
      column order of the table header. */
  lemma RowCellsReadBack(row: PlanRow)
    ensures ReadsAs(RowCells(row)[1], row.speedup)
    ensures ReadsAs(RowCells(row)[2], row.causalHours)
    ensures ReadsAs(RowCells(row)[3], row.bidirHours)
    ensures ReadsAs(RowCells(row)[4], row.pairParallelHours)
    ensures row.offer.pricePerHour.Some? ==> ReadsAs(RowCells(row)[6], row.offer.pricePerHour.value)
    ensures row.pairCost.Some? ==> ReadsAs(RowCells(row)[7], row.pairCost.value)
  {
    FmtAccurate(Some(row.speedup));
    FmtAccurate(Some(row.causalHours));
    FmtAccurate(Some(row.bidirHours));
    FmtAccurate(Some(row.pairParallelHours));
    FmtAccurate(row.offer.pricePerHour);
    FmtAccurate(row.pairCost);
  }

  /** The plan: one row per preset, in order, with that preset's offer. */
  function PlanTable(args: PlanArgs, offers: Setup -> Offer): (rows: seq<PlanRow>)
    ensures |rows| == |Presets|
    ensures forall i :: 0 <= i < |Presets| ==> rows[i].setup == Presets[i] && rows[i] == Plan(args, Presets[i], offers(Presets[i]))
  {
    PresetsHavePositiveSpeedup();
    seq(|Presets|, i requires 0 <= i < |Presets| => Plan(args, Presets[i], offers(Presets[i])))
  }

  function NoOffer(s: Setup): Offer {
    Offer(None, None, None)
  }

  /** Without live offers no row has a price or a cost. */
  lemma NoOffersNoCost(args: PlanArgs)
    ensures var rows := PlanTable(args, NoOffer);
      forall i :: 0 <= i < |rows| ==> rows[i].pairCost.None? && RowCells(rows[i])[7] == "-"
  {
  }
}

=== FILE: wrappers.dfy ===
/** Optional values and success/failure results, shared by every module of the model. */
module Wrappers {

  /** A value that may be missing (Python's `None`). */
  datatype Option<+T> = None | Some(value: T) {

    /** The carried value, or `default` when missing. */
    function GetOr(default: T): T {
      match this
      case Some(v) => v
      case None => default
    }
  }

  /** The outcome of an operation that either returns a value or raises an error. */
  datatype Result<+T, +E> = Success(value: T) | Failure(error: E) {

    predicate IsFailure() {
      Failure?
    }

    function PropagateFailure<U>(): Result<U, E>
      requires Failure?
    {
      Failure(error)
    }

    function Extract(): T
      requires Success?
    {
      value
    }
  }
}
